=== FILE: README.md ===
# AI code reviewer — a Dafny model of the heuristic analyser

The AI code reviewer is a line-oriented heuristic linter for C#, VB.NET and SQL snippets.
A snippet is a string. The reviewer splits it into lines and produces four things:

- a detected language;
- a list of `Issue`s from three sources: per-language rule checks, naming checks and code-smell scans;
- a one-sentence summary;
- a re-indented copy of the code with its keywords re-cased.

This project models that core as pure Dafny functions over `string = seq<char>`. The scans that
jump over whole methods or classes are also written as `while`-loop methods and proved equal to
their functional references. The contracts state what each component promises: which lines get
which issue and why, the priority between detection markers, and the fixed points of the
summary's finaliser. They also state the line structure the re-indenter keeps.

Modules, one per service of the original program:

| module | file | models |
|---|---|---|
| `Text` | text.dfy | the .NET string primitives the services use: ordinal case-insensitive search, `Trim`, `Split`, and the shared `SplitLines` |
| `Model` | model.dfy | `DetectedLanguage`, `Issue`, `AnalysisResult` |
| `Patterns` | patterns.dfy | the regular expressions the services use, written as deterministic matchers |
| `LanguageDetector` | language_detector.dfy | `Detect`, `ToName`, `DetectName` |
| `NameQualityChecker` | name_quality.dfy | the per-identifier decision procedure, suggestions, loop-iterator exemptions and the three per-language scans |
| `CodeSmellDetector` | code_smells.dfy | deep nesting, long parameter lists, large classes or procedures, repeated literals |
| `SummaryGenerator` | summary.dfy | the .NET and SQL heuristics, `ExtractSqlTable` and `Finalize` |
| `Beautifier` | beautifier.dfy | the three indent state machines and keyword re-casing |
| `CodeAnalyzerService` | code_analyzer.dfy | the per-language rule checks and the orchestration of all of the above |

## Model

| member | source | states |
|---|---|---|
| Text.ToLower | Services/LanguageDetector.cs:23-24 | ordinal case folding keeps the length of the text |
| Text.IndexOfIgnoreCase | Services/CodeSmellDetector.cs:99-104 | the result is -1 or a position at or after `from` where the token occurs case-insensitively, and no earlier such position exists |
| Text.IndexOfChar | Services/CodeAnalyzerService.cs:126 | the result is the first position of the character, or -1 exactly when the character is absent |
| Text.CountChar | Services/Beautifier.cs:122-125 | the count is at most the length, and it is zero exactly when the character does not occur |
| Text.CountCharAppend | Services/Beautifier.cs:122-125 | counting is additive over concatenation |
| Text.TrimStart | Services/Beautifier.cs:29 | the result is a suffix that starts with a non-white character, and everything removed is white space |
| Text.TrimEnd | Services/Beautifier.cs:29 | the result is a prefix that ends with a non-white character, and everything removed is white space |
| Text.Trim | Services/Beautifier.cs:29-30 | both ends of the result are non-white; the result is empty exactly when the input is blank; it introduces no new characters |
| Text.TrimKeeps | Services/Beautifier.cs:29 | a string already without white ends is returned unchanged |
| Text.Spaces | Services/Beautifier.cs:39 | the indent string has exactly n characters, all spaces |
| Text.NormalizeNewlines | Services/CodeAnalyzerService.cs:287-288 | no carriage return survives, and the number of line feeds equals the number of line breaks of the input |
| Text.Split | Services/CodeAnalyzerService.cs:287-288 | the number of pieces is the separator count plus one |
| Text.SplitPiecesFree | Services/CodeAnalyzerService.cs:287-288 | no piece of a split holds the separator |
| Text.SplitLines | Services/CodeAnalyzerService.cs:287-288 | a text with b line breaks (CRLF, CR or LF) gives b + 1 lines, and no line holds a CR or LF |
| Text.JoinSplit | Services/Beautifier.cs:46 | joining the split pieces with the separator gives back the original text |
| Text.SplitJoin | Services/Beautifier.cs:46 | splitting a join of separator-free pieces gives back the pieces |
| Text.SplitNoSep | Services/CodeAnalyzerService.cs:287-288 | a text without the separator splits into itself alone |
| Text.SplitPiece | Services/CodeAnalyzerService.cs:287-288 | splitting distributes over a separator: the first piece comes first |
| Text.ContainsIgnoreCaseFolded | Services/LanguageDetector.cs:23-24 | case-insensitive containment depends only on the case-folded text |
| Text.BlankFolded | Services/LanguageDetector.cs:21 | blankness depends only on the case-folded text |
| Text.ContainsNotBlank | Services/LanguageDetector.cs:21-36 | a text containing a token with a non-white character is not blank |
| Text.ContainsSlice | Services/LanguageDetector.cs:31 | a text that contains a token also contains each slice of it |
| Text.NormalizeWithoutBreaks | Services/CodeAnalyzerService.cs:287-288 | line-ending normalisation leaves text without carriage returns unchanged |
| Text.SingleLine | Services/CodeAnalyzerService.cs:287-288 | a text without line breaks is a single line |
| Patterns.Span | Services/CodeSmellDetector.cs:42 | a character-class run stops exactly at the first character outside the class |
| Patterns.IdentifierAt | Services/CodeSmellDetector.cs:42 | a captured name matches `[A-Za-z_][A-Za-z0-9_]*` and is maximal |
| Patterns.ArgsEnd | Services/CodeSmellDetector.cs:153 | the parameter text of `\(([^)]*)\)` ends at the first `)` and holds none |
| Patterns.NameAndTail | Services/CodeSmellDetector.cs:153 | a signature match captures an identifier, and its parameter text holds no `)` |
| Patterns.SignatureFrom | Services/CodeSmellDetector.cs:42 | the optional-modifier, type-then-name signature captures an identifier |
| Patterns.KeywordFrom | Services/CodeSmellDetector.cs:83 | the modifier, keyword and name shape (`Sub`/`Function`, `class`, `CREATE PROC`) captures an identifier |
| Patterns.DeclarationAt | Services/NameQualityChecker.cs:53-55 | the variable-declaration shape captures an identifier |
| Patterns.SourceAliasAt | Services/NameQualityChecker.cs:121-123 | a `FROM`/`JOIN` alias match captures an identifier |
| Patterns.ForHeaderAt | Services/NameQualityChecker.cs:212 | a `for ( ... )` header capture holds no `)` |
| Patterns.IteratorAt | Services/NameQualityChecker.cs:217 | an iterator capture is exactly `i` or `j` |
| Patterns.StringLiteralAt | Services/CodeSmellDetector.cs:331 | the lazy `"(.*?)"` capture holds no quote |
| Patterns.NumberEnd | Services/CodeSmellDetector.cs:332 | a number match is non-empty |
| Patterns.TableAfterAt | Services/SummaryGenerator.cs:108-110 | the table capture after a keyword is non-empty |
| Patterns.MatchAt | Services/CodeSmellDetector.cs:42-47 | a match at a position is well formed; a name capture is an identifier; a parameter capture holds no `)` |
| Patterns.FirstMatch | Services/CodeSmellDetector.cs:47 | the first match is the match at the earliest position that has one; none means no position matches |
| Patterns.AllMatches | Services/NameQualityChecker.cs:44-50 | the matches are non-overlapping, in order, and start with the first match |
| Patterns.AllMatchesNext | Services/NameQualityChecker.cs:44-50 | each match after the first is the first match found from where the previous match ended |
| Patterns.AllMatchesLast | Services/NameQualityChecker.cs:44-50 | no match is found from where the last match ended |
| Patterns.FirstName | Services/SummaryGenerator.cs:34-41 | a name is found exactly when the pattern matches, and it is an identifier |
| Patterns.AllNames | Services/NameQualityChecker.cs:44-60 | every captured name of an identifier pattern is an identifier |
| Patterns.NoMatchFrom | Services/CodeSmellDetector.cs:47-48 | if no position matches, the search fails |
| Patterns.StartPhraseMatch | Services/Beautifier.cs:60 | an anchored `^...` pattern matches exactly when it matches at position 0 |
| Patterns.StartWordMatch | Services/Beautifier.cs:88 | `^word\b` matches exactly when the text starts with the word, case-insensitively, followed by a word boundary |
| Patterns.FirstPhraseEndWord | Services/Beautifier.cs:69 | among single-word alternatives, the first alternative that fits decides where the match ends |
| Patterns.NoPhraseFits | Services/Beautifier.cs:69 | no alternative longer than the rest of the text can match |
| Patterns.PhraseTooLong | Services/Beautifier.cs:97 | a text shorter than every alternative never matches |
| LanguageDetector.Detect | Services/LanguageDetector.cs:19-39 | blank code is Unknown |
| LanguageDetector.DetectTiers | Services/LanguageDetector.cs:26-38 | any C# marker gives CSharp; VBNet exactly when there is no C# marker and "Imports ", "Module" or "Sub" occurs; Sql exactly when there is no C# or VB marker and an SQL marker occurs; Unknown exactly when the code is blank or has no marker |
| LanguageDetector.MixedMarkersPreferCSharp | Services/LanguageDetector.cs:26-28 | code with both "namespace" and "SELECT " is CSharp |
| LanguageDetector.EndSubHasSub | Services/LanguageDetector.cs:31 | the "End Sub" marker adds nothing because every text containing it contains "Sub" |
| LanguageDetector.MarkerNotBlank | Services/LanguageDetector.cs:21-36 | a text holding any marker is not blank, so the blank test never hides a marker |
| LanguageDetector.DetectIgnoresCase | Services/LanguageDetector.cs:23-24 | detection is invariant under ASCII case changes of the code |
| LanguageDetector.ToName | Services/LanguageDetector.cs:52-58 | every language has a non-empty display name |
| LanguageDetector.DetectName | Services/LanguageDetector.cs:44-47 | the detected name is one of "CSharp", "VBNet", "SQL", "Unknown" |
| NameQualityChecker.GenericIgnoresCase | Services/NameQualityChecker.cs:11-12 | generic-name membership ignores case |
| NameQualityChecker.GenericNamesFlagged | Services/NameQualityChecker.cs:173-176 | "temp", "data" and "value" in any casing are reported as generic |
| NameQualityChecker.EvaluateName | Services/NameQualityChecker.cs:151-177 | at most one issue per name; one exactly when the name has a fault (leading digit first, then short function, short non-exempt variable, generic); it is an Info `Naming.NonDescriptive` issue at the given line |
| NameQualityChecker.IdentifierNeverDigitFault | Services/NameQualityChecker.cs:154-158 | a name captured as an identifier never has the leading-digit fault |
| NameQualityChecker.MakeIssue | Services/NameQualityChecker.cs:179-187 | every naming issue is an Info `Naming.NonDescriptive` at the given line |
| NameQualityChecker.Suggest | Services/NameQualityChecker.cs:189-205 | every suggestion starts with the base sentence; SQL with a verb names the verb; the suggestion is the base sentence alone exactly when neither the SQL nor the loan case applies |
| NameQualityChecker.SqlVerb | Services/NameQualityChecker.cs:112-114 | INSERT anywhere gives "InsertRecord" even when UPDATE also occurs; otherwise UPDATE gives "UpdateRecord"; there is no verb exactly when neither occurs |
| NameQualityChecker.CSharpLoopIterator | Services/NameQualityChecker.cs:212-218 | a C# `for` header yields at most the name `i` or `j` |
| NameQualityChecker.CSharpIterators | Services/NameQualityChecker.cs:207-222 | the exemption set is exactly the iterators found on some line, and holds only `i` and `j` |
| NameQualityChecker.VBLoopIterator | Services/NameQualityChecker.cs:229-234 | a VB `For x =` yields at most `i` or `j` |
| NameQualityChecker.VBIterators | Services/NameQualityChecker.cs:224-238 | the exemption set is exactly the iterators found on some line, and holds only `i` and `j` |
| NameQualityChecker.ExemptFromCSharpLoop | Services/NameQualityChecker.cs:58-59 | an exempt C# variable is a one-letter `i` or `j` that some `for` header declared |
| NameQualityChecker.ExemptFromVBLoop | Services/NameQualityChecker.cs:97-98 | an exempt VB variable is a one-letter `i` or `j` that some `For` loop declared |
| NameQualityChecker.EvaluateNames | Services/NameQualityChecker.cs:44-50 | the issues of one pattern on one line are exactly those of its captured names, at that line, at most one per name |
| NameQualityChecker.NameTable | Services/NameQualityChecker.cs:39-61 | for every line and every pattern, the table holds that pattern's captured names on that line |
| NameQualityChecker.LineIssues | Services/NameQualityChecker.cs:39-61 | every issue of one line is an Info naming issue at that line |
| NameQualityChecker.LineComplete | Services/NameQualityChecker.cs:43-60 | every issue of a captured name on the line is reported for the line |
| NameQualityChecker.LineSound | Services/NameQualityChecker.cs:43-60 | every issue reported for a line comes from a name one of the patterns captured |
| NameQualityChecker.ScanShape | Services/NameQualityChecker.cs:39-62 | the line scan gives only Info naming issues, within the scanned lines, in non-decreasing line order |
| NameQualityChecker.AnalyzeCSharp | Services/NameQualityChecker.cs:25-65 | the C# naming checks give Info naming issues within the code's lines, in line order |
| NameQualityChecker.AnalyzeVB | Services/NameQualityChecker.cs:67-104 | the VB.NET naming checks give Info naming issues within the code's lines, in line order |
| NameQualityChecker.AnalyzeSql | Services/NameQualityChecker.cs:106-149 | the SQL naming checks give Info naming issues within the code's lines, in line order |
| NameQualityChecker.ScanComplete | Services/NameQualityChecker.cs:39-62 | every issue of every captured name on every line is reported |
| NameQualityChecker.ScanSound | Services/NameQualityChecker.cs:39-62 | every reported issue names a line and comes from a name captured on that line |
| NameQualityChecker.ScanReportsEveryFault | Services/NameQualityChecker.cs:116-146 | a captured name with a fault is reported at its 1-based line, with its fault's message |
| NameQualityChecker.ScanReportsOnlyFaults | Services/NameQualityChecker.cs:116-146 | every reported issue is the fault of a name captured on that line |
| NameQualityChecker.Analyze | Services/NameQualityChecker.cs:14-23 | blank code and unknown languages give no issues; all issues are Info naming issues within the lines, in line order |
| NameQualityChecker.AnalyzeNeverReportsDigit | Services/NameQualityChecker.cs:153-158 | the scans never report a leading digit, because every captured name is an identifier |
| CodeSmellDetector.GreedySkip | Services/CodeSmellDetector.cs:368-376 | positions without the token do not change the greedy count |
| CodeSmellDetector.CountTokenIsGreedy | Services/CodeSmellDetector.cs:368-376 | the `IndexOf` loop counts exactly the leftmost non-overlapping occurrences |
| CodeSmellDetector.CountTokenFits | Services/CodeSmellDetector.cs:368-376 | count times token length is at most the length of the line |
| CodeSmellDetector.CountCommas | Services/CodeSmellDetector.cs:378-381 | the result is the number of commas in the text |
| CodeSmellDetector.Tallies | Services/CodeSmellDetector.cs:127-131 | each line's BEGIN and END counts are taken with `CountToken` |
| CodeSmellDetector.SqlMaxDepth | Services/CodeSmellDetector.cs:126-135 | the running maximum never decreases |
| CodeSmellDetector.SqlMaxDepthExceeds | Services/CodeSmellDetector.cs:126-135 | the maximum exceeds a bound exactly when the running depth, after adding a line's BEGINs and before subtracting its ENDs, exceeds it on some line |
| CodeSmellDetector.DeepNestingSql | Services/CodeSmellDetector.cs:123-147 | at most one issue, at line 1, present exactly when some line pushes the BEGIN depth above 3 |
| CodeSmellDetector.ParamCount | Services/CodeSmellDetector.cs:161-162 | blank parameter text counts as 0, anything else as commas + 1 |
| CodeSmellDetector.FirstParams | Services/CodeSmellDetector.cs:153-160 | captured parameter text holds no `)` |
| CodeSmellDetector.LongParameterLines | Services/CodeSmellDetector.cs:155-173 | issues are in ascending line order (so at most one per line), and each sits on a line whose signature has more than 5 parameters |
| CodeSmellDetector.LongParameterLinesComplete | Services/CodeSmellDetector.cs:155-173 | every line with such a signature is reported |
| CodeSmellDetector.LongParameterLinesExact | Services/CodeSmellDetector.cs:155-173 | line j + 1 is reported exactly when line j has a signature with more than 5 parameters |
| CodeSmellDetector.LongParameterLists | Services/CodeSmellDetector.cs:149-225 | every issue is a `Smell.LongParameterList` Warning within the lines, in ascending order |
| CodeSmellDetector.WalkBraces | Services/CodeSmellDetector.cs:59-63 | a line changes the depth by its `{` count minus its `}` count; the body starts at the first `{`; the maximum never decreases |
| CodeSmellDetector.NestExtent | Services/CodeSmellDetector.cs:57-65 | the inner scan ends within the lines, strictly after its start, and measures at least the depth already seen |
| CodeSmellDetector.Starts | Services/CodeSmellDetector.cs:46-49 | one start verdict per line |
| CodeSmellDetector.MethodExtent | Services/CodeSmellDetector.cs:52-65 | a method's scan always moves past its start line, so the outer loop advances |
| CodeSmellDetector.Extents | Services/CodeSmellDetector.cs:44-78 | the scans from every line are all well formed |
| CodeSmellDetector.DeepNestingShape | Services/CodeSmellDetector.cs:44-78 | deep-nesting issues are ascending Warnings, each at a method start whose depth exceeds 3 |
| CodeSmellDetector.DeepNestingExact | Services/CodeSmellDetector.cs:66-77 | at a method start the outer scan reaches, the issue is present exactly when the measured depth exceeds 3 |
| CodeSmellDetector.MeasureBraces | Services/CodeSmellDetector.cs:52-65 | the loop computes the reference brace extent |
| CodeSmellDetector.EndIfSkipNeverFires | Services/CodeSmellDetector.cs:101-102 | the "End If" skip never applies: a position where "If" matches holds an 'i' in some casing, and a position where "End If" matches holds an 'e', so the first "End If" never starts where an "If" match does |
| CodeSmellDetector.VbIfTokensCount | Services/CodeSmellDetector.cs:98-104 | the VB "If" loop counts the same occurrences as `CountToken` |
| CodeSmellDetector.VbLineStep | Services/CodeSmellDetector.cs:96-105 | the running maximum never decreases |
| CodeSmellDetector.VbExtent | Services/CodeSmellDetector.cs:94-107 | the VB inner scan ends within the lines, after its start, and measures at least the depth already seen |
| CodeSmellDetector.MeasureIfs | Services/CodeSmellDetector.cs:91-107 | the loop computes the reference VB extent |
| CodeSmellDetector.Measure | Services/CodeSmellDetector.cs:52-65 | the dialect's loop computes its reference extent |
| CodeSmellDetector.DetectDeepNesting | Services/CodeSmellDetector.cs:40-121 | the index-jumping outer loop yields exactly the reference list of deep-nesting issues |
| CodeSmellDetector.StructureStart | Services/CodeSmellDetector.cs:231 | every structure-start pattern captures an identifier |
| CodeSmellDetector.Marks | Services/CodeSmellDetector.cs:241-250 | one mark per line |
| CodeSmellDetector.SizeFrom | Services/CodeSmellDetector.cs:241-251 | a structure's scan ends within the lines; a SQL procedure's scan adds no methods |
| CodeSmellDetector.Sizes | Services/CodeSmellDetector.cs:233-264 | the scans from every line are all well formed |
| CodeSmellDetector.LargeShape | Services/CodeSmellDetector.cs:227-327 | large-structure issues are ascending Info issues, each at a start line whose structure is large |
| CodeSmellDetector.LargeExact | Services/CodeSmellDetector.cs:251-263 | at a structure start the scan reaches, the issue is present exactly when span > 300 or methods > 10 (span > 300 alone for SQL) |
| CodeSmellDetector.LargeVisitsChain | Services/CodeSmellDetector.cs:263 | reachability of start lines is transitive along the scan |
| CodeSmellDetector.LargeSkipsLineAfterEnd | Services/CodeSmellDetector.cs:263 | after a structure the scan skips the line right after its last scanned line |
| CodeSmellDetector.MeasureStructure | Services/CodeSmellDetector.cs:239-251 | the loop computes the reference span and method count |
| CodeSmellDetector.ScanStructures | Services/CodeSmellDetector.cs:233-264 | the outer loop yields exactly the reference list of large-structure issues |
| CodeSmellDetector.DetectLargeStructures | Services/CodeSmellDetector.cs:227-327 | the method equals the reference scan over the lines' marks and sizes |
| CodeSmellDetector.NonEmpty | Services/CodeSmellDetector.cs:340 | empty string literals are dropped and nothing else is |
| CodeSmellDetector.At | Services/CodeSmellDetector.cs:341-348 | every literal of a line is recorded with that line |
| CodeSmellDetector.LineOccurrences | Services/CodeSmellDetector.cs:337-349 | every occurrence found on a line carries that line's number |
| CodeSmellDetector.Occurrences | Services/CodeSmellDetector.cs:335-350 | every occurrence carries a line number within the text |
| CodeSmellDetector.CollectGroups | Services/CodeSmellDetector.cs:333-350 | the case-insensitive map keeps, per literal, its first spelling and every occurrence's line, in order |
| CodeSmellDetector.RecordGroups | Services/CodeSmellDetector.cs:341-342 | recording one more occurrence keeps the map faithful |
| CodeSmellDetector.FirstSpellingFolds | Services/CodeSmellDetector.cs:333 | the stored spelling folds to its key |
| CodeSmellDetector.Repeated | Services/CodeSmellDetector.cs:352-365 | every issue is the issue of a key with at least 3 occurrences, every such key's issue is present, and there are no more issues than keys |
| CodeSmellDetector.RepeatedDistinct | Services/CodeSmellDetector.cs:352-365 | distinct keys, each stored with a spelling that folds back to it, give issues without repeats, since the message names the spelling |
| CodeSmellDetector.RepeatedLiterals | Services/CodeSmellDetector.cs:329-366 | each literal, compared ignoring case, is reported at most once |
| CodeSmellDetector.RepeatedLiteralExact | Services/CodeSmellDetector.cs:329-366 | a literal is reported exactly when it occurs at least 3 times, counting occurrences rather than lines, and the issue is at its first line |
| CodeSmellDetector.RepeatedShape | Services/CodeSmellDetector.cs:356-363 | repeated-literal issues are Info issues within the lines |
| CodeSmellDetector.DeepNesting | Services/CodeSmellDetector.cs:20-26 | deep-nesting issues are Warnings within the lines; other languages have none |
| CodeSmellDetector.LargeStructures | Services/CodeSmellDetector.cs:227-327 | large-structure issues are Info issues within the lines; other languages have none |
| CodeSmellDetector.Analyze | Services/CodeSmellDetector.cs:12-38 | blank code gives no smells; every smell has a smell kind and a line within the text |
| CodeSmellDetector.RankOrderedConcat | Services/CodeSmellDetector.cs:20-35 | concatenating rank-ordered blocks keeps rank order |
| CodeSmellDetector.OneRank | Services/CodeSmellDetector.cs:20-35 | a block of a single kind is rank-ordered |
| CodeSmellDetector.AnalyzeOrdered | Services/CodeSmellDetector.cs:20-35 | smells come as deep nesting, then long parameter lists, then large structures, then repeated literals |
| CodeSmellDetector.OtherLanguageOnlyLiterals | Services/CodeSmellDetector.cs:17-35 | for any other language only repeated literals are reported |
| SummaryGenerator.Finalize | Services/SummaryGenerator.cs:113-130 | the result is final: non-empty, trimmed, ends in '.', starts with a capital if it starts with a letter, at most 120 characters. It keeps the sentence's length up to 120, upper-cases the first character when the sentence is longer than one character, keeps every character between the first and the last, and ends in '.' |
| SummaryGenerator.SentenceOfSummary | Services/SummaryGenerator.cs:115-119 | the sentence is the trimmed summary (the default sentence when blank), with '.' appended exactly when the trimmed text does not already end in '.' |
| SummaryGenerator.FinalizeFixed | Services/SummaryGenerator.cs:118-127 | the finaliser leaves a text unchanged exactly when the text is already final |
| SummaryGenerator.FinalizeIdempotent | Services/SummaryGenerator.cs:113-130 | finalising twice is the same as finalising once |
| SummaryGenerator.ExtractSqlTable | Services/SummaryGenerator.cs:105-111 | the result is "table" or text taken from the code |
| SummaryGenerator.TableMatchAt | Services/SummaryGenerator.cs:108 | `KEYWORD\s+([A-Za-z0-9_\.]+)` matches at a position exactly when the keyword, in any casing, is followed there by white space and a table character; the group is the longest table-character run after the white space |
| SummaryGenerator.ExtractSqlTableFirst | Services/SummaryGenerator.cs:105-111 | with such an occurrence, the table is the longest `[A-Za-z0-9_.]` run after the first one: non-empty and made only of those characters |
| SummaryGenerator.ExtractSqlTableFallback | Services/SummaryGenerator.cs:105-111 | with no such occurrence, the table is "table" |
| SummaryGenerator.ExtractSqlTableNonEmpty | Services/SummaryGenerator.cs:105-111 | the extracted table name is never empty |
| SummaryGenerator.InsertFallbackUnused | Services/SummaryGenerator.cs:83-84 | the "INSERT INTO" fallback never changes the table |
| SummaryGenerator.GenerateSqlKind | Services/SummaryGenerator.cs:71-103 | the SQL sentence's wording identifies the first keyword in priority SELECT, INSERT, UPDATE, DELETE, CREATE PROC/FUNCTION, else none |
| SummaryGenerator.FirstDeclaredName | Services/SummaryGenerator.cs:34-42 | the inferred name is an identifier; none exactly when neither the method nor the class pattern matches |
| SummaryGenerator.VerbNeedsWholeName | Services/SummaryGenerator.cs:52 | the word-bounded verb alternation matches an identifier exactly when the whole identifier is one of the verbs, ignoring case |
| SummaryGenerator.VerbIsWholeName | Services/SummaryGenerator.cs:54 | when it fires, the verb match is the whole name with its own casing |
| SummaryGenerator.NamedSummaryOfVerb | Services/SummaryGenerator.cs:44-68 | for a name without save/insert/delete/remove, the sentence is the verb's own sentence exactly when the name is a verb spelled like the switch expects; otherwise it is the fallback |
| SummaryGenerator.GenerateDotNet | Services/SummaryGenerator.cs:24-69 | a loan word forces the loan sentence; no declared name and no loan word give the fallback sentence; the sentence is always one of the nine fixed C#/VB.NET sentences |
| SummaryGenerator.Generate | Services/SummaryGenerator.cs:10-22 | the summary is always final, and blank code gives "Analyzes generic code snippet." |
| SummaryGenerator.GenerateDotNetRoute | Services/SummaryGenerator.cs:10-22 | for non-blank code and a trimmed language name other than SQL ignoring case (Unknown included), the summary is the C#/VB.NET sentence unchanged: one of the fixed sentences, the loan sentence when a loan word occurs, the fallback sentence when no name is declared either |
| SummaryGenerator.GenerateSqlRoute | Services/SummaryGenerator.cs:10-22 | for non-blank code and the trimmed language name SQL ignoring case, the summary's wording names the statement the SQL priority order picks |
| SummaryGenerator.FinalizeSqlKind | Services/SummaryGenerator.cs:113-130 | finishing a SQL sentence keeps the wording that names its statement |
| SummaryGenerator.FinalizeKeepsLead | Services/SummaryGenerator.cs:113-130 | a sentence ending in '.' that starts with a capitalised lead shorter than 120 characters keeps that lead through finishing, cut included |
| SummaryGenerator.SentenceKeeps | Services/SummaryGenerator.cs:115-119 | a text that starts with a non-white character and ends in '.' is left as it is by trimming and punctuation |
| Beautifier.NonLetterFixed | Services/Beautifier.cs:103-120 | case-insensitive equality fixes every non-letter |
| Beautifier.CaseVariantCounts | Services/Beautifier.cs:37-44 | re-casing keeps the count and presence of every non-letter, braces included |
| Beautifier.ReplaceWord | Services/Beautifier.cs:108 | replacing at a position keeps the length and changes only letter case |
| Beautifier.Normalize | Services/Beautifier.cs:103-120 | keyword normalisation changes letter case only |
| Beautifier.ReplaceWholeWord | Services/Beautifier.cs:108 | a line that is a keyword in any casing becomes the keyword's spelling |
| Beautifier.StyleOf | Services/Beautifier.cs:14-19 | "SQL" selects SQL style and "VBNet" selects VB style, ignoring case; every other language selects C# style |
| Beautifier.KeywordsOf | Services/Beautifier.cs:135-155 | every keyword list is well formed |
| Beautifier.CountLeading | Services/Beautifier.cs:127-130 | the count is the length of the longest run of the character at the start |
| Beautifier.Floor | Services/Beautifier.cs:34 | `Math.Max(0, n)` is the least non-negative number at least n |
| Beautifier.Prepare | Services/Beautifier.cs:29-44 | a line is blank exactly when it trims to nothing; otherwise its text is the trimmed line re-cased; C# lines drop by their leading `}` count and rise by `{` minus `}`; VB and SQL lines drop and rise by at most one |
| Beautifier.Drop | Services/Beautifier.cs:33 | C# lines drop by their leading `}` count; the others by at most one |
| Beautifier.Rise | Services/Beautifier.cs:42-44 | C# lines rise by opens minus closes; the others by zero or one |
| Beautifier.Layout | Services/Beautifier.cs:27-45 | one output line per input line |
| Beautifier.PrepareAll | Services/Beautifier.cs:27-30 | one prepared line per input line |
| Beautifier.Beautify | Services/Beautifier.cs:11-20 | blank code gives the empty string |
| Beautifier.Reindent | Services/Beautifier.cs:25-45 | the loop's output line k is line k rendered at the indent level reached after lines 0..k-1 |
| Beautifier.BeautifyCode | Services/Beautifier.cs:11-47 | the loop-based beautifier computes the functional one |
| Beautifier.RenderNoBreak | Services/Beautifier.cs:39 | a rendered line holds no line feed |
| Beautifier.BeautifyLines | Services/Beautifier.cs:24-46 | the output has as many lines as the input; a blank line becomes ""; any other line becomes 4·n spaces and its trimmed, re-cased text |
| Beautifier.EndSubStartsBlock | Services/Beautifier.cs:69 | any casing of "End Sub" matches `\b(Class\|Module\|Sub\|Function)\b` |
| Beautifier.BeginStartsBlock | Services/Beautifier.cs:97 | any casing of "BEGIN" matches `\bBEGIN\b` |
| Beautifier.EndNotBegin | Services/Beautifier.cs:97 | no casing of "END" matches `\bBEGIN\b` |
| Beautifier.CSharpLineLevels | Services/Beautifier.cs:32-44 | a non-blank C# line is printed at the level minus its leading `}` count (not below 0), and the next line starts from that level plus its `{` minus its `}` (not below 0) |
| Beautifier.VbLineLevels | Services/Beautifier.cs:59-70 | a non-blank VB.NET line is printed one level out when it starts with the word End (not below 0), else at the level; the next line is one further in when the re-cased line holds Class, Module, Sub or Function as a word, or If followed by Then |
| Beautifier.SqlLineLevels | Services/Beautifier.cs:87-98 | a non-blank SQL line is printed one level out when it starts with the word END (not below 0), else at the level; the next line is one further in when the re-cased line holds the word BEGIN |
| Beautifier.ClosingBraceCountsTwice | Services/Beautifier.cs:33-44 | a line of d leading `}` and no `{` lowers the level by d before output and by d again after |
| Beautifier.EndSubRestoresLevel | Services/Beautifier.cs:60-70 | "End Sub" dedents before output, then matches `\bSub\b` and raises the level again |
| Beautifier.BeginRaisesLevel | Services/Beautifier.cs:96-98 | a "BEGIN" line is printed at the current level and raises it by one |
| Beautifier.EndLowersLevel | Services/Beautifier.cs:87-89 | an "END" line is printed one level lower and stays there |
| CodeAnalyzerService.FlagLines | Services/CodeAnalyzerService.cs:84-113 | a line-rule issue at line k + 1 exactly when line k satisfies the rule's test; ascending, one per line |
| CodeAnalyzerService.IfNoOverlap | Services/CodeAnalyzerService.cs:136-145 | two "if" tokens never start one position apart, so stepping by 2 misses none |
| CodeAnalyzerService.WholeIfsSkip | Services/CodeAnalyzerService.cs:136-145 | positions without "if" do not change the whole-word count |
| CodeAnalyzerService.IfTokensCountsAll | Services/CodeAnalyzerService.cs:134-146 | the `IndexOf` loop counts exactly the whole-word "if"s of a line |
| CodeAnalyzerService.NestedIfsShape | Services/CodeAnalyzerService.cs:118-173 | NestedIfs issues are ascending Warnings within the lines, each at a line where the method closes with more than two ifs counted |
| CodeAnalyzerService.NestedIfsExact | Services/CodeAnalyzerService.cs:155-168 | line j is reported exactly when, in a method, the depth drops below 0 on it and the method had more than two "if"s |
| CodeAnalyzerService.AnalyzeCSharp | Services/CodeAnalyzerService.cs:79-174 | the C# rule issues come check by check: all LongLine issues, then all TODO issues, then the NestedIfs issues |
| CodeAnalyzerService.CSharpRulesExact | Services/CodeAnalyzerService.cs:79-174 | per line: LongLine exactly when the line is over 120 characters, TODO exactly when it mentions TODO in any casing, NestedIfs exactly when a method closes there with more than two "if"s |
| CodeAnalyzerService.AnalyzeVB | Services/CodeAnalyzerService.cs:176-228 | the VB.NET rule issues come check by check: all GoTo issues, then MissingEndSub, then MissingEndFunction |
| CodeAnalyzerService.VbRulesExact | Services/CodeAnalyzerService.cs:176-228 | per line: GoTo exactly when the line mentions GoTo in any casing; each balance Error exactly when some line has the opener without its closer |
| CodeAnalyzerService.AnalyzeSql | Services/CodeAnalyzerService.cs:230-285 | the SQL rule issues come check by check: all SelectStar issues, then all MissingWhere issues, then all NoLock issues |
| CodeAnalyzerService.SqlRulesExact | Services/CodeAnalyzerService.cs:230-285 | per line: SelectStar exactly when the line mentions "SELECT *", MissingWhere exactly when it mentions DELETE or UPDATE but not WHERE, NoLock exactly when it mentions NOLOCK, all in any casing |
| CodeAnalyzerService.ResetAfterClose | Services/CodeAnalyzerService.cs:169-171 | after a reported close the scan is back to not-in-method, count 0, depth 0 |
| CodeAnalyzerService.LinesWith | Services/CodeAnalyzerService.cs:197-205 | a line counter is positive exactly when some line contains the token |
| CodeAnalyzerService.NestedTokenLines | Services/CodeAnalyzerService.cs:206-217 | when one token implies another, the implied token's count is at least as large; it is strictly larger exactly when some line has the implied token without the other |
| CodeAnalyzerService.EndFunctionHasFunction | Services/CodeAnalyzerService.cs:202-204 | a line with "End Function" also counts as a "Function" line |
| CodeAnalyzerService.VbBalance | Services/CodeAnalyzerService.cs:196-227 | at most two issues, both Errors without a line, only MissingEndSub and MissingEndFunction, each at most once and MissingEndSub first; MissingEndSub exactly when some line has "Sub" but not "End Sub"; likewise for Function |
| CodeAnalyzerService.RuleIssues | Services/CodeAnalyzerService.cs:60-77 | Unknown gives no rule issues; every line-scoped rule issue lies within the lines |
| CodeAnalyzerService.AnalyzeRules | Services/CodeAnalyzerService.cs:20-33 | a name that is not CSharp, VBNet or SQL after trimming and upper-casing gives no issues |
| CodeAnalyzerService.ParseToName | Services/CodeAnalyzerService.cs:22-28 | parsing a language's display name gives back that language |
| CodeAnalyzerService.Issues | Services/CodeAnalyzerService.cs:47-55 | every issue lies within the lines; blank code gives the rule issues only |
| CodeAnalyzerService.Analyze | Services/CodeAnalyzerService.cs:38-58 | the summary is final; every issue lies within the lines; blank code gets the default summary and only rule issues |
| CodeAnalyzerService.ThreeBlocks | Services/CodeAnalyzerService.cs:47-55 | a concatenation of rules, naming issues and smells splits back into those three blocks |
| CodeAnalyzerService.AnalyzeBlocks | Services/CodeAnalyzerService.cs:47-55 | the issues are the rule issues unchanged, then only naming issues, then only smells |
| CodeAnalyzerService.UnknownOnlyLiterals | Services/CodeAnalyzerService.cs:43-55 | for Unknown, non-blank code gets only the repeated-literal smells |
| CodeAnalyzerService.BlankLongLineFlagged | Services/CodeAnalyzerService.cs:41-55 | a blank C# line longer than 120 still gets a LongLine issue next to the default summary |

## Behaviour worth knowing

The model follows the code as written, including these behaviours.

- **Blank code still gets rule issues.** `Analyze` runs the rule checks on every input, while the naming checks, smells and summary each return early on blank code. A C# snippet of 130 spaces therefore gets a `CSharp.LongLine` (`CodeAnalyzerService.BlankLongLineFlagged`).
- **The VB "End If" skip never fires.** It compares the position of the first "End If" with the position of an "If" match. An "If" match starts with 'i' and an "End If" match with 'e', in any casing, so the two positions are never equal and every "If", the one inside "End If" included, raises the depth (`CodeSmellDetector.EndIfSkipNeverFires`).
- **NestedIfs fires only when the brace depth goes below zero** in a method (`CodeAnalyzerService.NestedIfsExact`).
- **A `\bVerb\b` match needs the whole name.** Inside an identifier it matches only when the whole name is a verb. The `switch` that follows is case-sensitive, so `getX` never reaches "Retrieves" and `GET` falls to the default sentence (`SummaryGenerator.VerbNeedsWholeName`, `SummaryGenerator.NamedSummaryOfVerb`).
- **"Sub" subsumes "End Sub"** in language detection and in the VB balance check (`LanguageDetector.EndSubHasSub`).
- **A leading `}` is subtracted twice** when re-indenting C# (`Beautifier.ClosingBraceCountsTwice`).
- **An "End Sub" line restores the VB indent**, because it also matches the block-start pattern (`Beautifier.EndSubRestoresLevel`).
- **The large-structure scan skips a line.** It sets `i = j`, and the `for` loop then adds one more. The line right after a structure's last scanned line is never examined as a start (`CodeSmellDetector.LargeSkipsLineAfterEnd`).
- **The "INSERT INTO" fallback is dead**, because `ExtractSqlTable` falls back to "table", never "" (`SummaryGenerator.InsertFallbackUnused`).
- **`PROC|PROCEDURE` alternatives.** A `CREATE` pattern must be followed by white space. So "PROCEDURE" is tried before "PROC", which gives the same result as the regex engine's backtracking.
- **An Unknown language gets only repeated literals.** Rule checks, naming checks, deep nesting, parameter lists and large structures all skip it (`CodeAnalyzerService.UnknownOnlyLiterals`).

## Left out

- Program.cs is not part of this model. It handles command-line arguments, stdin and file reading, console colours, the HTTP host and JSON bodies, all of which are I/O and hosting.
- Unicode behaviour of `char.IsLetterOrDigit`, `char.IsDigit`, `char.IsWhiteSpace`, `ToUpperInvariant`, `Trim` and `OrdinalIgnoreCase`. The model uses ASCII letters, digits and white space, and folds only A-Z.
- The .NET regular-expression engine. Each pattern is a deterministic matcher written for that pattern. The backtracking cases these patterns reach are resolved explicitly by the matchers: the optional fraction of a number (`1.5a` matches `1`), the optional modifier of a signature that falls back to being the type (`public Foo(`), the optional `AS` of an SQL alias that falls back to being the alias, and the `.*` of `\bIf\b.*\bThen\b`, which backs off to the last Then on the line.
- Issue message and suggestion wording that interpolates numbers (line length, `if` count, parameter count, span, method count, literal count). The long-parameter-list message also drops the method or procedure name. The deep-nesting, large-structure and repeated-literal messages keep the name or literal, with fixed text where the numbers were (for example "Class 'X' is too large."). These messages are kept as fixed wording. The issue kind, line number and severity are modelled exactly.
- The `Location`, `Title` and `Description` fields of `Issue`. No service reads or writes them.
- `null` arguments (`language ?? string.Empty`). Dafny strings are never null.
- `Dictionary` enumeration order in the repeated-literal scan. .NET does not guarantee it. The model emits keys in first-insertion order, and only per-literal facts are proved.
- NameQualityChecker.Suggest: the unused `isFunction` argument of the source is dropped.
- Beautifier.Normalize: keyword re-casing is modelled word by word as a case-only change. The contract proves only that letter case is all that changes, and not which casing each keyword gets.
- SummaryGenerator.GenerateDotNet: beyond membership in the fixed sentences, the contract pins only the loan and no-name cases. `SummaryGenerator.NamedSummaryOfVerb` covers the named cases separately, for names free of save/insert/delete/remove.
- CodeAnalyzerService.Analyze: the `AnalysisResult.Summary` of the source is nullable, while here it is always set.

=== FILE: beautifier.dfy ===
/**
  The heuristic beautifier: every line is trimmed, its keywords are given
  their canonical spelling, and it is re-indented by four spaces per level.
  Each language has its own rule for the indent level: brace balance for
  C#, `End` / block keywords for VB.NET, `END` / `BEGIN` for SQL.
*/
module Beautifier {
  import opened Text
  import opened Model
  import opened Patterns

  // ------------------------------------------------------------ keyword spelling

  /** `a` and `b` differ at most in the case of their letters. */
  predicate CaseVariant(a: string, b: string)
  {
    |a| == |b| && forall i :: 0 <= i < |a| ==> Lower(a[i]) == Lower(b[i])
  }

  /** Changing case never touches a character that is not a letter. */
  lemma NonLetterFixed(x: char, y: char)
    requires Lower(x) == Lower(y) && !IsLetter(x)
    ensures x == y
  {
  }

  /** A case variant holds the same number of every non-letter character. */
  lemma {:induction false} CaseVariantCounts(a: string, b: string, c: char)
    requires CaseVariant(a, b) && !IsLetter(c)
    ensures CountChar(a, c) == CountChar(b, c)
    ensures c in a <==> c in b
  {
    if |a| > 0 {
      CaseVariantCounts(a[1..], b[1..], c);
      if a[0] == c {
        NonLetterFixed(a[0], b[0]);
      }
      if b[0] == c {
        NonLetterFixed(b[0], a[0]);
      }
      assert a == [a[0]] + a[1..] && b == [b[0]] + b[1..];
    }
  }

  /**
    `Regex.Replace(s, "\bkw\b", kw, IgnoreCase)` from offset `q`: every
    whole-word occurrence of `kw`, in any case, is rewritten as `kw`; the
    search resumes after each replaced occurrence.
  */
  function ReplaceWord(s: string, kw: string, q: nat): (r: string)
    requires q <= |s| && |kw| > 0
    ensures |r| == |s| - q
    ensures forall i :: 0 <= i < |r| ==> Lower(r[i]) == Lower(s[q + i])
    decreases |s| - q
  {
    if q == |s| then ""
    else if Boundary(s, q) && MatchesAt(s, q, kw) && BoundaryAfter(s, q + |kw|) then
      var rest := ReplaceWord(s, kw, q + |kw|);
      assert forall i :: 0 <= i < |kw| ==> Lower(kw[i]) == Lower(s[q + i]) by {
        LowerSlice(s, q, q + |kw|);
        forall i | 0 <= i < |kw|
          ensures Lower(kw[i]) == Lower(s[q + i])
        {
          assert ToLower(kw)[i] == ToLower(s)[q + i];
        }
      }
      kw + rest
    else [s[q]] + ReplaceWord(s, kw, q + 1)
  }

  /** Applies `ReplaceWord` for `keywords[k..]`, one keyword after another, as the source's loop does. */
  function Normalize(s: string, keywords: seq<string>, k: nat): (r: string)
    requires WordsOk(keywords)
    ensures CaseVariant(r, s)
    decreases |keywords| - k
  {
    if k >= |keywords| then s
    else
      var t := ReplaceWord(s, keywords[k], 0);
      Normalize(t, keywords, k + 1)
  }

  /** A keyword standing alone, in any case, is rewritten to its canonical spelling. */
  lemma ReplaceWholeWord(s: string, kw: string)
    requires |kw| > 0 && IsWordChar(kw[0]) && EqualsIgnoreCase(s, kw)
    ensures ReplaceWord(s, kw, 0) == kw
  {
    assert s[0..|kw|] == s;
    assert ToLower(s)[0] == ToLower(kw)[0];
    assert IsWordChar(s[0]) by {
      if !IsWordChar(s[0]) {
        NonLetterFixed(s[0], kw[0]);
      }
    }
    assert Boundary(s, 0);
    assert kw + "" == kw;
  }

  /** The C# keywords, in the order they are applied. */
  const CSharpKeywords := [
    "Using", "Namespace", "Public", "Private", "Protected", "Internal",
    "Class", "Struct", "Record", "Void", "Static", "Async", "Return",
    "If", "Else", "For", "Foreach", "While", "Switch", "Case", "Break",
    "Continue", "Try", "Catch", "Finally"]

  /** The VB.NET keywords; the two-word ones contain a single space. */
  const VbKeywords := [
    "Public", "Private", "Protected", "Friend", "Shared", "Static", "Module",
    "Class", "Sub", "Function", "End", "End Sub", "End Function", "End Class",
    "If", "Then", "Else", "End If"]

  /** The SQL keywords, upper case. */
  const SqlKeywords := [
    "SELECT", "INSERT", "UPDATE", "DELETE", "CREATE", "ALTER", "DROP", "FROM", "WHERE", "JOIN",
    "LEFT", "RIGHT", "FULL", "INNER", "OUTER", "ON", "GROUP", "BY", "ORDER", "HAVING", "INTO",
    "VALUES", "SET", "AND", "OR", "NOT", "BEGIN", "END", "AS", "WITH", "TOP", "DISTINCT"]

  // ------------------------------------------------------------ styles

  /** Which of the three re-indenting rules applies. */
  datatype Style = CSharpStyle | VbStyle | SqlStyle

  /** "SQL" and "VBNet" (any case, untrimmed) pick their own style; every other name gets C#'s. */
  function StyleOf(language: string): (s: Style)
    ensures s == SqlStyle <==> EqualsIgnoreCase(language, "SQL")
    ensures s == VbStyle <==> EqualsIgnoreCase(language, "VBNet") && !EqualsIgnoreCase(language, "SQL")
  {
    if EqualsIgnoreCase(language, "SQL") then SqlStyle
    else if EqualsIgnoreCase(language, "VBNet") then VbStyle
    else CSharpStyle
  }

  function KeywordsOf(style: Style): (ks: seq<string>)
    ensures WordsOk(ks)
  {
    match style
    case CSharpStyle => CSharpKeywords
    case VbStyle => VbKeywords
    case SqlStyle => SqlKeywords
  }

  /** `^End\b` */
  const VbEndLine := Phrase(AtStart, [["End"]])
  /** `\b(Class|Module|Sub|Function)\b` */
  const VbBlockStart := Phrase(AtBoundary, [["Class"], ["Module"], ["Sub"], ["Function"]])
  /** `^END\b` */
  const SqlEndLine := Phrase(AtStart, [["END"]])
  /** `\bBEGIN\b` */
  const SqlBegin := Phrase(AtBoundary, [["BEGIN"]])

  // ------------------------------------------------------------ one line

  /** `CountLeading`: the length of the run of `c` that opens `s`. */
  function CountLeading(s: string, c: char): (n: nat)
    ensures n <= |s|
    ensures forall i :: 0 <= i < n ==> s[i] == c
    ensures n < |s| ==> s[n] != c
  {
    if |s| > 0 && s[0] == c then 1 + CountLeading(s[1..], c) else 0
  }

  /** `Math.Max(0, n)`. */
  function Floor(n: int): (r: nat)
    ensures r >= n && (r == 0 || r == n)
  {
    if n < 0 then 0 else n
  }

  /**
    What the indenting rules need of one input line: nothing for a line
    that trims to empty, else its normalised text, how many levels to drop
    before printing it and how many to add after it.
  */
  datatype Prep = Blank | Text(text: string, drop: nat, rise: int)

  /**
    C#: the drop is the number of leading `}` and the rise is the number of
    `{` less the number of `}` on the whole line. VB.NET: drop one on a line
    starting with the word End, rise one on a line holding Class, Module,
    Sub or Function as a word, or If followed by Then. SQL: drop one on a
    line starting with the word END, rise one on a line holding BEGIN.
  */
  function Prepare(style: Style, raw: string): (p: Prep)
    ensures p.Blank? <==> IsBlank(raw)
    ensures p.Text? ==> CaseVariant(p.text, Trim(raw)) && p.text == Normalize(Trim(raw), KeywordsOf(style), 0)
    ensures p.Text? && style == CSharpStyle ==>
      && p.drop == CountLeading(Trim(raw), '}')
      && p.rise == CountChar(Trim(raw), '{') - CountChar(Trim(raw), '}')
    ensures p.Text? && style != CSharpStyle ==> p.drop <= 1 && 0 <= p.rise <= 1
  {
    var line := Trim(raw);
    if |line| == 0 then Blank
    else
      var t := Normalize(line, KeywordsOf(style), 0);
      Text(t, Drop(style, line), Rise(style, line, t))
  }

  /** Levels dropped before printing the trimmed `line`. */
  function Drop(style: Style, line: string): (n: nat)
    ensures style == CSharpStyle ==> n == CountLeading(line, '}')
    ensures style != CSharpStyle ==> n <= 1
  {
    match style
    case CSharpStyle => CountLeading(line, '}')
    case VbStyle => if IsMatch(VbEndLine, line) then 1 else 0
    case SqlStyle => if IsMatch(SqlEndLine, line) then 1 else 0
  }

  /** Levels added after printing `t`, the normalised form of `line`. */
  function Rise(style: Style, line: string, t: string): (n: int)
    requires CaseVariant(t, line)
    ensures style == CSharpStyle ==> n == CountChar(line, '{') - CountChar(line, '}')
    ensures style != CSharpStyle ==> 0 <= n <= 1
  {
    match style
    case CSharpStyle =>
      CaseVariantCounts(t, line, '{');
      CaseVariantCounts(t, line, '}');
      CountChar(t, '{') - CountChar(t, '}')
    case VbStyle => if IsMatch(VbBlockStart, t) || IsMatch(IfThen, t) then 1 else 0
    case SqlStyle => if IsMatch(SqlBegin, t) then 1 else 0
  }

  /** The level a line is printed at, given the level before it. */
  function Entry(p: Prep, level: nat): nat
  {
    match p
    case Blank => level
    case Text(_, drop, _) => Floor(level - drop)
  }

  /** The level after a line, given the level before it; a blank line changes nothing. */
  function Exit(p: Prep, level: nat): nat
  {
    match p
    case Blank => level
    case Text(_, _, rise) => Floor(Entry(p, level) + rise)
  }

  /** The output line: empty for a blank line, else four spaces per level and the normalised text. */
  function Render(p: Prep, level: nat): string
  {
    match p
    case Blank => ""
    case Text(t, _, _) => Spaces(4 * Entry(p, level)) + t
  }

  /** The level before line `k`: the exits of lines `0..k` folded from level 0. */
  function Level(preps: seq<Prep>, k: nat): nat
    requires k <= |preps|
  {
    if k == 0 then 0 else Exit(preps[k - 1], Level(preps, k - 1))
  }

  /** Every output line, each rendered at the level its predecessors leave. */
  function Layout(preps: seq<Prep>): (out: seq<string>)
    ensures |out| == |preps|
  {
    seq(|preps|, k requires 0 <= k < |preps| => Render(preps[k], Level(preps, k)))
  }

  // ------------------------------------------------------------ whole text

  function PrepareAll(style: Style, lines: seq<string>): (preps: seq<Prep>)
    ensures |preps| == |lines|
  {
    seq(|lines|, k requires 0 <= k < |lines| => Prepare(style, lines[k]))
  }

  /** `Beautify`: blank code gives "", anything else is re-indented line by line and joined with LF. */
  function Beautify(code: string, language: string): (r: string)
    ensures IsBlank(code) ==> r == ""
  {
    if IsBlank(code) then ""
    else Join(Layout(PrepareAll(StyleOf(language), SplitLines(code))), '\n')
  }

  /** The `foreach` of `BeautifyCSharp`, `BeautifyVb` and `BeautifySql`, carrying the level in one variable. */
  method Reindent(preps: seq<Prep>) returns (out: seq<string>)
    ensures |out| == |preps|
    ensures forall k :: 0 <= k < |preps| ==> out[k] == Render(preps[k], Level(preps, k))
  {
    var indent: nat := 0;
    out := [];
    var i := 0;
    while i < |preps|
      invariant 0 <= i <= |preps|
      invariant indent == Level(preps, i)
      invariant out == Layout(preps)[..i]
    {
      var line := "";
      if preps[i].Text? {
        indent := Floor(indent - preps[i].drop);
        line := Spaces(4 * indent) + preps[i].text;
        indent := Floor(indent + preps[i].rise);
      }
      assert Layout(preps)[..i + 1] == Layout(preps)[..i] + [line];
      out := out + [line];
      i := i + 1;
    }
    assert out == Layout(preps);
  }

  /** `Beautify` as the source computes it, with the loop above. */
  method BeautifyCode(code: string, language: string) returns (r: string)
    ensures r == Beautify(code, language)
  {
    if IsBlank(code) {
      return "";
    }
    var preps := PrepareAll(StyleOf(language), SplitLines(code));
    var out := Reindent(preps);
    assert out == Layout(preps);
    r := Join(out, '\n');
  }

  // ------------------------------------------------------------ properties

  /** No rendered line holds a line feed, since the input lines hold none. */
  lemma RenderNoBreak(style: Style, raw: string, level: nat)
    requires '\n' !in raw
    ensures '\n' !in Render(Prepare(style, raw), level)
  {
    var p := Prepare(style, raw);
    if p.Text? {
      TextNoBreak(Trim(raw), p, level);
    }
  }

  /** A line re-cased from a text without line feeds renders without one. */
  lemma TextNoBreak(line: string, p: Prep, level: nat)
    requires p.Text? && CaseVariant(p.text, line) && '\n' !in line
    ensures '\n' !in Render(p, level)
  {
    CaseVariantCounts(p.text, line, '\n');
    var pad := Spaces(4 * Entry(p, level));
    assert '\n' !in pad;
    assert Render(p, level) == pad + p.text;
  }

  /**
    Beautified code has exactly as many LF-separated lines as the input
    has lines; a line that trims to empty becomes empty, and every other
    line becomes four spaces per level followed by its trimmed text with
    canonical keyword spelling.
  */
  lemma BeautifyLines(code: string, language: string)
    requires !IsBlank(code)
    ensures var lines := SplitLines(code);
      var out := Split(Beautify(code, language), '\n');
      && |out| == |lines|
      && forall k :: 0 <= k < |lines| ==>
        && (IsBlank(lines[k]) ==> out[k] == "")
        && (!IsBlank(lines[k]) ==> exists n: nat :: out[k] == Spaces(4 * n) + Normalize(Trim(lines[k]), KeywordsOf(StyleOf(language)), 0))
  {
    var style := StyleOf(language);
    var lines := SplitLines(code);
    var preps := PrepareAll(style, lines);
    var out := Layout(preps);
    forall k | 0 <= k < |out|
      ensures '\n' !in out[k]
    {
      RenderNoBreak(style, lines[k], Level(preps, k));
    }
    SplitJoin(out, '\n');
    forall k | 0 <= k < |lines| && !IsBlank(lines[k])
      ensures exists n: nat :: out[k] == Spaces(4 * n) + Normalize(Trim(lines[k]), KeywordsOf(style), 0)
    {
      var n := Entry(preps[k], Level(preps, k));
      assert out[k] == Spaces(4 * n) + Normalize(Trim(lines[k]), KeywordsOf(style), 0);
    }
  }

  /**
    C# re-indenting of a trimmed line `line`, re-cased to `t`, at `level`:
    it is printed after its leading `}` are taken off the level, and the
    next line starts from that level plus its `{` minus its `}`, never below
    zero.
  */
  lemma CSharpLineLevels(line: string, t: string, level: nat)
    requires CaseVariant(t, line)
    ensures var p := Text(t, Drop(CSharpStyle, line), Rise(CSharpStyle, line, t));
      var e := Floor(level - CountLeading(line, '}'));
      && Render(p, level) == Spaces(4 * e) + t
      && Exit(p, level) == Floor(e + CountChar(line, '{') - CountChar(line, '}'))
  {
    var d := Drop(CSharpStyle, line);
    var n := Rise(CSharpStyle, line, t);
    assert Entry(Text(t, d, n), level) == Floor(level - CountLeading(line, '}'));
  }

  /**
    VB.NET re-indenting of a trimmed line `line`, re-cased to `t`, at
    `level`: it is printed one level out when it starts with the word End,
    and the next line is one level further in when the re-cased line holds
    Class, Module, Sub or Function as a word, or If followed by Then.
  */
  lemma VbLineLevels(line: string, t: string, level: nat)
    requires CaseVariant(t, line)
    ensures var p := Text(t, Drop(VbStyle, line), Rise(VbStyle, line, t));
      var e := if IsMatch(VbEndLine, line) then Floor(level - 1) else level;
      && Render(p, level) == Spaces(4 * e) + t
      && Exit(p, level) == e + (if IsMatch(VbBlockStart, t) || IsMatch(IfThen, t) then 1 else 0)
  {
  }

  /**
    SQL re-indenting of a trimmed line `line`, re-cased to `t`, at `level`:
    it is printed one level out when it starts with the word END, and the
    next line is one level further in when the re-cased line holds the word
    BEGIN.
  */
  lemma SqlLineLevels(line: string, t: string, level: nat)
    requires CaseVariant(t, line)
    ensures var p := Text(t, Drop(SqlStyle, line), Rise(SqlStyle, line, t));
      var e := if IsMatch(SqlEndLine, line) then Floor(level - 1) else level;
      && Render(p, level) == Spaces(4 * e) + t
      && Exit(p, level) == e + (if IsMatch(SqlBegin, t) then 1 else 0)
  {
  }

  /** Output line `k` is line `k` rendered at the level the lines before it leave, which its exit passes on. */
  lemma LayoutAt(style: Style, lines: seq<string>, k: nat)
    requires k < |lines|
    ensures var preps := PrepareAll(style, lines);
      && Layout(preps)[k] == Render(Prepare(style, lines[k]), Level(preps, k))
      && Level(preps, k + 1) == Exit(Prepare(style, lines[k]), Level(preps, k))
  {
  }

  /** A blank line is printed empty and leaves the level unchanged. */
  lemma BlankLineLevels(style: Style, raw: string, level: nat)
    requires IsBlank(raw)
    ensures Render(Prepare(style, raw), level) == "" && Exit(Prepare(style, raw), level) == level
  {
  }

  /** The level a line is printed at never exceeds the level before it. */
  lemma EntryAtMost(p: Prep, level: nat)
    ensures Entry(p, level) <= level
    ensures p.Text? && p.drop == 0 ==> Entry(p, level) == level
  {
  }

  /** A non-blank line is its trimmed, re-cased text with the style's drop and rise. */
  lemma PrepareShape(style: Style, raw: string)
    requires !IsBlank(raw)
    ensures var line := Trim(raw);
      var t := Normalize(line, KeywordsOf(style), 0);
      && CaseVariant(t, line)
      && Prepare(style, raw) == Text(t, Drop(style, line), Rise(style, line, t))
  {
    var line := Trim(raw);
    var t := Normalize(line, KeywordsOf(style), 0);
    assert Prepare(style, raw) == Text(t, Drop(style, line), Rise(style, line, t));
  }

  /**
    A C# line whose closing braces all lead it, and which opens none,
    lowers the level twice by their number: the leading braces are taken
    off before printing and counted again in the brace balance after it.
    A lone `}` therefore lowers the level by two, not one.
  */
  lemma ClosingBraceCountsTwice(raw: string, level: nat, p: Prep, d: nat)
    requires !IsBlank(raw) && p == Prepare(CSharpStyle, raw) && d == CountChar(Trim(raw), '}')
    requires CountLeading(Trim(raw), '}') == d && '{' !in Trim(raw)
    ensures Entry(p, level) == Floor(level - d)
    ensures Exit(p, level) == Floor(Floor(level - d) - d)
  {
    PrepareShape(CSharpStyle, raw);
    CSharpDrop(Trim(raw));
    CSharpRise(Trim(raw), Normalize(Trim(raw), KeywordsOf(CSharpStyle), 0));
    LevelsAfterClose(p, level, d);
  }

  /** A line that drops `d` levels and rises by minus `d` lowers the level twice. */
  lemma LevelsAfterClose(p: Prep, level: nat, d: nat)
    requires p.Text? && p.drop == d && p.rise + d == 0
    ensures Entry(p, level) == Floor(level - d)
    ensures Exit(p, level) == Floor(Floor(level - d) - d)
  {
  }

  /** A C# line drops by its leading closing braces. */
  lemma CSharpDrop(line: string)
    ensures Drop(CSharpStyle, line) == CountLeading(line, '}')
  {
  }

  /** A C# line without an opening brace rises by minus its closing braces. */
  lemma CSharpRise(line: string, t: string)
    requires CaseVariant(t, line) && '{' !in line
    ensures Rise(CSharpStyle, line, t) + CountChar(line, '}') == 0
  {
  }

  /** A VB.NET line starting with the word End drops one level. */
  lemma VbDropOnEnd(line: string)
    requires IsMatch(VbEndLine, line)
    ensures Drop(VbStyle, line) == 1
  {
  }

  /** A VB.NET line holding a block keyword as a word rises one level. */
  lemma VbRiseOnBlock(line: string, t: string)
    requires CaseVariant(t, line) && IsMatch(VbBlockStart, t)
    ensures Rise(VbStyle, line, t) == 1
  {
  }

  /** An SQL line drops one level exactly when it starts with the word END. */
  lemma SqlDrop(line: string)
    ensures Drop(SqlStyle, line) == if IsMatch(SqlEndLine, line) then 1 else 0
  {
  }

  /** An SQL line rises one level exactly when it holds the word BEGIN. */
  lemma SqlRise(line: string, t: string)
    requires CaseVariant(t, line)
    ensures Rise(SqlStyle, line, t) == if IsMatch(SqlBegin, t) then 1 else 0
  {
  }

  /** `End Sub` starts with the word End. */
  lemma EndSubEndsBlock(line: string)
    requires line == "End Sub"
    ensures IsMatch(VbEndLine, line)
  {
    StartWordMatch(line, "End");
  }

  /** `END` starts with the word END. */
  lemma EndEndsBlock(line: string)
    requires line == "END"
    ensures IsMatch(SqlEndLine, line)
  {
    StartWordMatch(line, "END");
  }

  /** `BEGIN` does not start with the word END. */
  lemma BeginNotEnd(line: string)
    requires line == "BEGIN"
    ensures !IsMatch(SqlEndLine, line)
  {
    StartWordMatch(line, "END");
    assert ToLower(line[0..3])[0] == 'b';
  }

  /** Any casing of `End Sub` holds Sub as a word, so it counts as a block start. */
  lemma EndSubStartsBlock(t: string)
    requires CaseVariant(t, "End Sub")
    ensures IsMatch(VbBlockStart, t)
  {
    assert t[3] == ' ' by {
      NonLetterFixed(' ', t[3]);
    }
    assert IsWordChar(t[4]) by {
      assert Lower(t[4]) == 's';
    }
    assert MatchesAt(t, 4, "Sub") by {
      assert ToLower(t[4..7]) == ToLower("Sub");
    }
    FirstPhraseEndWord(t, 4, VbBlockStart.alternatives, 0, 2);
    MatchFound(VbBlockStart, t, 4);
  }

  /** Any casing of `BEGIN` holds the word BEGIN. */
  lemma BeginStartsBlock(t: string)
    requires CaseVariant(t, "BEGIN")
    ensures IsMatch(SqlBegin, t)
  {
    assert IsWordChar(t[0]) by {
      assert Lower(t[0]) == 'b';
    }
    assert MatchesAt(t, 0, "BEGIN") by {
      assert ToLower(t[0..5]) == ToLower("BEGIN");
    }
    FirstPhraseEndWord(t, 0, SqlBegin.alternatives, 0, 0);
    MatchFound(SqlBegin, t, 0);
  }

  /** No casing of `END` is long enough to hold BEGIN. */
  lemma EndNotBegin(t: string)
    requires CaseVariant(t, "END")
    ensures !IsMatch(SqlBegin, t)
  {
    PhraseTooLong(t, AtBoundary, SqlBegin.alternatives);
  }

  /**
    A VB.NET `End Sub` line is printed one level out, but the word Sub on
    it then counts as a block start, so the level after it is back where it
    was (for any level above zero): closing a Sub never lowers the indent of
    the lines that follow. `End Function` and `End Class` behave the same.
  */
  lemma EndSubRestoresLevel(raw: string, level: nat)
    requires Trim(raw) == "End Sub"
    ensures Entry(Prepare(VbStyle, raw), level) == Floor(level - 1)
    ensures Exit(Prepare(VbStyle, raw), level) == Floor(level - 1) + 1
  {
    PrepareShape(VbStyle, raw);
    var t := Normalize(Trim(raw), KeywordsOf(VbStyle), 0);
    EndSubEndsBlock(Trim(raw));
    VbDropOnEnd(Trim(raw));
    EndSubStartsBlock(t);
    VbRiseOnBlock(Trim(raw), t);
  }

  /** An SQL line that is just `BEGIN` is printed at the current level and raises the next one. */
  lemma BeginRaisesLevel(raw: string, level: nat)
    requires Trim(raw) == "BEGIN"
    ensures Entry(Prepare(SqlStyle, raw), level) == level
    ensures Exit(Prepare(SqlStyle, raw), level) == level + 1
  {
    PrepareShape(SqlStyle, raw);
    var t := Normalize(Trim(raw), KeywordsOf(SqlStyle), 0);
    BeginNotEnd(Trim(raw));
    SqlDrop(Trim(raw));
    BeginStartsBlock(t);
    SqlRise(Trim(raw), t);
  }

  /** An SQL line that is just `END` is printed one level out and leaves that level in force. */
  lemma EndLowersLevel(raw: string, level: nat)
    requires Trim(raw) == "END"
    ensures Entry(Prepare(SqlStyle, raw), level) == Floor(level - 1)
    ensures Exit(Prepare(SqlStyle, raw), level) == Floor(level - 1)
  {
    PrepareShape(SqlStyle, raw);
    var t := Normalize(Trim(raw), KeywordsOf(SqlStyle), 0);
    EndEndsBlock(Trim(raw));
    SqlDrop(Trim(raw));
    EndNotBegin(t);
    SqlRise(Trim(raw), t);
  }
}

=== FILE: code_analyzer.dfy ===
/**
  Rule-based checks per language and the orchestrator that assembles an
  AnalysisResult from the summary, the rule issues, the naming issues and
  the code-smell issues.
*/
module CodeAnalyzerService {
  import opened Text
  import opened Model
  import LanguageDetector
  import NameQualityChecker
  import CodeSmellDetector
  import SummaryGenerator

  // ------------------------------------------------------------ per-line rules

  /** The test a per-line rule applies to each line. */
  datatype LineTest =
    | LongerThan(limit: nat)
    | Mentions(token: string)
    | MutationWithoutWhere

  predicate Flags(t: LineTest, line: string)
  {
    match t
    case LongerThan(limit) => |line| > limit
    case Mentions(token) => ContainsIgnoreCase(line, token)
    case MutationWithoutWhere =>
      (ContainsIgnoreCase(line, "DELETE") || ContainsIgnoreCase(line, "UPDATE")) && !ContainsIgnoreCase(line, "WHERE")
  }

  /** A rule that emits one issue, with fixed text, for every line its test flags. */
  datatype LineRule = LineRule(kind: string, test: LineTest, message: string, suggestion: string, severity: Severity)

  function IssueAt(rule: LineRule, n: int): Issue
  {
    Issue(rule.kind, Some(n), rule.message, rule.suggestion, rule.severity)
  }

  const LongLine := LineRule("CSharp.LongLine", LongerThan(120),
    "Line exceeds 120 characters.", "Wrap or refactor to reduce line length.", Warning)
  const Todo := LineRule("CSharp.TODO", Mentions("TODO"),
    "TODO comment found.", "Resolve or track the TODO with an issue.", Info)
  const GoTo := LineRule("VBNet.GoTo", Mentions("GoTo"),
    "Usage of 'GoTo' found.", "Avoid GoTo; use structured control flow (If/Else, Select Case, loops).", Warning)
  const SelectStar := LineRule("SQL.SelectStar", Mentions("SELECT *"),
    "Usage of SELECT * detected.", "Specify explicit column names to improve performance and stability.", Warning)
  const MissingWhere := LineRule("SQL.MissingWhere", MutationWithoutWhere,
    "DELETE/UPDATE without WHERE clause.", "Add a WHERE clause to avoid affecting unintended rows.", Error)
  const NoLock := LineRule("SQL.NoLock", Mentions("NOLOCK"),
    "WITH (NOLOCK) hint detected.",
    "Be aware NOLOCK can read uncommitted data; consider SNAPSHOT isolation or proper indexing.", Info)

  /**
    One pass of a per-line rule over `lines[from..]`: exactly one issue per
    flagged line, at its 1-based number, in line order, and none elsewhere.
  */
  function FlagLines(lines: seq<string>, rule: LineRule, from: nat): (r: seq<Issue>)
    requires from <= |lines|
    ensures LinesAscending(r) && LinesWithin(r, from + 1, |lines|)
    ensures forall e :: e in r ==>
      e == IssueAt(rule, e.lineNumber.value) && Flags(rule.test, lines[e.lineNumber.value - 1])
    ensures forall k :: from <= k < |lines| && Flags(rule.test, lines[k]) ==> IssueAt(rule, k + 1) in r
    decreases |lines| - from
  {
    if from == |lines| then []
    else
      var rest := FlagLines(lines, rule, from + 1);
      if Flags(rule.test, lines[from]) then [IssueAt(rule, from + 1)] + rest else rest
  }

  // ------------------------------------------------------------ C# nested ifs

  /** `line[p..p+2]` is "if" (any case) not glued to a letter or digit on either side. */
  predicate WholeIfAt(line: string, p: nat)
  {
    && MatchesAt(line, p, "if")
    && (p == 0 || !IsLetterOrDigit(line[p - 1]))
    && (p + 2 >= |line| || !IsLetterOrDigit(line[p + 2]))
  }

  /** The source's loop: IndexOf("if", idx) repeatedly, stepping past each hit by two. */
  function IfTokensFrom(line: string, idx: nat): nat
    decreases |line| - idx
  {
    var p := IndexOfIgnoreCase(line, "if", idx);
    if p < 0 then 0
    else (if WholeIfAt(line, p) then 1 else 0) + IfTokensFrom(line, p + 2)
  }

  /** Reference count: the number of positions at or after `p` holding a whole-word "if". */
  function WholeIfsFrom(line: string, p: nat): nat
    decreases |line| - p
  {
    if p >= |line| then 0
    else (if WholeIfAt(line, p) then 1 else 0) + WholeIfsFrom(line, p + 1)
  }

  /** An "if" match cannot start inside another one: 'f' is not 'i' in any case. */
  lemma IfNoOverlap(line: string, p: nat)
    requires MatchesAt(line, p, "if")
    ensures !MatchesAt(line, p + 1, "if")
  {
    assert Lower(line[p + 1]) == ToLower(line[p..p + 2])[1] == 'f';
    assert p + 3 <= |line| ==> ToLower(line[p + 1..p + 3])[0] == Lower(line[p + 1]);
  }

  /** Positions without an "if" match contribute nothing to the reference count. */
  lemma {:induction false} WholeIfsSkip(line: string, lo: nat, hi: nat)
    requires lo <= hi
    requires forall q :: lo <= q < hi ==> !MatchesAt(line, q, "if")
    ensures WholeIfsFrom(line, lo) == WholeIfsFrom(line, hi)
    decreases hi - lo
  {
    if lo < hi {
      if lo < |line| {
        WholeIfsSkip(line, lo + 1, hi);
      } else {
        assert WholeIfsFrom(line, hi) == 0;
      }
    }
  }

  /** The IndexOf stepping counts exactly the whole-word "if" positions: it skips none. */
  lemma {:induction false} IfTokensCountsAll(line: string, idx: nat)
    ensures IfTokensFrom(line, idx) == WholeIfsFrom(line, idx)
    decreases |line| - idx
  {
    var p := IndexOfIgnoreCase(line, "if", idx);
    if p < 0 {
      IfTokensNone(line, idx);
    } else {
      IfTokensCountsAll(line, p + 2);
      IfTokensHit(line, idx, p);
    }
  }

  /** No "if" at or after `idx`: both counts are zero. */
  lemma IfTokensNone(line: string, idx: nat)
    requires IndexOfIgnoreCase(line, "if", idx) < 0
    ensures IfTokensFrom(line, idx) == 0 == WholeIfsFrom(line, idx)
  {
    WholeIfsSkip(line, idx, if idx <= |line| then |line| else idx);
    if idx <= |line| { assert WholeIfsFrom(line, |line|) == 0; }
  }

  /** The first "if" at or after `idx` is at `p`: both counts agree once they agree from `p + 2`. */
  lemma IfTokensHit(line: string, idx: nat, p: int)
    requires p == IndexOfIgnoreCase(line, "if", idx) && p >= 0
    requires IfTokensFrom(line, p + 2) == WholeIfsFrom(line, p + 2)
    ensures IfTokensFrom(line, idx) == WholeIfsFrom(line, idx)
  {
    WholeIfsSkip(line, idx, p);
    IfNoOverlap(line, p);
    assert WholeIfsFrom(line, p + 1) == WholeIfsFrom(line, p + 2);
  }

  /** What the nested-if scan reads from one line. */
  datatype LineFacts = LineFacts(opensMethod: bool, ifs: nat, netBraces: int)

  /** A line with '(' followed later by ')' and no "class" starts a method. */
  predicate LooksLikeMethodStart(line: string)
  {
    IndexOfChar(line, '(') >= 0 && IndexOfChar(line, ')') > IndexOfChar(line, '(') && !ContainsIgnoreCase(line, "class")
  }

  function Facts(line: string): LineFacts
  {
    LineFacts(LooksLikeMethodStart(line), IfTokensFrom(line, 0), CountChar(line, '{') - CountChar(line, '}'))
  }

  /** The scanner state of the nested-if check. */
  datatype IfScan = IfScan(inMethod: bool, ifCount: int, braceDepth: int)

  const ScanStart := IfScan(false, 0, 0)

  /** The state after one line's method-start test, if-count and brace count. */
  function Advance(st: IfScan, f: LineFacts): IfScan
  {
    var st1 := if !st.inMethod && f.opensMethod then IfScan(true, 0, 0) else st;
    IfScan(st1.inMethod, st1.ifCount + f.ifs, st1.braceDepth + f.netBraces)
  }

  /** The method is taken to end on this line. */
  predicate Closes(st: IfScan) { st.inMethod && st.braceDepth < 0 }

  /** After a close the scanner resets to its initial state. */
  function Settle(st: IfScan): IfScan { if Closes(st) then ScanStart else st }

  /** Reference: the scanner state before line `k`, by folding over the first `k` lines. */
  function StateBefore(facts: seq<LineFacts>, k: nat): IfScan
    requires k <= |facts|
  {
    if k == 0 then ScanStart else Settle(Advance(StateBefore(facts, k - 1), facts[k - 1]))
  }

  /** The line index `k` (0-based) closes a method holding more than two ifs. */
  predicate NestedIfsAt(facts: seq<LineFacts>, k: nat)
    requires k < |facts|
  {
    var a := Advance(StateBefore(facts, k), facts[k]);
    Closes(a) && a.ifCount > 2
  }

  const NestedIfsMessage := "Method contains more than two 'if' statements."
  const NestedIfsAdvice := "Consider refactoring (guard clauses, strategy, or early returns)."

  function NestedIfsIssue(n: int): Issue
  {
    Issue("CSharp.NestedIfs", Some(n), NestedIfsMessage, NestedIfsAdvice, Warning)
  }

  /** The nested-if scan from line `k` with state `st`. */
  function NestedIfs(facts: seq<LineFacts>, k: nat, st: IfScan): seq<Issue>
    requires k <= |facts|
    decreases |facts| - k
  {
    if k == |facts| then []
    else
      var a := Advance(st, facts[k]);
      var rest := NestedIfs(facts, k + 1, Settle(a));
      if Closes(a) && a.ifCount > 2 then [NestedIfsIssue(k + 1)] + rest else rest
  }

  /**
    What the nested-if scan from line `k` reports: Warnings only, at lines
    past `k`, in line order, each at a line where the method closes with
    more than two ifs counted.
  */
  lemma {:induction false} NestedIfsShape(facts: seq<LineFacts>, k: nat)
    requires k <= |facts|
    ensures var r := NestedIfs(facts, k, StateBefore(facts, k));
      && LinesAscending(r) && LinesWithin(r, k + 1, |facts|)
      && forall e :: e in r ==>
        e == NestedIfsIssue(e.lineNumber.value) && e.kind == "CSharp.NestedIfs" && e.severity == Warning
        && NestedIfsAt(facts, e.lineNumber.value - 1)
    decreases |facts| - k
  {
    if k < |facts| {
      NestedIfsShape(facts, k + 1);
      NestedIfsStep(facts, k);
      var rest := NestedIfs(facts, k + 1, StateBefore(facts, k + 1));
      if NestedIfsAt(facts, k) {
        PrependAscending(NestedIfsIssue(k + 1), rest, k + 1, |facts|);
      } else {
        assert NestedIfs(facts, k, StateBefore(facts, k)) == rest;
      }
    }
  }

  /** Some issue of `r` sits at line `n`. */
  predicate ReportsLine(r: seq<Issue>, n: int)
  {
    exists e :: e in r && e.lineNumber == Some(n)
  }

  /**
    The nested-if scan reports a line exactly when the method closes there
    (running brace depth below zero while in a method) with more than two
    ifs counted.
  */
  lemma {:induction false} NestedIfsExact(facts: seq<LineFacts>, k: nat, j: nat, r: seq<Issue>)
    requires k <= j < |facts| && r == NestedIfs(facts, k, StateBefore(facts, k))
    ensures ReportsLine(r, j + 1) <==> NestedIfsAt(facts, j)
    decreases |facts| - k
  {
    if j == k {
      NestedIfsHere(facts, k);
    } else {
      NestedIfsLater(facts, k, j);
      NestedIfsExact(facts, k + 1, j, NestedIfs(facts, k + 1, StateBefore(facts, k + 1)));
    }
  }

  /** The scan from line `k` reports line `k` exactly when the method closes there with more than two ifs. */
  lemma NestedIfsHere(facts: seq<LineFacts>, k: nat)
    requires k < |facts|
    ensures ReportsLine(NestedIfs(facts, k, StateBefore(facts, k)), k + 1) <==> NestedIfsAt(facts, k)
  {
    var rest := NestedIfs(facts, k + 1, StateBefore(facts, k + 1));
    NestedIfsStep(facts, k);
    NestedIfsShape(facts, k + 1);
    NotReportedBelow(rest, k + 2, |facts|, k + 1);
    if NestedIfsAt(facts, k) {
      ReportsCons(NestedIfsIssue(k + 1), rest, k + 1);
    } else {
      assert NestedIfs(facts, k, StateBefore(facts, k)) == rest;
    }
  }

  /** A later line is reported by the scan from line `k` exactly when the scan from `k + 1` reports it. */
  lemma NestedIfsLater(facts: seq<LineFacts>, k: nat, j: nat)
    requires k < j < |facts|
    ensures ReportsLine(NestedIfs(facts, k, StateBefore(facts, k)), j + 1)
        <==> ReportsLine(NestedIfs(facts, k + 1, StateBefore(facts, k + 1)), j + 1)
  {
    var rest := NestedIfs(facts, k + 1, StateBefore(facts, k + 1));
    NestedIfsStep(facts, k);
    if NestedIfsAt(facts, k) {
      ReportsCons(NestedIfsIssue(k + 1), rest, j + 1);
    } else {
      assert NestedIfs(facts, k, StateBefore(facts, k)) == rest;
    }
  }

  /** One line of the nested-if scan. */
  lemma NestedIfsStep(facts: seq<LineFacts>, k: nat)
    requires k < |facts|
    ensures NestedIfs(facts, k, StateBefore(facts, k)) ==
      (if NestedIfsAt(facts, k) then [NestedIfsIssue(k + 1)] else []) + NestedIfs(facts, k + 1, StateBefore(facts, k + 1))
  {
    assert Settle(Advance(StateBefore(facts, k), facts[k])) == StateBefore(facts, k + 1);
  }

  lemma ReportsCons(x: Issue, rest: seq<Issue>, n: int)
    ensures ReportsLine([x] + rest, n) <==> x.lineNumber == Some(n) || ReportsLine(rest, n)
  {
    if ReportsLine(rest, n) {
      var e :| e in rest && e.lineNumber == Some(n);
      assert e in [x] + rest;
    }
    if x.lineNumber == Some(n) {
      assert x in [x] + rest;
    }
  }

  lemma NotReportedBelow(r: seq<Issue>, lo: int, hi: int, n: int)
    requires LinesWithin(r, lo, hi) && n < lo
    ensures !ReportsLine(r, n)
  {
  }

  /** After a reporting line the scanner is back at its start: not in a method, no ifs, depth 0. */
  lemma ResetAfterClose(facts: seq<LineFacts>, k: nat)
    requires k < |facts| && Closes(Advance(StateBefore(facts, k), facts[k]))
    ensures StateBefore(facts, k + 1) == IfScan(false, 0, 0)
  {
  }

  /** The per-line facts of every line. */
  function FactsOf(lines: seq<string>): (facts: seq<LineFacts>)
    ensures |facts| == |lines| && forall i :: 0 <= i < |lines| ==> facts[i] == Facts(lines[i])
  {
    seq(|lines|, i requires 0 <= i < |lines| => Facts(lines[i]))
  }

  /** Rule issues for C#: all long lines, then all TODO lines, then the nested-if findings. */
  function AnalyzeCSharp(lines: seq<string>): (r: seq<Issue>)
    ensures RuleOrdered(r)
  {
    var facts := FactsOf(lines);
    RankOfRules();
    NestedIfsShape(facts, 0);
    OneRuleRank(FlagLines(lines, LongLine, 0), 0);
    OneRuleRank(FlagLines(lines, Todo, 0), 1);
    OneRuleRank(NestedIfs(facts, 0, ScanStart), 2);
    ThreeRuleRanks(FlagLines(lines, LongLine, 0), FlagLines(lines, Todo, 0), NestedIfs(facts, 0, ScanStart));
    FlagLines(lines, LongLine, 0) + FlagLines(lines, Todo, 0) + NestedIfs(facts, 0, ScanStart)
  }

  /**
    Per line, for C#: the long-line issue exactly when the line is longer
    than 120 characters, the TODO issue exactly when it mentions TODO, and
    the nested-if issue exactly when a method closes there with more than
    two ifs.
  */
  lemma CSharpRulesExact(lines: seq<string>, k: nat)
    requires k < |lines|
    ensures var r := AnalyzeCSharp(lines);
      && (IssueAt(LongLine, k + 1) in r <==> |lines[k]| > 120)
      && (IssueAt(Todo, k + 1) in r <==> ContainsIgnoreCase(lines[k], "TODO"))
      && (NestedIfsIssue(k + 1) in r <==> NestedIfsAt(FactsOf(lines), k))
  {
    var facts := FactsOf(lines);
    var x := FlagLines(lines, LongLine, 0);
    var y := FlagLines(lines, Todo, 0);
    var z := NestedIfs(facts, 0, ScanStart);
    NestedIfsShape(facts, 0);
    CSharpLineRulesAt(lines, k, z);
    CSharpNestedIfsAt(lines, k, x, y);
  }

  /** The two per-line C# rules, whose kinds the nested-if findings never carry. */
  lemma CSharpLineRulesAt(lines: seq<string>, k: nat, z: seq<Issue>)
    requires k < |lines|
    requires forall e :: e in z ==> e.kind == "CSharp.NestedIfs"
    ensures var r := FlagLines(lines, LongLine, 0) + FlagLines(lines, Todo, 0) + z;
      && (IssueAt(LongLine, k + 1) in r <==> |lines[k]| > 120)
      && (IssueAt(Todo, k + 1) in r <==> ContainsIgnoreCase(lines[k], "TODO"))
  {
    var x := FlagLines(lines, LongLine, 0);
    var y := FlagLines(lines, Todo, 0);
    assert IssueAt(LongLine, k + 1) !in y + z;
    assert IssueAt(Todo, k + 1) !in x + z;
  }

  /** The nested-if finding at a line, which the per-line rules never produce. */
  lemma CSharpNestedIfsAt(lines: seq<string>, k: nat, x: seq<Issue>, y: seq<Issue>)
    requires k < |lines|
    requires x == FlagLines(lines, LongLine, 0) && y == FlagLines(lines, Todo, 0)
    ensures NestedIfsIssue(k + 1) in x + y + NestedIfs(FactsOf(lines), 0, ScanStart) <==> NestedIfsAt(FactsOf(lines), k)
  {
    var facts := FactsOf(lines);
    var z := NestedIfs(facts, 0, ScanStart);
    NestedIfsShape(facts, 0);
    NestedIfsExact(facts, 0, k, z);
    assert NestedIfsIssue(k + 1) !in x + y;
    assert NestedIfsIssue(k + 1) in z <==> ReportsLine(z, k + 1);
  }

  /** The position of each rule kind within its language's rule set: the order the checks run in. */
  function RuleRank(kind: string): nat
  {
    if kind == LongLine.kind || kind == GoTo.kind || kind == SelectStar.kind then 0
    else if kind == Todo.kind || kind == MissingEndSub.kind || kind == MissingWhere.kind then 1
    else 2
  }

  /** The issues come rule by rule, in the order the checks run. */
  predicate RuleOrdered(r: seq<Issue>)
  {
    forall a, b :: 0 <= a < b < |r| ==> RuleRank(r[a].kind) <= RuleRank(r[b].kind)
  }

  lemma RankOfRules()
    ensures RuleRank(LongLine.kind) == 0 && RuleRank(Todo.kind) == 1 && RuleRank("CSharp.NestedIfs") == 2
    ensures RuleRank(GoTo.kind) == 0 && RuleRank(MissingEndSub.kind) == 1 && RuleRank(MissingEndFunction.kind) == 2
    ensures RuleRank(SelectStar.kind) == 0 && RuleRank(MissingWhere.kind) == 1 && RuleRank(NoLock.kind) == 2
  {
  }

  /** Two runs in rule order, the first ranked no higher than the second, make a run in rule order. */
  lemma RuleOrderedConcat(x: seq<Issue>, y: seq<Issue>)
    requires RuleOrdered(x) && RuleOrdered(y)
    requires forall e, f :: e in x && f in y ==> RuleRank(e.kind) <= RuleRank(f.kind)
    ensures RuleOrdered(x + y)
  {
    forall a, b | 0 <= a < b < |x + y| ensures RuleRank((x + y)[a].kind) <= RuleRank((x + y)[b].kind) {
      if b < |x| {
        assert (x + y)[a] == x[a] && (x + y)[b] == x[b];
      } else if a < |x| {
        assert (x + y)[a] == x[a] && (x + y)[b] == y[b - |x|];
        assert x[a] in x && y[b - |x|] in y;
      } else {
        assert (x + y)[a] == y[a - |x|] && (x + y)[b] == y[b - |x|];
      }
    }
  }

  /** Issues of a single rank are in rule order. */
  lemma OneRuleRank(x: seq<Issue>, k: nat)
    requires forall e :: e in x ==> RuleRank(e.kind) == k
    ensures RuleOrdered(x)
  {
    forall a, b | 0 <= a < b < |x| ensures RuleRank(x[a].kind) <= RuleRank(x[b].kind) {
      assert x[a] in x && x[b] in x;
    }
  }

  /** Three single-rank blocks of ranks 0, 1 and 2, in that order, are in rule order. */
  lemma ThreeRuleRanks(x: seq<Issue>, y: seq<Issue>, z: seq<Issue>)
    requires forall e :: e in x ==> RuleRank(e.kind) == 0
    requires forall e :: e in y ==> RuleRank(e.kind) == 1
    requires forall e :: e in z ==> RuleRank(e.kind) == 2
    ensures RuleOrdered(x + y + z)
  {
    var r := x + y + z;
    forall a, b | 0 <= a < b < |r| ensures RuleRank(r[a].kind) <= RuleRank(r[b].kind) {
      assert r[a] in x || r[a] in y || r[a] in z;
      assert r[b] in x || r[b] in y || r[b] in z;
      if b < |x| {
        assert r[a] == x[a] && r[b] == x[b];
      } else if b < |x| + |y| {
        assert r[b] == y[b - |x|];
        if a >= |x| { assert r[a] == y[a - |x|]; } else { assert r[a] == x[a]; }
      } else {
        assert r[b] == z[b - |x| - |y|];
      }
    }
  }

  // ------------------------------------------------------------ VB.NET

  /** Number of lines containing `token`, ignoring case. */
  function LinesWith(lines: seq<string>, token: string): (n: nat)
    ensures n <= |lines|
    ensures n > 0 <==> exists k :: 0 <= k < |lines| && ContainsIgnoreCase(lines[k], token)
  {
    if |lines| == 0 then 0
    else (if ContainsIgnoreCase(lines[0], token) then 1 else 0) + LinesWith(lines[1..], token)
  }

  /**
    When every line mentioning `inner` also mentions `outer`, at least as many
    lines mention `outer`, and strictly more exactly when some line mentions
    `outer` without `inner`.
  */
  lemma {:induction false} NestedTokenLines(lines: seq<string>, outer: string, inner: string)
    requires forall s: string :: ContainsIgnoreCase(s, inner) ==> ContainsIgnoreCase(s, outer)
    ensures LinesWith(lines, outer) >= LinesWith(lines, inner)
    ensures LinesWith(lines, outer) > LinesWith(lines, inner) <==>
      exists k :: 0 <= k < |lines| && ContainsIgnoreCase(lines[k], outer) && !ContainsIgnoreCase(lines[k], inner)
  {
    if |lines| > 0 {
      NestedTokenLines(lines[1..], outer, inner);
      var t := lines[1..];
      if exists k :: 0 <= k < |t| && ContainsIgnoreCase(t[k], outer) && !ContainsIgnoreCase(t[k], inner) {
        var k :| 0 <= k < |t| && ContainsIgnoreCase(t[k], outer) && !ContainsIgnoreCase(t[k], inner);
        assert lines[k + 1] == t[k];
      }
      if exists k :: 0 <= k < |lines| && ContainsIgnoreCase(lines[k], outer) && !ContainsIgnoreCase(lines[k], inner) {
        var k :| 0 <= k < |lines| && ContainsIgnoreCase(lines[k], outer) && !ContainsIgnoreCase(lines[k], inner);
        if k > 0 { assert t[k - 1] == lines[k]; }
      }
    }
  }

  /** "End Function" always carries "Function" inside it. */
  lemma EndFunctionHasFunction(s: string)
    ensures ContainsIgnoreCase(s, "End Function") ==> ContainsIgnoreCase(s, "Function")
  {
    if ContainsIgnoreCase(s, "End Function") {
      ContainsSlice(s, "End Function", 4, 12);
      assert "End Function"[4..12] == "Function";
    }
  }

  const MissingEndSub := Issue("VBNet.MissingEndSub", None,
    "Detected 'Sub' without matching 'End Sub'.", "Ensure each Sub is closed with 'End Sub'.", Error)
  const MissingEndFunction := Issue("VBNet.MissingEndFunction", None,
    "Detected 'Function' without matching 'End Function'.", "Ensure each Function is closed with 'End Function'.", Error)

  /** The Sub/Function balance check: file-scoped Errors when openers outnumber closers. */
  function VbBalance(lines: seq<string>): (r: seq<Issue>)
    ensures |r| <= 2
    ensures forall e :: e in r ==> e.severity == Error && e.lineNumber.None?
    ensures MissingEndSub in r <==>
      exists k :: 0 <= k < |lines| && ContainsIgnoreCase(lines[k], "Sub") && !ContainsIgnoreCase(lines[k], "End Sub")
    ensures MissingEndFunction in r <==>
      exists k :: 0 <= k < |lines| && ContainsIgnoreCase(lines[k], "Function") && !ContainsIgnoreCase(lines[k], "End Function")
    ensures forall e :: e in r ==> e == MissingEndSub || e == MissingEndFunction
    ensures Distinct(r) && RuleOrdered(r)
  {
    forall s: string ensures ContainsIgnoreCase(s, "End Sub") ==> ContainsIgnoreCase(s, "Sub") {
      LanguageDetector.EndSubHasSub(s);
    }
    forall s: string ensures ContainsIgnoreCase(s, "End Function") ==> ContainsIgnoreCase(s, "Function") {
      EndFunctionHasFunction(s);
    }
    NestedTokenLines(lines, "Sub", "End Sub");
    NestedTokenLines(lines, "Function", "End Function");
    var subs := if LinesWith(lines, "Sub") > LinesWith(lines, "End Sub") then [MissingEndSub] else [];
    var funcs := if LinesWith(lines, "Function") > LinesWith(lines, "End Function") then [MissingEndFunction] else [];
    BalanceShape(subs, funcs);
    subs + funcs
  }

  /** At most one MissingEndSub followed by at most one MissingEndFunction: no repeats, in rule order. */
  lemma BalanceShape(subs: seq<Issue>, funcs: seq<Issue>)
    requires subs == [] || subs == [MissingEndSub]
    requires funcs == [] || funcs == [MissingEndFunction]
    ensures var r := subs + funcs;
      && |r| <= 2 && (forall e :: e in r ==> e == MissingEndSub || e == MissingEndFunction)
      && Distinct(r) && RuleOrdered(r)
      && (MissingEndSub in r <==> subs != []) && (MissingEndFunction in r <==> funcs != [])
  {
    RankOfRules();
  }

  /** Rule issues for VB.NET: GoTo lines, then the Sub/Function balance. */
  function AnalyzeVB(lines: seq<string>): (r: seq<Issue>)
    ensures RuleOrdered(r)
  {
    RankOfRules();
    var x := FlagLines(lines, GoTo, 0);
    var b := VbBalance(lines);
    OneRuleRank(x, 0);
    RuleOrderedConcat(x, b);
    x + b
  }

  /**
    Per line, for VB.NET: the GoTo issue exactly when the line mentions
    GoTo; and each balance Error exactly when some line has the opener
    without its closer.
  */
  lemma VbRulesExact(lines: seq<string>, k: nat)
    requires k < |lines|
    ensures var r := AnalyzeVB(lines);
      && (IssueAt(GoTo, k + 1) in r <==> ContainsIgnoreCase(lines[k], "GoTo"))
      && (MissingEndSub in r <==>
        exists j :: 0 <= j < |lines| && ContainsIgnoreCase(lines[j], "Sub") && !ContainsIgnoreCase(lines[j], "End Sub"))
      && (MissingEndFunction in r <==>
        exists j :: 0 <= j < |lines| && ContainsIgnoreCase(lines[j], "Function") && !ContainsIgnoreCase(lines[j], "End Function"))
  {
    var x := FlagLines(lines, GoTo, 0);
    var b := VbBalance(lines);
    assert IssueAt(GoTo, k + 1) !in b;
    assert MissingEndSub !in x && MissingEndFunction !in x;
  }

  // ------------------------------------------------------------ SQL

  /** Rule issues for SQL: SELECT * lines, then DELETE/UPDATE-without-WHERE lines, then NOLOCK lines. */
  function AnalyzeSql(lines: seq<string>): (r: seq<Issue>)
    ensures RuleOrdered(r)
  {
    RankOfRules();
    OneRuleRank(FlagLines(lines, SelectStar, 0), 0);
    OneRuleRank(FlagLines(lines, MissingWhere, 0), 1);
    OneRuleRank(FlagLines(lines, NoLock, 0), 2);
    ThreeRuleRanks(FlagLines(lines, SelectStar, 0), FlagLines(lines, MissingWhere, 0), FlagLines(lines, NoLock, 0));
    FlagLines(lines, SelectStar, 0) + FlagLines(lines, MissingWhere, 0) + FlagLines(lines, NoLock, 0)
  }

  /**
    Per line, for SQL: the SELECT * issue exactly when the line mentions
    SELECT *, the missing-WHERE issue exactly when it mentions DELETE or
    UPDATE but not WHERE, and the NOLOCK issue exactly when it mentions
    NOLOCK.
  */
  lemma SqlRulesExact(lines: seq<string>, k: nat)
    requires k < |lines|
    ensures var r := AnalyzeSql(lines);
      && (IssueAt(SelectStar, k + 1) in r <==> ContainsIgnoreCase(lines[k], "SELECT *"))
      && (IssueAt(MissingWhere, k + 1) in r <==>
        (ContainsIgnoreCase(lines[k], "DELETE") || ContainsIgnoreCase(lines[k], "UPDATE")) && !ContainsIgnoreCase(lines[k], "WHERE"))
      && (IssueAt(NoLock, k + 1) in r <==> ContainsIgnoreCase(lines[k], "NOLOCK"))
  {
    var x := FlagLines(lines, SelectStar, 0);
    var y := FlagLines(lines, MissingWhere, 0);
    var z := FlagLines(lines, NoLock, 0);
    assert IssueAt(SelectStar, k + 1) !in y + z;
    assert IssueAt(MissingWhere, k + 1) !in x + z;
    assert IssueAt(NoLock, k + 1) !in x + y;
  }

  // ------------------------------------------------------------ dispatch

  /** `RunRuleBasedAnalysis`: the rule set of the given language; none for Unknown. */
  function RuleIssues(code: string, lang: DetectedLanguage): (r: seq<Issue>)
    ensures lang == Unknown ==> r == []
    ensures forall e :: e in r && e.lineNumber.Some? ==> 1 <= e.lineNumber.value <= |SplitLines(code)|
  {
    var lines := SplitLines(code);
    match lang
    case CSharp =>
      var facts := FactsOf(lines);
      var r := AnalyzeCSharp(lines);
      NestedIfsShape(facts, 0);
      assert forall e :: e in r ==> e in FlagLines(lines, LongLine, 0) || e in FlagLines(lines, Todo, 0) || e in NestedIfs(facts, 0, ScanStart);
      r
    case VBNet => AnalyzeVB(lines)
    case Sql =>
      var r := AnalyzeSql(lines);
      assert forall e :: e in r ==> e in FlagLines(lines, SelectStar, 0) || e in FlagLines(lines, MissingWhere, 0) || e in FlagLines(lines, NoLock, 0);
      r
    case Unknown => []
  }

  /** The language named by `name` after trimming and upper-casing; anything else is Unknown. */
  function ParseLanguageName(name: string): DetectedLanguage
  {
    var key := ToUpper(Trim(name));
    if key == "CSHARP" then CSharp
    else if key == "VBNET" then VBNet
    else if key == "SQL" then Sql
    else Unknown
  }

  /** `AnalyzeRules`: the rule issues for a language given by name. */
  function AnalyzeRules(code: string, languageName: string): (r: seq<Issue>)
    ensures ParseLanguageName(languageName) == Unknown ==> r == []
  {
    RuleIssues(code, ParseLanguageName(languageName))
  }

  /** Parsing a display name gives back its language: ToName and ParseLanguageName are inverse. */
  lemma ParseToName(lang: DetectedLanguage)
    ensures ParseLanguageName(LanguageDetector.ToName(lang)) == lang
  {
    var name := LanguageDetector.ToName(lang);
    TrimKeeps(name);
    match lang
    case CSharp => assert ToUpper(name) == "CSHARP";
    case VBNet => assert ToUpper(name) == "VBNET";
    case Sql => assert ToUpper(name) == "SQL";
    case Unknown => assert ToUpper(name)[0] == 'U';
  }

  // ------------------------------------------------------------ the whole analysis

  /** The three issue lists of `Analyze`, concatenated in the order the source adds them. */
  function Issues(code: string, language: DetectedLanguage): (r: seq<Issue>)
    ensures forall e :: e in r && e.lineNumber.Some? ==> 1 <= e.lineNumber.value <= |SplitLines(code)|
    ensures IsBlank(code) ==> r == RuleIssues(code, language)
  {
    var name := LanguageDetector.ToName(language);
    var rules := RuleIssues(code, language);
    var naming := NameQualityChecker.Analyze(code, name);
    var smells := CodeSmellDetector.Analyze(code, name);
    assert IsBlank(code) ==> rules + naming + smells == rules;
    rules + naming + smells
  }

  /**
    `Analyze`: the summary of the code under the language's display name,
    then the rule issues, the naming issues and the smell issues.
  */
  function Analyze(code: string, language: DetectedLanguage): (r: AnalysisResult)
    ensures SummaryGenerator.IsFinal(r.summary)
    ensures forall e :: e in r.issues && e.lineNumber.Some? ==> 1 <= e.lineNumber.value <= |SplitLines(code)|
    ensures IsBlank(code) ==> r.summary == SummaryGenerator.DefaultSummary && r.issues == RuleIssues(code, language)
  {
    AnalysisResult(SummaryGenerator.Generate(code, LanguageDetector.ToName(language)), Issues(code, language))
  }

  /** Whether `e` is a naming issue, as the name checker reports them. */
  predicate IsNamingIssue(e: Issue)
  {
    e.kind == "Naming.NonDescriptive" && e.severity == Info
  }

  /** `s` is `rules`, then a block of naming issues, then a block of smells. */
  ghost predicate InBlocks(s: seq<Issue>, rules: seq<Issue>)
  {
    exists i, j :: 0 <= i <= j <= |s|
      && s[..i] == rules
      && (forall e :: e in s[i..j] ==> IsNamingIssue(e))
      && (forall e :: e in s[j..] ==> CodeSmellDetector.IsSmellKind(e.kind))
  }

  /** A concatenation of three lists splits back into them. */
  lemma ThreeBlocks(a: seq<Issue>, b: seq<Issue>, c: seq<Issue>)
    requires forall e :: e in b ==> IsNamingIssue(e)
    requires forall e :: e in c ==> CodeSmellDetector.IsSmellKind(e.kind)
    ensures InBlocks(a + b + c, a)
  {
    var s := a + b + c;
    assert s[..|a|] == a;
    assert s[|a|..|a| + |b|] == b;
    assert s[|a| + |b|..] == c;
  }

  /**
    The issues come in three blocks and nothing is interleaved: first the
    language's rule issues, then naming issues, then smells.
  */
  lemma AnalyzeBlocks(code: string, language: DetectedLanguage)
    ensures InBlocks(Analyze(code, language).issues, RuleIssues(code, language))
  {
    var name := LanguageDetector.ToName(language);
    var rules := RuleIssues(code, language);
    var naming := NameQualityChecker.Analyze(code, name);
    var smells := CodeSmellDetector.Analyze(code, name);
    assert Analyze(code, language).issues == rules + naming + smells;
    ThreeBlocks(rules, naming, smells);
  }

  /**
    With language Unknown there are no rule or naming issues at all; only
    the repeated-literal smell, which ignores the language, can appear.
  */
  lemma UnknownOnlyLiterals(code: string)
    requires !IsBlank(code)
    ensures Issues(code, Unknown) == CodeSmellDetector.RepeatedLiterals(SplitLines(code))
  {
    var name := LanguageDetector.ToName(Unknown);
    UnknownNoNaming(code, name);
    UnknownSmells(code, name);
    IssuesParts(code, Unknown);
  }

  /** The name checker has no rules for the display name of Unknown. */
  lemma UnknownNoNaming(code: string, name: string)
    requires name == LanguageDetector.ToName(Unknown)
    ensures NameQualityChecker.Analyze(code, name) == []
  {
    TrimKeeps(name);
    UnknownIsOther(name);
  }

  /** Under the display name of Unknown only the repeated-literal smell runs. */
  lemma UnknownSmells(code: string, name: string)
    requires !IsBlank(code) && name == LanguageDetector.ToName(Unknown)
    ensures CodeSmellDetector.Analyze(code, name) == CodeSmellDetector.RepeatedLiterals(SplitLines(code))
  {
    TrimKeeps(name);
    UnknownIsOther(name);
    CodeSmellDetector.OtherLanguageOnlyLiterals(code, name);
  }

  /** The issue list is the rule issues, the naming issues and the smells, in that order. */
  lemma IssuesParts(code: string, language: DetectedLanguage)
    ensures var name := LanguageDetector.ToName(language);
      Issues(code, language) == RuleIssues(code, language) + NameQualityChecker.Analyze(code, name) + CodeSmellDetector.Analyze(code, name)
  {
  }

  /** The display name of Unknown is none of the three analysed language names. */
  lemma UnknownIsOther(name: string)
    requires name == LanguageDetector.ToName(Unknown)
    ensures !EqualsIgnoreCase(name, "CSharp") && !EqualsIgnoreCase(name, "VBNet") && !EqualsIgnoreCase(name, "SQL")
  {
    assert |ToLower(name)| == 7;
  }

  /**
    White space is not "no code" for the rule checks: a one-line C#
    snippet of more than 120 white-space characters gets no naming or smell
    issues and the default summary, yet its line is reported as too long.
  */
  lemma BlankLongLineFlagged(code: string)
    requires IsBlank(code) && |code| > 120 && '\r' !in code && '\n' !in code
    ensures var r := Analyze(code, CSharp);
      r.summary == SummaryGenerator.DefaultSummary && IssueAt(LongLine, 1) in r.issues
  {
    SingleLine(code);
    assert Flags(LongLine.test, SplitLines(code)[0]);
    assert IssueAt(LongLine, 1) in FlagLines(SplitLines(code), LongLine, 0);
    assert IssueAt(LongLine, 1) in AnalyzeCSharp(SplitLines(code));
  }
}

=== FILE: code_smells.dfy ===
/**
  The code-smell detector: deep nesting, long parameter lists, large
  classes or procedures and repeated literals, each found by a
  line-oriented scan.
*/
module CodeSmellDetector {
  import opened Text
  import opened Model
  import opened Patterns

  // ------------------------------------------------------------ counting

  /** The source's loop: IndexOf(token, idx) ignoring case, stepping past each hit by the token's length. */
  function CountTokenFrom(line: string, token: string, idx: nat): (r: nat)
    requires |token| > 0
    decreases |line| - idx
  {
    var p := IndexOfIgnoreCase(line, token, idx);
    if p < 0 then 0 else 1 + CountTokenFrom(line, token, p + |token|)
  }

  function CountToken(line: string, token: string): (r: nat)
    requires |token| > 0
  {
    CountTokenFrom(line, token, 0)
  }

  /**
    Reference count: scanning positions left to right, a match counts and
    the scan resumes after it; anything else moves one position on.
  */
  function GreedyCount(line: string, token: string, p: nat): nat
    requires |token| > 0
    decreases |line| - p
  {
    if p + |token| > |line| then 0
    else if MatchesAt(line, p, token) then 1 + GreedyCount(line, token, p + |token|)
    else GreedyCount(line, token, p + 1)
  }

  /** Positions without a match contribute nothing to the reference count. */
  lemma {:induction false} GreedySkip(line: string, token: string, lo: nat, hi: nat)
    requires |token| > 0 && lo <= hi
    requires forall q :: lo <= q < hi ==> !MatchesAt(line, q, token)
    ensures GreedyCount(line, token, lo) == GreedyCount(line, token, hi) || lo + |token| > |line|
    ensures lo + |token| > |line| ==> GreedyCount(line, token, lo) == 0
    decreases hi - lo
  {
    if lo < hi && lo + |token| <= |line| {
      GreedySkip(line, token, lo + 1, hi);
    }
  }

  /** A match at `p` counts one and the reference scan resumes after it. */
  lemma GreedyMatch(line: string, token: string, p: nat)
    requires |token| > 0 && MatchesAt(line, p, token)
    ensures GreedyCount(line, token, p) == 1 + GreedyCount(line, token, p + |token|)
  {
  }

  /**
    `CountToken` counts the non-overlapping occurrences of the token, found
    greedily from the left.
  */
  lemma {:induction false} CountTokenIsGreedy(line: string, token: string, idx: nat)
    requires |token| > 0
    ensures CountTokenFrom(line, token, idx) == GreedyCount(line, token, idx)
    decreases |line| - idx
  {
    var p := IndexOfIgnoreCase(line, token, idx);
    if p < 0 {
      assert CountTokenFrom(line, token, idx) == 0;
      if idx + |token| <= |line| {
        var hi := |line| - |token| + 1;
        GreedySkip(line, token, idx, hi);
        assert GreedyCount(line, token, hi) == 0;
      } else {
        GreedySkip(line, token, idx, idx);
      }
    } else {
      var next := p + |token|;
      assert next <= |line|;
      assert CountTokenFrom(line, token, idx) == 1 + CountTokenFrom(line, token, next);
      GreedySkip(line, token, idx, p);
      CountTokenIsGreedy(line, token, next);
      GreedyMatch(line, token, p);
    }
  }

  /** The counted occurrences fit in the line: count times the token's length is at most the length left. */
  lemma {:induction false} CountTokenFits(line: string, token: string, idx: nat)
    requires |token| > 0 && idx <= |line|
    ensures CountTokenFrom(line, token, idx) * |token| <= |line| - idx
    decreases |line| - idx
  {
    var p := IndexOfIgnoreCase(line, token, idx);
    if p >= 0 {
      assert idx <= p && p + |token| <= |line|;
      CountTokenFits(line, token, p + |token|);
      FitsStep(CountTokenFrom(line, token, idx), CountTokenFrom(line, token, p + |token|), |token|,
        |line| - idx, |line| - (p + |token|));
    }
  }

  /** One more occurrence of length `t` fits when the rest fit in what is left after it. */
  lemma FitsStep(n: nat, c: nat, t: nat, left: int, after: int)
    requires n == 1 + c && c * t <= after && after + t <= left
    ensures n * t <= left
  {
    assert n * t == t + c * t;
  }

  /** Number of commas, as the source's character loop counts them. */
  function CountCommas(text: string): (r: nat)
    ensures r == multiset(text)[',']
  {
    if |text| == 0 then 0
    else
      assert text == [text[0]] + text[1..];
      (if text[0] == ',' then 1 else 0) + CountCommas(text[1..])
  }

  // ------------------------------------------------------------ deep nesting: SQL

  /** A line's BEGIN and END counts. */
  datatype Tally = Tally(begins: nat, ends: nat)

  function Tallies(lines: seq<string>): (t: seq<Tally>)
    ensures |t| == |lines|
    ensures forall k :: 0 <= k < |lines| ==> t[k] == Tally(CountToken(lines[k], "BEGIN"), CountToken(lines[k], "END"))
  {
    seq(|lines|, k requires 0 <= k < |lines| => Tally(CountToken(lines[k], "BEGIN"), CountToken(lines[k], "END")))
  }

  /**
    The SQL nesting fold: add a line's BEGINs, take the maximum, subtract
    its ENDs.  `depth` and `maxDepth` are the running values before line `k`.
  */
  function SqlMaxDepth(t: seq<Tally>, k: nat, depth: int, maxDepth: int): (r: int)
    requires k <= |t|
    ensures r >= maxDepth
    decreases |t| - k
  {
    if k == |t| then maxDepth
    else
      var d := depth + t[k].begins;
      SqlMaxDepth(t, k + 1, d - t[k].ends, if d > maxDepth then d else maxDepth)
  }

  /** The running BEGIN-minus-END total over the lines before `k`. */
  function DepthBefore(t: seq<Tally>, k: nat): int
    requires k <= |t|
  {
    if k == 0 then 0 else DepthBefore(t, k - 1) + t[k - 1].begins - t[k - 1].ends
  }

  /** Some line at or after `k` takes the running total, after its BEGINs, above `bound`. */
  predicate ExceedsFrom(t: seq<Tally>, k: nat, bound: int)
    requires k <= |t|
  {
    exists j :: k <= j < |t| && DepthBefore(t, j) + t[j].begins > bound
  }

  /**
    The fold's maximum exceeds a bound exactly when, at some line, the
    running total after adding that line's BEGINs does.
  */
  lemma {:induction false} SqlMaxDepthExceeds(t: seq<Tally>, k: nat, maxDepth: int, bound: int)
    requires k <= |t|
    ensures SqlMaxDepth(t, k, DepthBefore(t, k), maxDepth) > bound <==> maxDepth > bound || ExceedsFrom(t, k, bound)
    decreases |t| - k
  {
    if k < |t| {
      var d := DepthBefore(t, k) + t[k].begins;
      var m := if d > maxDepth then d else maxDepth;
      SqlMaxDepthExceeds(t, k + 1, m, bound);
      SqlMaxDepthStep(t, k, maxDepth);
      ExceedsFromStep(t, k, bound);
    }
  }

  /** One step of the SQL fold, with the running total written as `DepthBefore`. */
  lemma SqlMaxDepthStep(t: seq<Tally>, k: nat, maxDepth: int)
    requires k < |t|
    ensures var d := DepthBefore(t, k) + t[k].begins;
      SqlMaxDepth(t, k, DepthBefore(t, k), maxDepth)
      == SqlMaxDepth(t, k + 1, DepthBefore(t, k + 1), if d > maxDepth then d else maxDepth)
  {
  }

  /** A line at or after `k` exceeds the bound when line `k` does or one after it does. */
  lemma ExceedsFromStep(t: seq<Tally>, k: nat, bound: int)
    requires k < |t|
    ensures ExceedsFrom(t, k, bound) <==> DepthBefore(t, k) + t[k].begins > bound || ExceedsFrom(t, k + 1, bound)
  {
    if ExceedsFrom(t, k, bound) {
      var j :| k <= j < |t| && DepthBefore(t, j) + t[j].begins > bound;
      if j > k {
        assert k + 1 <= j;
      }
    }
  }

  const DeepNestingSqlIssue := Issue("Smell.DeepNesting", Some(1), "Nested BEGIN/END blocks exceed 3 levels.",
    "Refactor into smaller procedures or reduce nesting.", Warning)

  /**
    SQL deep nesting: at most one Warning, always at line 1, present exactly
    when the running BEGIN total (after a line's BEGINs, before its ENDs)
    exceeds 3 at some line.
  */
  function DeepNestingSql(lines: seq<string>): (r: seq<Issue>)
    ensures r == [] || r == [DeepNestingSqlIssue]
    ensures var t := Tallies(lines);
      r == [DeepNestingSqlIssue] <==> ExceedsFrom(t, 0, 3)
  {
    var t := Tallies(lines);
    SqlMaxDepthExceeds(t, 0, 0, 3);
    if SqlMaxDepth(t, 0, 0, 0) > 3 then [DeepNestingSqlIssue] else []
  }

  // ------------------------------------------------------------ long parameter lists

  /** Parameters in a parameter text: none when it is blank, else one more than its commas. */
  function ParamCount(paramList: string): (r: nat)
    ensures IsBlank(paramList) ==> r == 0
    ensures !IsBlank(paramList) ==> r == multiset(paramList)[','] + 1
  {
    if IsBlank(paramList) then 0 else CountCommas(paramList) + 1
  }

  /** One language's long-parameter check: the signature pattern and the issue's text. */
  datatype ParamRule = ParamRule(pattern: Pattern, message: string, suggestion: string)

  const CSharpSignature := Signature(["public", "private", "protected", "internal", "static", "async",
    "virtual", "override", "sealed", "partial", "extern"], true)
  const VBSignature := Keyword(Some(["Public", "Private", "Protected", "Friend", "Shared", "Static"]),
    [["Sub"], ["Function"]], ParamList)
  /** PROCEDURE before PROC: the `\s+` that follows lets at most one of them match. */
  const SqlCreateSignature := Keyword(None, [["CREATE", "PROCEDURE"], ["CREATE", "PROC"], ["CREATE", "FUNCTION"]], ParamList)

  const CSharpParams := ParamRule(CSharpSignature, "Method has too many parameters.",
    "Consider grouping parameters into an object or reducing parameters.")
  const VBParams := ParamRule(VBSignature, "Method has too many parameters.",
    "Consider grouping parameters into a type or reducing parameters.")
  const SqlParams := ParamRule(SqlCreateSignature, "Procedure has too many parameters.",
    "Refactor to reduce parameters or use table-valued parameters.")

  predicate ParamRuleOk(rule: ParamRule)
  {
    ValidPattern(rule.pattern) && HasParams(rule.pattern)
  }

  /** The parameter text of the first signature on the line, if any. */
  function FirstParams(rule: ParamRule, line: string): (r: Option<string>)
    requires ParamRuleOk(rule)
    ensures r.Some? ==> ')' !in r.value
  {
    match FirstMatch(rule.pattern, line, 0)
    case None => None
    case Some(m) => Some(Args(line, m))
  }

  /** The line's first signature has more than five parameters. */
  predicate LongParams(rule: ParamRule, line: string)
    requires ParamRuleOk(rule)
  {
    var p := FirstParams(rule, line);
    p.Some? && ParamCount(p.value) > 5
  }

  function LongParamIssue(rule: ParamRule, n: int): Issue
  {
    Issue("Smell.LongParameterList", Some(n), rule.message, rule.suggestion, Warning)
  }

  /** Which lines have a first signature with more than five parameters. */
  function LongLines(lines: seq<string>, rule: ParamRule): (flags: seq<bool>)
    requires ParamRuleOk(rule)
    ensures |flags| == |lines| && forall j :: 0 <= j < |lines| ==> flags[j] == LongParams(rule, lines[j])
  {
    seq(|lines|, j requires 0 <= j < |lines| => LongParams(rule, lines[j]))
  }

  /**
    The long-parameter scan from line `k`, over the per-line verdicts
    `flags`: one Warning per flagged line, at that line, in line order, and
    none elsewhere.
  */
  function LongParameterLines(flags: seq<bool>, rule: ParamRule, k: nat): (r: seq<Issue>)
    requires k <= |flags|
    ensures LinesAscending(r) && LinesWithin(r, k + 1, |flags|)
    ensures forall e :: e in r ==> e == LongParamIssue(rule, e.lineNumber.value) && flags[e.lineNumber.value - 1]
    decreases |flags| - k
  {
    if k == |flags| then []
    else
      var rest := LongParameterLines(flags, rule, k + 1);
      if flags[k] then
        PrependAscending(LongParamIssue(rule, k + 1), rest, k + 1, |flags|);
        [LongParamIssue(rule, k + 1)] + rest
      else rest
  }

  /** Every flagged line at or after `k` is reported. */
  lemma {:induction false} LongParameterLinesComplete(flags: seq<bool>, rule: ParamRule, k: nat, j: nat)
    requires k <= j < |flags| && flags[j]
    ensures LongParamIssue(rule, j + 1) in LongParameterLines(flags, rule, k)
    decreases |flags| - k
  {
    var rest := LongParameterLines(flags, rule, k + 1);
    var x := LongParamIssue(rule, k + 1);
    if flags[k] {
      assert LongParameterLines(flags, rule, k) == [x] + rest;
      if j > k {
        LongParameterLinesComplete(flags, rule, k + 1, j);
      }
    } else {
      assert LongParameterLines(flags, rule, k) == rest;
      LongParameterLinesComplete(flags, rule, k + 1, j);
    }
  }

  /** The scan of a language's lines reports line `j + 1` exactly when line `j` has a long signature. */
  lemma LongParameterLinesExact(lines: seq<string>, rule: ParamRule, j: nat)
    requires ParamRuleOk(rule) && j < |lines|
    ensures var r := LongParameterLines(LongLines(lines, rule), rule, 0);
      LongParamIssue(rule, j + 1) in r <==> LongParams(rule, lines[j])
  {
    var flags := LongLines(lines, rule);
    if flags[j] {
      LongParameterLinesComplete(flags, rule, 0, j);
    }
  }

  /** `DetectLongParameterLists`: by language name; other languages have no such check. */
  function LongParameterLists(code: string, language: string): (r: seq<Issue>)
    ensures forall e :: e in r ==> e.kind == "Smell.LongParameterList" && e.severity == Warning
    ensures LinesAscending(r) && LinesWithin(r, 1, |SplitLines(code)|)
  {
    var lines := SplitLines(code);
    if EqualsIgnoreCase(language, "CSharp") then LongParameterLines(LongLines(lines, CSharpParams), CSharpParams, 0)
    else if EqualsIgnoreCase(language, "VBNet") then LongParameterLines(LongLines(lines, VBParams), VBParams, 0)
    else if EqualsIgnoreCase(language, "SQL") then LongParameterLines(LongLines(lines, SqlParams), SqlParams, 0)
    else []
  }

  // ------------------------------------------------------------ repeated literals

  /** One literal occurrence and its 1-based line. */
  datatype Occurrence = Occurrence(literal: string, line: int)

  function NonEmpty(names: seq<string>): (r: seq<string>)
    ensures forall x :: x in r <==> x in names && x != ""
  {
    if |names| == 0 then []
    else (if names[0] == "" then [] else [names[0]]) + NonEmpty(names[1..])
  }

  function At(lits: seq<string>, n: int): (r: seq<Occurrence>)
    ensures |r| == |lits|
    ensures forall i :: 0 <= i < |r| ==> r[i] == Occurrence(lits[i], n)
  {
    seq(|lits|, i requires 0 <= i < |lits| => Occurrence(lits[i], n))
  }

  /** A line's literal occurrences: its non-empty quoted strings, then its numbers, each left to right. */
  function LineOccurrences(line: string, n: int): (r: seq<Occurrence>)
    ensures forall o :: o in r ==> o.line == n
  {
    At(NonEmpty(AllNames(StringLiteral, line)), n) + At(AllNames(NumberLiteral, line), n)
  }

  /** All occurrences of `lines[k..]`, line by line. */
  function Occurrences(lines: seq<string>, k: nat): (r: seq<Occurrence>)
    requires k <= |lines|
    ensures forall o :: o in r ==> k + 1 <= o.line <= |lines|
    decreases |lines| - k
  {
    if k == |lines| then [] else LineOccurrences(lines[k], k + 1) + Occurrences(lines, k + 1)
  }

  /** Reference: the lines of the occurrences whose literal folds to `key`, in order. */
  function LinesOf(occ: seq<Occurrence>, key: string): seq<int>
  {
    if |occ| == 0 then []
    else LinesOf(occ[..|occ| - 1], key) + (if ToLower(occ[|occ| - 1].literal) == key then [occ[|occ| - 1].line] else [])
  }

  /** Reference: the spelling of the first occurrence whose literal folds to `key`. */
  function FirstSpelling(occ: seq<Occurrence>, key: string): string
  {
    if |occ| == 0 then ""
    else if ToLower(occ[0].literal) == key then occ[0].literal
    else FirstSpelling(occ[1..], key)
  }

  /** A dictionary entry: the key as first added, and the lines of all its occurrences. */
  datatype Entry = Entry(key: string, lines: seq<int>)

  /**
    The case-insensitive dictionary: entries indexed by the folded literal,
    and the folded keys in insertion order, which is the enumeration order.
  */
  datatype Dict = Dict(order: seq<string>, entries: map<string, Entry>)

  /** `TryAdd` then `Add`: a new key starts an empty list, and the line is appended. */
  function Record(d: Dict, o: Occurrence): Dict
  {
    var k := ToLower(o.literal);
    if k in d.entries then Dict(d.order, d.entries[k := Entry(d.entries[k].key, d.entries[k].lines + [o.line])])
    else Dict(d.order + [k], d.entries[k := Entry(o.literal, [o.line])])
  }

  /** The dictionary after recording `occ` in order. */
  function Collect(occ: seq<Occurrence>): Dict
  {
    if |occ| == 0 then Dict([], map[]) else Record(Collect(occ[..|occ| - 1]), occ[|occ| - 1])
  }

  /** Some occurrence's literal folds to `key`. */
  predicate Occurs(occ: seq<Occurrence>, key: string)
  {
    exists i :: 0 <= i < |occ| && ToLower(occ[i].literal) == key
  }

  /**
    `d` is the grouping of the occurrences: its keys are exactly the folded
    literals, each listed once in the order, and each entry holds the first
    spelling and every line of that literal, in occurrence order.
  */
  ghost predicate Groups(d: Dict, occ: seq<Occurrence>)
  {
    && (forall i, j :: 0 <= i < j < |d.order| ==> d.order[i] != d.order[j])
    && (forall k :: k in d.order <==> k in d.entries)
    && (forall k :: k in d.entries <==> Occurs(occ, k))
    && (forall k :: k in d.entries ==> d.entries[k] == Entry(FirstSpelling(occ, k), LinesOf(occ, k)))
  }

  /** Recording the occurrences one by one builds their grouping. */
  lemma {:induction false} CollectGroups(occ: seq<Occurrence>)
    ensures Groups(Collect(occ), occ)
  {
    if |occ| > 0 {
      var init := occ[..|occ| - 1];
      var o := occ[|occ| - 1];
      CollectGroups(init);
      assert occ == init + [o];
      RecordGroups(Collect(init), init, o);
    }
  }

  /** Recording one more occurrence keeps the dictionary the grouping of the longer sequence. */
  lemma RecordGroups(d0: Dict, init: seq<Occurrence>, o: Occurrence)
    requires Groups(d0, init)
    ensures Groups(Record(d0, o), init + [o])
  {
    OccursExtend(init, o);
    if ToLower(o.literal) in d0.entries {
      RecordKnown(d0, init, o);
    } else {
      RecordFresh(d0, init, o);
    }
  }

  /** The longer sequence has the keys of the shorter one and the new occurrence's key. */
  lemma OccursExtend(init: seq<Occurrence>, o: Occurrence)
    ensures forall key :: Occurs(init + [o], key) <==> Occurs(init, key) || ToLower(o.literal) == key
  {
    var occ := init + [o];
    forall key ensures Occurs(occ, key) <==> Occurs(init, key) || ToLower(o.literal) == key {
      if Occurs(occ, key) {
        var i :| 0 <= i < |occ| && ToLower(occ[i].literal) == key;
        if i < |occ| - 1 { assert init[i] == occ[i]; }
      }
      if Occurs(init, key) {
        var i :| 0 <= i < |init| && ToLower(init[i].literal) == key;
        assert occ[i] == init[i];
      }
      assert occ[|occ| - 1] == o;
    }
  }

  /** Only the new occurrence's key gains a line. */
  lemma LinesOfExtend(init: seq<Occurrence>, o: Occurrence, key: string)
    ensures LinesOf(init + [o], key) == LinesOf(init, key) + (if ToLower(o.literal) == key then [o.line] else [])
  {
    assert (init + [o])[..|init|] == init;
  }

  /** Recording a literal already present appends its line to the existing entry. */
  lemma RecordKnown(d0: Dict, init: seq<Occurrence>, o: Occurrence)
    requires Groups(d0, init) && ToLower(o.literal) in d0.entries
    requires forall key :: Occurs(init + [o], key) <==> Occurs(init, key) || ToLower(o.literal) == key
    ensures Groups(Record(d0, o), init + [o])
  {
    var occ := init + [o];
    var d := Record(d0, o);
    assert d.order == d0.order;
    forall key | key in d.entries ensures d.entries[key] == Entry(FirstSpelling(occ, key), LinesOf(occ, key)) {
      assert Occurs(init, key);
      FirstSpellingExtend(init, o, key);
      LinesOfExtend(init, o, key);
    }
  }

  /** Recording a new literal adds an entry at the end of the order. */
  lemma RecordFresh(d0: Dict, init: seq<Occurrence>, o: Occurrence)
    requires Groups(d0, init) && ToLower(o.literal) !in d0.entries
    requires forall key :: Occurs(init + [o], key) <==> Occurs(init, key) || ToLower(o.literal) == key
    ensures Groups(Record(d0, o), init + [o])
  {
    var occ := init + [o];
    var d := Record(d0, o);
    var k := ToLower(o.literal);
    assert !Occurs(init, k);
    assert d.order == d0.order + [k] && k !in d0.order;
    forall key | key in d.entries ensures d.entries[key] == Entry(FirstSpelling(occ, key), LinesOf(occ, key)) {
      LinesOfExtend(init, o, key);
      if key != k {
        assert Occurs(init, key);
        FirstSpellingExtend(init, o, key);
      } else {
        FirstSpellingNew(init, o);
        LinesOfAbsent(init, k);
      }
    }
  }

  lemma {:induction false} FirstSpellingExtend(init: seq<Occurrence>, o: Occurrence, key: string)
    requires Occurs(init, key)
    ensures FirstSpelling(init + [o], key) == FirstSpelling(init, key)
  {
    var i :| 0 <= i < |init| && ToLower(init[i].literal) == key;
    if ToLower(init[0].literal) != key {
      assert i > 0 && init[1..][i - 1] == init[i];
      assert (init + [o])[1..] == init[1..] + [o];
      FirstSpellingExtend(init[1..], o, key);
    }
  }

  lemma {:induction false} FirstSpellingNew(init: seq<Occurrence>, o: Occurrence)
    requires !Occurs(init, ToLower(o.literal))
    ensures FirstSpelling(init + [o], ToLower(o.literal)) == o.literal
  {
    if |init| > 0 {
      assert ToLower(init[0].literal) != ToLower(o.literal);
      assert (init + [o])[1..] == init[1..] + [o];
      assert !Occurs(init[1..], ToLower(o.literal)) by {
        forall i | 0 <= i < |init[1..]| ensures ToLower(init[1..][i].literal) != ToLower(o.literal) {
          assert init[1..][i] == init[i + 1];
        }
      }
      FirstSpellingNew(init[1..], o);
    } else {
      assert init + [o] == [o];
    }
  }

  /** The repeated-literal message, around the literal, and its advice. */
  const LiteralOpen := "Literal '"
  const LiteralClose := "' appears repeatedly."
  const LiteralAdvice := "Extract to a constant or parameter to improve maintainability."

  function RepeatedIssue(entry: Entry): Issue
    requires |entry.lines| > 0
  {
    Issue("Smell.RepeatedLiteral", Some(entry.lines[0]), LiteralOpen + entry.key + LiteralClose, LiteralAdvice, Info)
  }

  /** `e` is the issue of one of `keys` whose entry has three or more lines. */
  predicate RepeatedOf(keys: seq<string>, entries: map<string, Entry>, e: Issue)
    requires forall k :: k in keys ==> k in entries
  {
    exists k :: k in keys && |entries[k].lines| >= 3 && e == RepeatedIssue(entries[k])
  }

  /** The enumeration of `keys`: an issue for each entry with three or more occurrences. */
  function Repeated(keys: seq<string>, entries: map<string, Entry>): (r: seq<Issue>)
    requires forall k :: k in keys ==> k in entries
    ensures forall e :: e in r ==> RepeatedOf(keys, entries, e)
    ensures forall k :: k in keys && |entries[k].lines| >= 3 ==> RepeatedIssue(entries[k]) in r
    ensures |r| <= |keys|
  {
    if |keys| == 0 then []
    else
      var rest := Repeated(keys[1..], entries);
      assert forall k :: k in keys[1..] ==> k in keys;
      assert forall k :: k in keys ==> k == keys[0] || k in keys[1..];
      var e := entries[keys[0]];
      (if |e.lines| >= 3 then [RepeatedIssue(e)] else []) + rest
  }

  /**
    Distinct keys whose entries keep a spelling that folds back to the key
    give distinct issues: the message names the spelling, and two keys
    never share one.
  */
  lemma {:induction false} RepeatedDistinct(keys: seq<string>, entries: map<string, Entry>)
    requires forall k :: k in keys ==> k in entries && ToLower(entries[k].key) == k
    requires forall a, b :: 0 <= a < b < |keys| ==> keys[a] != keys[b]
    ensures Distinct(Repeated(keys, entries))
  {
    if |keys| > 0 {
      var t := keys[1..];
      assert forall a, b :: 0 <= a < b < |t| ==> t[a] != t[b] by {
        forall a, b | 0 <= a < b < |t| ensures t[a] != t[b] {
          assert t[a] == keys[a + 1] && t[b] == keys[b + 1];
        }
      }
      RepeatedDistinct(t, entries);
      var rest := Repeated(t, entries);
      var e := entries[keys[0]];
      if |e.lines| >= 3 {
        var x := RepeatedIssue(e);
        assert x !in rest by {
          if x in rest {
            var k :| k in t && |entries[k].lines| >= 3 && x == RepeatedIssue(entries[k]);
            MessageKey(entries[k].key, e.key);
          }
        }
        forall a, b | 0 <= a < b < |[x] + rest| ensures ([x] + rest)[a] != ([x] + rest)[b] {
          if a == 0 {
            assert ([x] + rest)[b] == rest[b - 1];
          } else {
            assert ([x] + rest)[a] == rest[a - 1] && ([x] + rest)[b] == rest[b - 1];
          }
        }
      }
    }
  }

  /** `DetectRepeatedLiterals`: each literal, compared ignoring case, is reported at most once. */
  function RepeatedLiterals(lines: seq<string>): (r: seq<Issue>)
    ensures Distinct(r)
  {
    var occ := Occurrences(lines, 0);
    CollectGroups(occ);
    var d := Collect(occ);
    assert forall k :: k in d.order ==> k in d.entries && ToLower(d.entries[k].key) == k by {
      forall k | k in d.order ensures k in d.entries && ToLower(d.entries[k].key) == k {
        FirstSpellingFolds(occ, k);
      }
    }
    RepeatedDistinct(d.order, d.entries);
    Repeated(d.order, d.entries)
  }

  /**
    Per literal: the issue for a literal (first spelling, first line) is
    reported exactly when the literal, compared ignoring case, occurs at
    least three times in all; every issue is such a literal's issue.
  */
  lemma RepeatedLiteralExact(lines: seq<string>, key: string)
    requires Occurs(Occurrences(lines, 0), key)
    ensures var occ := Occurrences(lines, 0);
      var entry := Entry(FirstSpelling(occ, key), LinesOf(occ, key));
      |entry.lines| > 0 &&
      (RepeatedIssue(entry) in RepeatedLiterals(lines) <==> |LinesOf(occ, key)| >= 3)
  {
    var occ := Occurrences(lines, 0);
    CollectGroups(occ);
    var d := Collect(occ);
    var entry := Entry(FirstSpelling(occ, key), LinesOf(occ, key));
    assert d.entries[key] == entry;
    LinesOfNonEmpty(occ, key);
    if RepeatedIssue(entry) in RepeatedLiterals(lines) {
      var k :| k in d.order && |d.entries[k].lines| >= 3 && RepeatedIssue(entry) == RepeatedIssue(d.entries[k]);
      assert ToLower(FirstSpelling(occ, k)) == k by { FirstSpellingFolds(occ, k); }
      assert ToLower(FirstSpelling(occ, key)) == key by { FirstSpellingFolds(occ, key); }
      assert LiteralOpen + d.entries[k].key + LiteralClose == LiteralOpen + entry.key + LiteralClose;
      MessageKey(d.entries[k].key, entry.key);
    }
  }

  lemma MessageKey(a: string, b: string)
    requires LiteralOpen + a + LiteralClose == LiteralOpen + b + LiteralClose
    ensures a == b
  {
    assert |a| == |b|;
    assert a == (LiteralOpen + a + LiteralClose)[|LiteralOpen|..|LiteralOpen| + |a|];
  }

  lemma {:induction false} LinesOfAbsent(occ: seq<Occurrence>, key: string)
    requires !Occurs(occ, key)
    ensures LinesOf(occ, key) == []
  {
    if |occ| > 0 {
      var init := occ[..|occ| - 1];
      assert !Occurs(init, key) by {
        forall i | 0 <= i < |init| ensures ToLower(init[i].literal) != key {
          assert init[i] == occ[i];
        }
      }
      LinesOfAbsent(init, key);
    }
  }

  lemma {:induction false} LinesOfNonEmpty(occ: seq<Occurrence>, key: string)
    requires Occurs(occ, key)
    ensures |LinesOf(occ, key)| > 0
  {
    var init := occ[..|occ| - 1];
    if ToLower(occ[|occ| - 1].literal) != key {
      var i :| 0 <= i < |occ| && ToLower(occ[i].literal) == key;
      assert init[i] == occ[i];
      LinesOfNonEmpty(init, key);
    }
  }

  lemma {:induction false} FirstSpellingFolds(occ: seq<Occurrence>, key: string)
    requires Occurs(occ, key)
    ensures ToLower(FirstSpelling(occ, key)) == key
  {
    if ToLower(occ[0].literal) != key {
      var i :| 0 <= i < |occ| && ToLower(occ[i].literal) == key;
      assert occ[1..][i - 1] == occ[i];
      FirstSpellingFolds(occ[1..], key);
    }
  }

  // ------------------------------------------------------------ deep nesting: C#

  /** Brace depth, whether a '{' has been seen, and the deepest depth reached after a '{'. */
  datatype NestState = NestState(depth: int, inBody: bool, maxDepth: int)

  const NestStart := NestState(0, false, 0)

  /** The per-character brace walk over one line. */
  function WalkBraces(line: string, st: NestState): (r: NestState)
    ensures r.depth == st.depth + CountChar(line, '{') - CountChar(line, '}')
    ensures r.inBody <==> st.inBody || '{' in line
    ensures r.maxDepth >= st.maxDepth
    decreases |line|
  {
    if |line| == 0 then st
    else
      var c := line[0];
      var next :=
        if c == '{' then NestState(st.depth + 1, true, if st.depth + 1 > st.maxDepth then st.depth + 1 else st.maxDepth)
        else if c == '}' then NestState(st.depth - 1, st.inBody, st.maxDepth)
        else st;
      assert line == [c] + line[1..];
      WalkBraces(line[1..], next)
  }

  /** How far a method's scan runs: up to and including the line where the body closes, or to the end. */
  datatype Extent = Extent(end: nat, measure: int)

  /**
    The inner C# scan from line `j`: walk each line's braces and stop after
    the line on which the body has opened and the depth is back to zero or
    below.  `measure` is the deepest depth reached.
  */
  function NestExtent(lines: seq<string>, j: nat, st: NestState): (r: Extent)
    requires j <= |lines|
    ensures j <= r.end <= |lines| && (j < |lines| ==> j < r.end)
    ensures r.measure >= st.maxDepth
    decreases |lines| - j
  {
    if j == |lines| then Extent(j, st.maxDepth)
    else
      var next := WalkBraces(lines[j], st);
      if next.inBody && next.depth <= 0 then Extent(j + 1, next.maxDepth) else NestExtent(lines, j + 1, next)
  }

  /** The deep-nesting message, around the method name, and its advice. */
  const NestingOpen := "Nested blocks exceed 3 levels in function '"
  const NestingClose := "'."
  const NestingAdvice := "Refactor using early returns or helper methods."

  function DeepNestingIssue(n: int, name: string): Issue
  {
    Issue("Smell.DeepNesting", Some(n), NestingOpen + name + NestingClose, NestingAdvice, Warning)
  }

  /** The first-match names of a pattern, line by line. */
  function Starts(p: Pattern, lines: seq<string>): (starts: seq<Option<string>>)
    requires ValidPattern(p)
    ensures |starts| == |lines|
  {
    seq(|lines|, k requires 0 <= k < |lines| => FirstName(p, lines[k]))
  }

  /** The two method-nesting dialects. */
  datatype Dialect = BraceDialect | VBDialect

  /** The inner scan of a method starting at line `i`, in the dialect's terms. */
  function MethodExtent(dialect: Dialect, lines: seq<string>, i: nat): (r: Extent)
    requires i < |lines|
    ensures i < r.end <= |lines|
  {
    match dialect
    case BraceDialect => NestExtent(lines, i, NestStart)
    case VBDialect => VbExtent(lines, i, VbNest(0, 0))
  }

  /** Extents `xs` for `n` lines: each one ends after its own start line. */
  predicate ExtentsOk(xs: seq<Extent>, n: nat)
  {
    |xs| == n && forall k :: 0 <= k < n ==> k < xs[k].end <= n
  }

  /** The extent of a method starting at each line. */
  function Extents(dialect: Dialect, lines: seq<string>): (xs: seq<Extent>)
    ensures ExtentsOk(xs, |lines|)
  {
    seq(|lines|, k requires 0 <= k < |lines| => MethodExtent(dialect, lines, k))
  }

  /**
    Reference for the deep-nesting scans from line `i`, over the method-start
    names `starts` and the extents `xs` of each line: a line without a method
    start is skipped; at a method start the scan measures the method and
    resumes after it.
  */
  function DeepNestingFrom(starts: seq<Option<string>>, xs: seq<Extent>, i: nat): seq<Issue>
    requires ExtentsOk(xs, |starts|) && i <= |starts|
    decreases |starts| - i
  {
    if i == |starts| then []
    else match starts[i] {
      case None => DeepNestingFrom(starts, xs, i + 1)
      case Some(name) =>
        (if xs[i].measure > 3 then [DeepNestingIssue(i + 1, name)] else []) + DeepNestingFrom(starts, xs, xs[i].end)
    }
  }

  /** One step of the deep-nesting reference scan. */
  lemma DeepNestingStep(starts: seq<Option<string>>, xs: seq<Extent>, i: nat)
    requires ExtentsOk(xs, |starts|) && i < |starts|
    ensures starts[i].None? ==> DeepNestingFrom(starts, xs, i) == DeepNestingFrom(starts, xs, i + 1)
    ensures starts[i].Some? ==>
      DeepNestingFrom(starts, xs, i) == (if xs[i].measure > 3 then [DeepNestingIssue(i + 1, starts[i].value)] else []) + DeepNestingFrom(starts, xs, xs[i].end)
  {
  }

  /** `r` holds deep-nesting Warnings in increasing line order within `lo..|starts|`, each at a deep method start. */
  predicate NestingShaped(starts: seq<Option<string>>, xs: seq<Extent>, lo: int, r: seq<Issue>)
    requires ExtentsOk(xs, |starts|)
  {
    && 1 <= lo && LinesAscending(r) && LinesWithin(r, lo, |starts|)
    && forall e :: e in r ==>
      (e.kind == "Smell.DeepNesting" && e.severity == Warning
       && starts[e.lineNumber.value - 1].Some? && xs[e.lineNumber.value - 1].measure > 3)
  }

  /**
    What the deep-nesting scan reports: warnings in strictly increasing line
    order, each at a method-start line whose method nests deeper than 3.
  */
  lemma {:induction false} DeepNestingShape(starts: seq<Option<string>>, xs: seq<Extent>, i: nat)
    requires ExtentsOk(xs, |starts|) && i <= |starts|
    ensures NestingShaped(starts, xs, i + 1, DeepNestingFrom(starts, xs, i))
    decreases |starts| - i
  {
    if i < |starts| {
      DeepNestingStep(starts, xs, i);
      if starts[i].None? {
        DeepNestingShape(starts, xs, i + 1);
      } else {
        DeepNestingShape(starts, xs, xs[i].end);
        DeepNestingShapeAt(starts, xs, i, DeepNestingFrom(starts, xs, xs[i].end));
      }
    }
  }

  /** `DeepNestingShape` at a method start, given it for the scan that resumes after the method. */
  lemma DeepNestingShapeAt(starts: seq<Option<string>>, xs: seq<Extent>, i: nat, rest: seq<Issue>)
    requires ExtentsOk(xs, |starts|) && i < |starts| && starts[i].Some?
    requires NestingShaped(starts, xs, xs[i].end + 1, rest)
    ensures NestingShaped(starts, xs, i + 1,
      (if xs[i].measure > 3 then [DeepNestingIssue(i + 1, starts[i].value)] else []) + rest)
  {
    if xs[i].measure > 3 {
      NestingShapedPrepend(starts, xs, i, DeepNestingIssue(i + 1, starts[i].value), rest);
    } else {
      assert [] + rest == rest;
    }
  }

  /** A deep method start's warning goes in front of the warnings after the method. */
  lemma NestingShapedPrepend(starts: seq<Option<string>>, xs: seq<Extent>, i: nat, x: Issue, rest: seq<Issue>)
    requires ExtentsOk(xs, |starts|) && i < |starts| && starts[i].Some? && xs[i].measure > 3
    requires x == DeepNestingIssue(i + 1, starts[i].value)
    requires NestingShaped(starts, xs, xs[i].end + 1, rest)
    ensures NestingShaped(starts, xs, i + 1, [x] + rest)
  {
    PrependAscending(x, rest, i + 1, |starts|);
    assert x.kind == "Smell.DeepNesting" && x.severity == Warning && x.lineNumber == Some(i + 1);
  }

  /** The scan from line `i` examines line `j`: no method measured before `j` spans it. */
  ghost predicate Visits(starts: seq<Option<string>>, xs: seq<Extent>, i: nat, j: nat)
    requires ExtentsOk(xs, |starts|) && i <= |starts|
    decreases |starts| - i
  {
    i == j || (i < j && i < |starts| &&
      if starts[i].None? then Visits(starts, xs, i + 1, j) else Visits(starts, xs, xs[i].end, j))
  }

  /**
    Every method start the scan examines is reported exactly when its method
    nests deeper than 3.
  */
  lemma {:induction false} DeepNestingExact(starts: seq<Option<string>>, xs: seq<Extent>, i: nat, j: nat)
    requires ExtentsOk(xs, |starts|) && i <= j < |starts|
    requires Visits(starts, xs, i, j) && starts[j].Some?
    ensures DeepNestingIssue(j + 1, starts[j].value) in DeepNestingFrom(starts, xs, i) <==> xs[j].measure > 3
    decreases |starts| - i
  {
    var r := DeepNestingFrom(starts, xs, i);
    DeepNestingShape(starts, xs, i);
    if i < j {
      var next := if starts[i].None? then i + 1 else xs[i].end;
      DeepNestingExact(starts, xs, next, j);
      var found := if starts[i].Some? && xs[i].measure > 3 then [DeepNestingIssue(i + 1, starts[i].value)] else [];
      assert r == found + DeepNestingFrom(starts, xs, next);
    }
  }
  /** The source's inner C# loop: walk lines from `i` until the body closes. */
  method MeasureBraces(lines: seq<string>, i: nat) returns (x: Extent)
    requires i < |lines|
    ensures x == NestExtent(lines, i, NestStart)
  {
    var st := NestStart;
    var j := i;
    var closed := false;
    while j < |lines| && !closed
      invariant i <= j <= |lines|
      invariant !closed ==> NestExtent(lines, j, st) == NestExtent(lines, i, NestStart)
      invariant closed ==> Extent(j, st.maxDepth) == NestExtent(lines, i, NestStart)
      decreases |lines| - j, if closed then 0 else 1
    {
      st := WalkBraces(lines[j], st);
      closed := st.inBody && st.depth <= 0;
      j := j + 1;
    }
    x := Extent(j, st.maxDepth);
  }

  // ------------------------------------------------------------ deep nesting: VB.NET

  /**
    The source's If loop: every "If" found by IndexOf (ignoring case) counts,
    unless the line's first "End If" starts at that very index.
  */
  function VbIfTokens(line: string, idx: nat): nat
    decreases |line| - idx
  {
    var p := IndexOfIgnoreCase(line, "If", idx);
    if p < 0 then 0
    else if IndexOfIgnoreCase(line, "End If", 0) == p then VbIfTokens(line, p + 2)
    else 1 + VbIfTokens(line, p + 2)
  }

  /** The "End If" skip never fires: an "If" match starts with 'i', an "End If" match with 'e'. */
  lemma EndIfSkipNeverFires(line: string, p: nat)
    requires MatchesAt(line, p, "If")
    ensures IndexOfIgnoreCase(line, "End If", 0) != p
  {
    assert Lower(line[p]) == ToLower(line[p..p + 2])[0] == 'i';
    assert p + 6 <= |line| ==> ToLower(line[p..p + 6])[0] == Lower(line[p]);
  }

  /** So the VB If count is exactly `CountToken(line, "If")`. */
  lemma {:induction false} VbIfTokensCount(line: string, idx: nat)
    ensures VbIfTokens(line, idx) == CountTokenFrom(line, "If", idx)
    decreases |line| - idx
  {
    var p := IndexOfIgnoreCase(line, "If", idx);
    if p >= 0 {
      EndIfSkipNeverFires(line, p);
      VbIfTokensCount(line, p + 2);
      assert |"If"| == 2;
      assert VbIfTokens(line, idx) == 1 + VbIfTokens(line, p + 2);
    }
  }

  /** If depth, floored at zero by its type, and the deepest If depth reached. */
  datatype VbNest = VbNest(depth: nat, maxDepth: nat)

  /** `\bEnd\s+(Sub|Function)\b`. */
  const VBMethodEnd := Phrase(AtBoundary, [["End", "Sub"], ["End", "Function"]])

  /** One line of the VB inner scan: each counted If deepens, then an "End If" pops one level, never below zero. */
  function VbLineStep(st: VbNest, line: string): (r: VbNest)
    ensures r.maxDepth >= st.maxDepth
  {
    var n := VbIfTokens(line, 0);
    var d := st.depth + n;
    var mx := if n > 0 && d > st.maxDepth then d else st.maxDepth;
    VbNest(if ContainsIgnoreCase(line, "End If") then (if d >= 1 then d - 1 else 0) else d, mx)
  }

  /** The inner VB scan from line `j`, stopping after the line that ends the Sub or Function. */
  function VbExtent(lines: seq<string>, j: nat, st: VbNest): (r: Extent)
    requires j <= |lines|
    ensures j <= r.end <= |lines| && (j < |lines| ==> j < r.end)
    ensures r.measure >= st.maxDepth
    decreases |lines| - j
  {
    if j == |lines| then Extent(j, st.maxDepth)
    else
      var next := VbLineStep(st, lines[j]);
      if IsMatch(VBMethodEnd, lines[j]) then Extent(j + 1, next.maxDepth) else VbExtent(lines, j + 1, next)
  }

  /** One step of the inner VB scan. */
  lemma VbExtentStep(lines: seq<string>, j: nat, st: VbNest)
    requires j < |lines|
    ensures var next := VbLineStep(st, lines[j]);
      VbExtent(lines, j, st) == if IsMatch(VBMethodEnd, lines[j]) then Extent(j + 1, next.maxDepth) else VbExtent(lines, j + 1, next)
  {
  }

  /** The source's inner VB loop: step lines from `i` until one ends the Sub or Function. */
  method MeasureIfs(lines: seq<string>, i: nat) returns (x: Extent)
    requires i < |lines|
    ensures x == VbExtent(lines, i, VbNest(0, 0))
  {
    var st := VbNest(0, 0);
    var j := i;
    while j < |lines|
      invariant i <= j <= |lines|
      invariant VbExtent(lines, j, st) == VbExtent(lines, i, VbNest(0, 0))
      decreases |lines| - j
    {
      VbExtentStep(lines, j, st);
      var next := VbLineStep(st, lines[j]);
      if IsMatch(VBMethodEnd, lines[j]) {
        return Extent(j + 1, next.maxDepth);
      }
      st := next;
      j := j + 1;
    }
    x := Extent(j, st.maxDepth);
  }

  /** The dialect's inner loop. */
  method Measure(dialect: Dialect, lines: seq<string>, i: nat) returns (x: Extent)
    requires i < |lines|
    ensures x == MethodExtent(dialect, lines, i)
  {
    if dialect == BraceDialect {
      x := MeasureBraces(lines, i);
    } else {
      x := MeasureIfs(lines, i);
    }
  }

  /**
    `DetectDeepNestingCSharp` and `DetectDeepNestingVB`: the source's outer
    loop, which jumps past each measured method; `start` is the dialect's
    method-start pattern.  It computes the reference scan.
  */
  method DetectDeepNesting(dialect: Dialect, start: Pattern, lines: seq<string>) returns (issues: seq<Issue>)
    requires ValidPattern(start)
    ensures issues == DeepNestingFrom(Starts(start, lines), Extents(dialect, lines), 0)
  {
    var starts := Starts(start, lines);
    ghost var xs := Extents(dialect, lines);
    ghost var total := DeepNestingFrom(starts, xs, 0);
    issues := [];
    var i := 0;
    while i < |lines|
      invariant 0 <= i <= |lines|
      invariant issues + DeepNestingFrom(starts, xs, i) == total
      decreases |lines| - i
    {
      DeepNestingStep(starts, xs, i);
      var name := starts[i];
      if name.None? {
        i := i + 1;
      } else {
        var x := Measure(dialect, lines, i);
        assert x == xs[i];
        var found := if x.measure > 3 then [DeepNestingIssue(i + 1, name.value)] else [];
        ConcatAssoc(issues, found, DeepNestingFrom(starts, xs, x.end));
        issues := issues + found;
        i := x.end;
      }
    }
  }

  // ------------------------------------------------------------ large classes and procedures

  /** How a structure's end is found: by braces (C#), by `End Class` (VB), by END or GO (SQL). */
  datatype Layout = Braces | EndClass | EndProcedure

  const EndClassLine := Phrase(AtBoundary, [["End", "Class"]])
  const EndLine := Phrase(AtBoundary, [["END"]])
  const GoLine := Phrase(AtStartSpaces, [["GO"]])

  /** The structure-start pattern of each layout. */
  function StructureStart(layout: Layout): (p: Pattern)
    ensures ValidPattern(p) && NamesIdentifier(p)
  {
    match layout
    case Braces => ClassStart
    case EndClass => ClassStart
    case EndProcedure => SqlCreate
  }

  /**
    What the inner scan needs of one line: its net brace count and whether
    it has a '{' (C#), whether it starts a method (C# and VB), whether it
    ends the structure after itself (`End Class`, END) and whether it stops
    the scan before itself (GO).
  */
  datatype Mark = Mark(net: int, opens: bool, startsMethod: bool, stop: bool, halt: bool)

  function MarkOf(layout: Layout, line: string): Mark
  {
    match layout
    case Braces =>
      Mark(CountChar(line, '{') - CountChar(line, '}'), CountChar(line, '{') > 0, IsMatch(CSharpMethod, line), false, false)
    case EndClass => Mark(0, false, IsMatch(VBMethod, line), IsMatch(EndClassLine, line), false)
    case EndProcedure => Mark(0, false, false, IsMatch(EndLine, line), IsMatch(GoLine, line))
  }

  function Marks(layout: Layout, lines: seq<string>): (ms: seq<Mark>)
    ensures |ms| == |lines|
  {
    seq(|lines|, k requires 0 <= k < |lines| => MarkOf(layout, lines[k]))
  }

  /** Where a structure's scan stopped (the index one past its last line) and the methods it counted. */
  datatype Size = Size(end: nat, methods: nat)

  /** Brace depth, whether a '{' has been seen, and the methods counted so far. */
  datatype Walk = Walk(depth: int, started: bool, methods: nat)

  const WalkStart := Walk(0, false, 0)

  /** The inner scan from line `j` on. */
  function SizeFrom(layout: Layout, ms: seq<Mark>, j: nat, w: Walk): (r: Size)
    requires j <= |ms|
    ensures j <= r.end <= |ms|
    ensures layout == EndProcedure ==> r.methods == w.methods
    decreases |ms| - j
  {
    if j == |ms| then Size(j, w.methods)
    else
      var m := ms[j];
      match layout
      case Braces =>
        var next := Walk(w.depth + m.net, w.started || m.opens, w.methods + (if m.startsMethod then 1 else 0));
        if next.started && next.depth <= 0 then Size(j + 1, next.methods) else SizeFrom(layout, ms, j + 1, next)
      case EndClass =>
        var next := Walk(w.depth, w.started, w.methods + (if m.startsMethod then 1 else 0));
        if m.stop then Size(j + 1, next.methods) else SizeFrom(layout, ms, j + 1, next)
      case EndProcedure =>
        if m.stop then Size(j + 1, w.methods)
        else if m.halt then Size(j, w.methods)
        else SizeFrom(layout, ms, j + 1, w)
  }

  /** Sizes `zs` for `n` lines: each one stops at or after its own start line. */
  predicate SizesOk(zs: seq<Size>, n: nat)
  {
    |zs| == n && forall k :: 0 <= k < n ==> k <= zs[k].end <= n
  }

  /** The size of a structure starting at each line, from the lines' marks. */
  function Sizes(layout: Layout, ms: seq<Mark>): (zs: seq<Size>)
    ensures SizesOk(zs, |ms|)
  {
    seq(|ms|, k requires 0 <= k < |ms| => SizeFrom(layout, ms, k, WalkStart))
  }

  /** A structure is large when it spans more than 300 lines or, for a class, has more than 10 methods. */
  predicate Large(layout: Layout, start: nat, z: Size)
  {
    z.end - start > 300 || (layout != EndProcedure && z.methods > 10)
  }

  /** An issue's fixed text: its kind, the message around the name, and the suggestion. */
  datatype Wording = Wording(kind: string, open: string, close: string, advice: string)

  const ClassWording := Wording("Smell.LargeClass", "Class '", "' is too large.",
    "Split into smaller classes or reduce responsibilities.")
  const ProcedureWording := Wording("Smell.LargeProcedure", "Procedure/Function '", "' is too long.",
    "Break into smaller procedures or review logic size.")

  function LargeWording(layout: Layout): Wording
  {
    if layout == EndProcedure then ProcedureWording else ClassWording
  }

  function LargeKind(layout: Layout): string
  {
    LargeWording(layout).kind
  }

  function LargeIssue(layout: Layout, n: int, name: string): Issue
  {
    var w := LargeWording(layout);
    Issue(w.kind, Some(n), w.open + name + w.close, w.advice, Info)
  }

  /**
    Reference for the large-structure scans from line `i`.  After a
    structure the source sets the index to the scan's stopping point and the
    enclosing loop then increments it, so the scan resumes one line past
    `end`.
  */
  function LargeFrom(layout: Layout, starts: seq<Option<string>>, zs: seq<Size>, i: nat): seq<Issue>
    requires SizesOk(zs, |starts|) && i <= |starts| + 1
    decreases |starts| + 1 - i
  {
    if i >= |starts| then []
    else match starts[i] {
      case None => LargeFrom(layout, starts, zs, i + 1)
      case Some(name) =>
        (if Large(layout, i, zs[i]) then [LargeIssue(layout, i + 1, name)] else []) + LargeFrom(layout, starts, zs, zs[i].end + 1)
    }
  }

  /** What the large-structure scan reports: Info issues of the layout's kind, at large structures' starts, in line order. */
  lemma {:induction false} LargeShape(layout: Layout, starts: seq<Option<string>>, zs: seq<Size>, i: nat)
    requires SizesOk(zs, |starts|) && i <= |starts| + 1
    ensures var r := LargeFrom(layout, starts, zs, i);
      && LinesAscending(r) && LinesWithin(r, i + 1, |starts|)
      && forall e :: e in r ==>
        (e.kind == LargeKind(layout) && e.severity == Info
         && starts[e.lineNumber.value - 1].Some? && Large(layout, e.lineNumber.value - 1, zs[e.lineNumber.value - 1]))
    decreases |starts| + 1 - i
  {
    if i < |starts| {
      match starts[i] {
        case None =>
          LargeShape(layout, starts, zs, i + 1);
        case Some(name) =>
          LargeShape(layout, starts, zs, zs[i].end + 1);
          var rest := LargeFrom(layout, starts, zs, zs[i].end + 1);
          if Large(layout, i, zs[i]) {
            var issue := LargeIssue(layout, i + 1, name);
            assert issue.kind == LargeKind(layout) && issue.severity == Info;
            assert LargeFrom(layout, starts, zs, i) == [issue] + rest;
            PrependAscending(issue, rest, i + 1, |starts|);
          } else {
            assert LargeFrom(layout, starts, zs, i) == rest;
          }
      }
    }
  }

  /** The next line the large-structure scan examines after line `i`. */
  function LargeNext(starts: seq<Option<string>>, zs: seq<Size>, i: nat): nat
    requires SizesOk(zs, |starts|) && i < |starts|
  {
    if starts[i].None? then i + 1 else zs[i].end + 1
  }

  /** The scan from line `i` examines line `j`. */
  ghost predicate LargeVisits(starts: seq<Option<string>>, zs: seq<Size>, i: nat, j: nat)
    requires SizesOk(zs, |starts|)
    decreases |starts| + 1 - i
  {
    i == j || (i < j && i < |starts| && LargeVisits(starts, zs, LargeNext(starts, zs, i), j))
  }

  /** Every structure start the scan examines is reported exactly when the structure is large. */
  lemma {:induction false} LargeExact(layout: Layout, starts: seq<Option<string>>, zs: seq<Size>, i: nat, j: nat)
    requires SizesOk(zs, |starts|) && i <= j < |starts|
    requires LargeVisits(starts, zs, i, j) && starts[j].Some?
    ensures LargeIssue(layout, j + 1, starts[j].value) in LargeFrom(layout, starts, zs, i) <==> Large(layout, j, zs[j])
    decreases |starts| + 1 - i
  {
    var r := LargeFrom(layout, starts, zs, i);
    LargeShape(layout, starts, zs, i);
    if i < j {
      var next := LargeNext(starts, zs, i);
      LargeExact(layout, starts, zs, next, j);
      var found := if starts[i].Some? && Large(layout, i, zs[i]) then [LargeIssue(layout, i + 1, starts[i].value)] else [];
      assert r == found + LargeFrom(layout, starts, zs, next);
    }
  }

  /** The lines the scan examines form one chain: from any examined line, every later examined line is reached. */
  lemma {:induction false} LargeVisitsChain(starts: seq<Option<string>>, zs: seq<Size>, i: nat, a: nat, b: nat)
    requires SizesOk(zs, |starts|)
    requires LargeVisits(starts, zs, i, a) && LargeVisits(starts, zs, i, b) && a <= b
    ensures LargeVisits(starts, zs, a, b)
    decreases |starts| + 1 - i
  {
    if i != a {
      LargeVisitsChain(starts, zs, LargeNext(starts, zs, i), a, b);
    }
  }

  /**
    The line just after a structure's last line is never examined, so a
    structure that starts there is not reported: the source's loop
    increments the index past the line its inner scan stopped at.
  */
  lemma LargeSkipsLineAfterEnd(starts: seq<Option<string>>, zs: seq<Size>, i: nat, j: nat)
    requires SizesOk(zs, |starts|) && j < |starts| && starts[j].Some? && j < zs[j].end
    requires LargeVisits(starts, zs, i, j)
    ensures !LargeVisits(starts, zs, i, zs[j].end)
  {
    if LargeVisits(starts, zs, i, zs[j].end) {
      LargeVisitsChain(starts, zs, i, j, zs[j].end);
    }
  }

  /** One step of the reference scan at a structure start. */
  lemma LargeStep(layout: Layout, starts: seq<Option<string>>, zs: seq<Size>, i: nat)
    requires SizesOk(zs, |starts|) && i < |starts|
    ensures starts[i].None? ==> LargeFrom(layout, starts, zs, i) == LargeFrom(layout, starts, zs, i + 1)
    ensures starts[i].Some? ==>
      LargeFrom(layout, starts, zs, i) ==
      (if Large(layout, i, zs[i]) then [LargeIssue(layout, i + 1, starts[i].value)] else []) + LargeFrom(layout, starts, zs, zs[i].end + 1)
  {
  }

  /** The source's inner loop for one structure starting at line `i`, over the lines' marks. */
  method MeasureStructure(layout: Layout, ms: seq<Mark>, i: nat) returns (z: Size)
    requires i < |ms|
    ensures z == SizeFrom(layout, ms, i, WalkStart)
  {
    var w := WalkStart;
    var j := i;
    var done := false;
    z := Size(|ms|, 0);
    while j < |ms| && !done
      invariant i <= j <= |ms|
      invariant !done ==> SizeFrom(layout, ms, j, w) == SizeFrom(layout, ms, i, WalkStart)
      invariant done ==> z == SizeFrom(layout, ms, i, WalkStart)
      decreases |ms| - j, if done then 0 else 1
    {
      var m := ms[j];
      match layout {
        case Braces =>
          w := Walk(w.depth + m.net, w.started || m.opens, w.methods + (if m.startsMethod then 1 else 0));
          if w.started && w.depth <= 0 {
            z, done := Size(j + 1, w.methods), true;
          }
        case EndClass =>
          w := Walk(w.depth, w.started, w.methods + (if m.startsMethod then 1 else 0));
          if m.stop {
            z, done := Size(j + 1, w.methods), true;
          }
        case EndProcedure =>
          if m.stop {
            z, done := Size(j + 1, w.methods), true;
          } else if m.halt {
            z, done := Size(j, w.methods), true;
          }
      }
      if !done {
        j := j + 1;
      }
    }
    if !done {
      z := Size(j, w.methods);
    }
  }

  /** The outer loop's step at a structure start: report it when large and resume past its end. */
  lemma LargeAdvance(layout: Layout, starts: seq<Option<string>>, zs: seq<Size>, i: nat,
                     issues: seq<Issue>, found: seq<Issue>, total: seq<Issue>)
    requires SizesOk(zs, |starts|) && i < |starts| && starts[i].Some?
    requires found == if Large(layout, i, zs[i]) then [LargeIssue(layout, i + 1, starts[i].value)] else []
    requires issues + LargeFrom(layout, starts, zs, i) == total
    ensures i <= zs[i].end <= |starts|
    ensures (issues + found) + LargeFrom(layout, starts, zs, zs[i].end + 1) == total
  {
    LargeStep(layout, starts, zs, i);
    ConcatAssoc(issues, found, LargeFrom(layout, starts, zs, zs[i].end + 1));
  }

  /**
    The source's outer loop over structure starts `starts` and per-line
    marks `ms`: measure each structure, report it when large, and resume one
    line past where the measuring stopped.
  */
  method ScanStructures(layout: Layout, starts: seq<Option<string>>, ms: seq<Mark>) returns (issues: seq<Issue>)
    requires |starts| == |ms|
    ensures issues == LargeFrom(layout, starts, Sizes(layout, ms), 0)
  {
    ghost var zs := Sizes(layout, ms);
    ghost var total := LargeFrom(layout, starts, zs, 0);
    issues := [];
    var i := 0;
    while i < |ms|
      invariant 0 <= i <= |ms| + 1
      invariant issues + LargeFrom(layout, starts, zs, i) == total
      decreases |ms| + 1 - i
    {
      var name := starts[i];
      if name.None? {
        LargeStep(layout, starts, zs, i);
        i := i + 1;
      } else {
        var z := MeasureStructure(layout, ms, i);
        var found := if Large(layout, i, z) then [LargeIssue(layout, i + 1, name.value)] else [];
        LargeAdvance(layout, starts, zs, i, issues, found, total);
        issues := issues + found;
        i := z.end + 1;
      }
    }
  }

  /** `DetectLargeStructures` for one language. */
  method DetectLargeStructures(layout: Layout, lines: seq<string>) returns (issues: seq<Issue>)
    ensures issues == LargeFrom(layout, Starts(StructureStart(layout), lines), Sizes(layout, Marks(layout, lines)), 0)
  {
    var starts := Starts(StructureStart(layout), lines);
    var ms := Marks(layout, lines);
    issues := ScanStructures(layout, starts, ms);
  }

  // ------------------------------------------------------------ the detector

  /** Every line in `LinesOf` is the line of some occurrence, so it lies within their bounds. */
  lemma {:induction false} LinesOfWithin(occ: seq<Occurrence>, key: string, lo: int, hi: int)
    requires forall o :: o in occ ==> lo <= o.line <= hi
    ensures forall x :: x in LinesOf(occ, key) ==> lo <= x <= hi
    decreases |occ|
  {
    if |occ| > 0 {
      var init := occ[..|occ| - 1];
      assert forall o :: o in init ==> o in occ;
      LinesOfWithin(init, key, lo, hi);
      assert occ[|occ| - 1] in occ;
    }
  }

  /** Repeated-literal issues are Info issues at the first line of their literal. */
  lemma RepeatedShape(lines: seq<string>)
    ensures forall e :: e in RepeatedLiterals(lines) ==>
      (e.kind == "Smell.RepeatedLiteral" && e.severity == Info
       && e.lineNumber.Some? && 1 <= e.lineNumber.value <= |lines|)
  {
    var occ := Occurrences(lines, 0);
    CollectGroups(occ);
    var d := Collect(occ);
    forall e | e in RepeatedLiterals(lines)
      ensures e.kind == "Smell.RepeatedLiteral" && e.severity == Info
      ensures e.lineNumber.Some? && 1 <= e.lineNumber.value <= |lines|
    {
      var k :| k in d.order && |d.entries[k].lines| >= 3 && e == RepeatedIssue(d.entries[k]);
      LinesOfWithin(occ, k, 1, |lines|);
      assert d.entries[k].lines == LinesOf(occ, k);
      assert d.entries[k].lines[0] in LinesOf(occ, k);
    }
  }

  /** The deep-nesting check of a trimmed language name; other languages have none. */
  function DeepNesting(language: string, lines: seq<string>): (r: seq<Issue>)
    ensures forall e :: e in r ==>
      (e.kind == "Smell.DeepNesting" && e.severity == Warning
       && e.lineNumber.Some? && 1 <= e.lineNumber.value <= |lines|)
    ensures !(EqualsIgnoreCase(language, "CSharp") || EqualsIgnoreCase(language, "VBNet") || EqualsIgnoreCase(language, "SQL")) ==> r == []
  {
    if EqualsIgnoreCase(language, "CSharp") then
      var starts := Starts(CSharpMethod, lines);
      var xs := Extents(BraceDialect, lines);
      DeepNestingShape(starts, xs, 0);
      DeepNestingFrom(starts, xs, 0)
    else if EqualsIgnoreCase(language, "VBNet") then
      var starts := Starts(VBMethod, lines);
      var xs := Extents(VBDialect, lines);
      DeepNestingShape(starts, xs, 0);
      DeepNestingFrom(starts, xs, 0)
    else if EqualsIgnoreCase(language, "SQL") then DeepNestingSql(lines)
    else []
  }

  /** The large-structure check of a trimmed language name; other languages have none. */
  function LargeStructures(language: string, lines: seq<string>): (r: seq<Issue>)
    ensures forall e :: e in r ==>
      ((e.kind == "Smell.LargeClass" || e.kind == "Smell.LargeProcedure") && e.severity == Info
       && e.lineNumber.Some? && 1 <= e.lineNumber.value <= |lines|)
    ensures !(EqualsIgnoreCase(language, "CSharp") || EqualsIgnoreCase(language, "VBNet") || EqualsIgnoreCase(language, "SQL")) ==> r == []
  {
    var layout :=
      if EqualsIgnoreCase(language, "CSharp") then Some(Braces)
      else if EqualsIgnoreCase(language, "VBNet") then Some(EndClass)
      else if EqualsIgnoreCase(language, "SQL") then Some(EndProcedure)
      else None;
    match layout
    case None => []
    case Some(l) =>
      var starts := Starts(StructureStart(l), lines);
      var zs := Sizes(l, Marks(l, lines));
      LargeShape(l, starts, zs, 0);
      LargeFrom(l, starts, zs, 0)
  }

  /** Where each kind of smell comes in the detector's output. */
  function SmellRank(kind: string): nat
  {
    if kind == "Smell.DeepNesting" then 0
    else if kind == "Smell.LongParameterList" then 1
    else if kind == "Smell.LargeClass" || kind == "Smell.LargeProcedure" then 2
    else 3
  }

  /** The smell kinds the detector reports. */
  predicate IsSmellKind(kind: string)
  {
    kind in {"Smell.DeepNesting", "Smell.LongParameterList", "Smell.LargeClass", "Smell.LargeProcedure", "Smell.RepeatedLiteral"}
  }

  /**
    `Analyze`: nothing for blank code; otherwise deep nesting, long
    parameter lists and large structures for the trimmed language name,
    then repeated literals whatever the language.
  */
  function Analyze(code: string, language: string): (r: seq<Issue>)
    ensures IsBlank(code) ==> r == []
    ensures forall e :: e in r ==>
      (IsSmellKind(e.kind) && e.lineNumber.Some? && 1 <= e.lineNumber.value <= |SplitLines(code)|)
  {
    if IsBlank(code) then []
    else
      var lang := Trim(language);
      var lines := SplitLines(code);
      RepeatedShape(lines);
      DeepNesting(lang, lines) + LongParameterLists(code, lang) + LargeStructures(lang, lines) + RepeatedLiterals(lines)
  }

  /** The rank of each kind the checks report. */
  lemma RankOfKinds()
    ensures SmellRank("Smell.DeepNesting") == 0 && SmellRank("Smell.LongParameterList") == 1
    ensures SmellRank("Smell.LargeClass") == 2 && SmellRank("Smell.LargeProcedure") == 2
    ensures SmellRank("Smell.RepeatedLiteral") == 3
  {
  }

  /** Issues in non-decreasing smell rank. */
  predicate RankOrdered(r: seq<Issue>)
  {
    forall a, b :: 0 <= a < b < |r| ==> SmellRank(r[a].kind) <= SmellRank(r[b].kind)
  }

  /** Two rank-ordered runs, the first ranked no higher than the second, make a rank-ordered run. */
  lemma RankOrderedConcat(x: seq<Issue>, y: seq<Issue>)
    requires RankOrdered(x) && RankOrdered(y)
    requires forall e, f :: e in x && f in y ==> SmellRank(e.kind) <= SmellRank(f.kind)
    ensures RankOrdered(x + y)
  {
    forall a, b | 0 <= a < b < |x + y| ensures SmellRank((x + y)[a].kind) <= SmellRank((x + y)[b].kind) {
      if b < |x| {
        assert (x + y)[a] == x[a] && (x + y)[b] == x[b];
      } else if a < |x| {
        assert (x + y)[a] == x[a] && (x + y)[b] == y[b - |x|];
        assert x[a] in x && y[b - |x|] in y;
      } else {
        assert (x + y)[a] == y[a - |x|] && (x + y)[b] == y[b - |x|];
      }
    }
  }

  /** A run of issues all of one rank is rank-ordered. */
  lemma OneRank(x: seq<Issue>, k: nat)
    requires forall e :: e in x ==> SmellRank(e.kind) == k
    ensures RankOrdered(x)
  {
    forall a, b | 0 <= a < b < |x| ensures SmellRank(x[a].kind) <= SmellRank(x[b].kind) {
      assert x[a] in x && x[b] in x;
    }
  }

  /** Four runs of ranks 0, 1, 2 and 3, in that order, make a rank-ordered run. */
  lemma FourRanks(d: seq<Issue>, p: seq<Issue>, g: seq<Issue>, q: seq<Issue>)
    requires forall e :: e in d ==> SmellRank(e.kind) == 0
    requires forall e :: e in p ==> SmellRank(e.kind) == 1
    requires forall e :: e in g ==> SmellRank(e.kind) == 2
    requires forall e :: e in q ==> SmellRank(e.kind) == 3
    ensures RankOrdered(d + p + g + q)
  {
    OneRank(d, 0);
    OneRank(p, 1);
    OneRank(g, 2);
    OneRank(q, 3);
    RankOrderedConcat(d, p);
    assert forall e: Issue :: e in d + p ==> SmellRank(e.kind) <= 1;
    RankOrderedConcat(d + p, g);
    assert forall e: Issue :: e in d + p + g ==> SmellRank(e.kind) <= 2;
    RankOrderedConcat(d + p + g, q);
  }

  /** Each check reports issues of its own rank. */
  lemma NestingRanked(language: string, lines: seq<string>)
    ensures forall e :: e in DeepNesting(language, lines) ==> SmellRank(e.kind) == 0
  {
    RankOfKinds();
  }

  lemma ParamsRanked(code: string, language: string)
    ensures forall e :: e in LongParameterLists(code, language) ==> SmellRank(e.kind) == 1
  {
    RankOfKinds();
  }

  lemma LargeRanked(language: string, lines: seq<string>)
    ensures forall e :: e in LargeStructures(language, lines) ==> SmellRank(e.kind) == 2
  {
    RankOfKinds();
  }

  lemma LiteralsRanked(lines: seq<string>)
    ensures forall e :: e in RepeatedLiterals(lines) ==> SmellRank(e.kind) == 3
  {
    RankOfKinds();
    RepeatedShape(lines);
  }

  /** The detector's issues come grouped by check, in the order the checks run. */
  lemma AnalyzeOrdered(code: string, language: string)
    ensures RankOrdered(Analyze(code, language))
  {
    if !IsBlank(code) {
      var lang := Trim(language);
      var lines := SplitLines(code);
      RepeatedShape(lines);
      var d := DeepNesting(lang, lines);
      var p := LongParameterLists(code, lang);
      var g := LargeStructures(lang, lines);
      var q := RepeatedLiterals(lines);
      assert Analyze(code, language) == d + p + g + q;
      NestingRanked(lang, lines);
      ParamsRanked(code, lang);
      LargeRanked(lang, lines);
      LiteralsRanked(lines);
      FourRanks(d, p, g, q);
    }
  }

  /** A language name other than C#, VB.NET and SQL leaves only the repeated-literal check. */
  lemma OtherLanguageOnlyLiterals(code: string, language: string)
    requires !IsBlank(code)
    requires !(EqualsIgnoreCase(Trim(language), "CSharp") || EqualsIgnoreCase(Trim(language), "VBNet") || EqualsIgnoreCase(Trim(language), "SQL"))
    ensures Analyze(code, language) == RepeatedLiterals(SplitLines(code))
  {
    var lines := SplitLines(code);
    assert LongParameterLists(code, Trim(language)) == [];
    assert [] + [] + [] + RepeatedLiterals(lines) == RepeatedLiterals(lines);
  }
}

=== FILE: language_detector.dfy ===
/**
  Naive language detection: case-insensitive substring markers checked in a
  fixed priority order (C#, then VB.NET, then SQL); the first tier with a
  marker present wins.
*/
module LanguageDetector {
  import opened Text
  import opened Model

  const CSharpMarkers: seq<string> := ["using ", "namespace", "public class", "void"]
  const VBMarkers: seq<string> := ["Imports ", "Module", "Sub", "End Sub"]
  const SqlMarkers: seq<string> := ["SELECT ", "INSERT ", "UPDATE ", "CREATE TABLE"]

  /** Some marker of the list occurs in `code`, ignoring case. */
  predicate HasAny(code: string, markers: seq<string>)
  {
    exists i :: 0 <= i < |markers| && ContainsIgnoreCase(code, markers[i])
  }

  /** `LanguageDetector.Detect`. */
  function Detect(code: string): (r: DetectedLanguage)
    ensures IsBlank(code) ==> r == Unknown
  {
    if IsBlank(code) then Unknown
    else if HasAny(code, CSharpMarkers) then CSharp
    else if HasAny(code, VBMarkers) then VBNet
    else if HasAny(code, SqlMarkers) then Sql
    else Unknown
  }

  /** `LanguageDetector.ToName`: the display name of a language. */
  function ToName(lang: DetectedLanguage): (name: string)
    ensures |name| > 0
  {
    match lang
    case CSharp => "CSharp"
    case VBNet => "VBNet"
    case Sql => "SQL"
    case Unknown => "Unknown"
  }

  /** `LanguageDetector.DetectName`. */
  function DetectName(code: string): (name: string)
    ensures name in {"CSharp", "VBNet", "SQL", "Unknown"}
  {
    ToName(Detect(code))
  }

  /** Distinct languages have distinct display names. */
  lemma ToNameInjective(a: DetectedLanguage, b: DetectedLanguage)
    ensures ToName(a) == ToName(b) ==> a == b
  {
  }

  /** Every marker has a non-blank character, so a text holding one is not blank. */
  lemma MarkerNotBlank(code: string, markers: seq<string>)
    requires markers == CSharpMarkers || markers == VBMarkers || markers == SqlMarkers
    requires HasAny(code, markers)
    ensures !IsBlank(code)
  {
    var i :| 0 <= i < |markers| && ContainsIgnoreCase(code, markers[i]);
    ContainsNotBlank(code, markers[i], 1);
  }

  /** An "End Sub" occurrence always carries a "Sub" occurrence inside it. */
  lemma EndSubHasSub(s: string)
    ensures ContainsIgnoreCase(s, "End Sub") ==> ContainsIgnoreCase(s, "Sub")
  {
    if ContainsIgnoreCase(s, "End Sub") {
      ContainsSlice(s, "End Sub", 4, 7);
      assert "End Sub"[4..7] == "Sub";
    }
  }

  /**
    The detection tiers: C# whenever a C# marker occurs; otherwise VB.NET
    exactly when "Imports ", "Module" or "Sub" occurs (the "End Sub" marker
    adds nothing); otherwise SQL exactly when a SQL marker occurs; otherwise
    Unknown.
  */
  lemma DetectTiers(code: string)
    ensures HasAny(code, CSharpMarkers) ==> Detect(code) == CSharp
    ensures Detect(code) == VBNet <==>
      !HasAny(code, CSharpMarkers) &&
      (ContainsIgnoreCase(code, "Imports ") || ContainsIgnoreCase(code, "Module") || ContainsIgnoreCase(code, "Sub"))
    ensures Detect(code) == Sql <==>
      !HasAny(code, CSharpMarkers) && !HasAny(code, VBMarkers) && HasAny(code, SqlMarkers)
    ensures Detect(code) == Unknown <==>
      IsBlank(code) || (!HasAny(code, CSharpMarkers) && !HasAny(code, VBMarkers) && !HasAny(code, SqlMarkers))
  {
    EndSubHasSub(code);
    if HasAny(code, CSharpMarkers) { MarkerNotBlank(code, CSharpMarkers); }
    if HasAny(code, VBMarkers) { MarkerNotBlank(code, VBMarkers); }
    if HasAny(code, SqlMarkers) { MarkerNotBlank(code, SqlMarkers); }
    assert HasAny(code, VBMarkers) <==>
      ContainsIgnoreCase(code, VBMarkers[0]) || ContainsIgnoreCase(code, VBMarkers[1]) ||
      ContainsIgnoreCase(code, VBMarkers[2]) || ContainsIgnoreCase(code, VBMarkers[3]);
  }

  /** A snippet with both "namespace" and "SELECT " is C#: the first tier wins. */
  lemma MixedMarkersPreferCSharp(code: string)
    requires ContainsIgnoreCase(code, "namespace") && ContainsIgnoreCase(code, "SELECT ")
    ensures Detect(code) == CSharp
  {
    assert ContainsIgnoreCase(code, CSharpMarkers[1]);
    DetectTiers(code);
  }

  /** Detection ignores ASCII case: texts that agree after folding get the same language. */
  lemma DetectIgnoresCase(code: string, code': string)
    requires EqualsIgnoreCase(code, code')
    ensures Detect(code) == Detect(code')
  {
    BlankFolded(code, code');
    forall m: string ensures ContainsIgnoreCase(code, m) <==> ContainsIgnoreCase(code', m) {
      ContainsIgnoreCaseFolded(code, code', m);
    }
  }
}

=== FILE: model.dfy ===
/**
  The shared data model: the detected-language enumeration, the Issue value
  object every detector emits and the AnalysisResult that the orchestrator
  assembles.
*/
module Model {

  datatype Option<+T> = None | Some(value: T)

  /** The four detectable languages, in declaration order 0..3. */
  datatype DetectedLanguage = Unknown | CSharp | VBNet | Sql

  /** Severity of a finding; the source stores it as the strings "Info", "Warning", "Error". */
  datatype Severity = Info | Warning | Error

  /** The default severity of a freshly constructed Issue. */
  const DefaultSeverity: Severity := Info

  /**
    One finding: a dotted rule identifier, an optional 1-based line number
    (None for file-scoped findings), a message, a suggestion and a severity.
  */
  datatype Issue = Issue(
    kind: string,
    lineNumber: Option<int>,
    message: string,
    suggestion: string,
    severity: Severity)

  /** The result of one analysis: a one-sentence summary and the ordered issues. */
  datatype AnalysisResult = AnalysisResult(summary: string, issues: seq<Issue>)

  /** Every issue carries a line number between `lo` and `hi`. */
  predicate LinesWithin(issues: seq<Issue>, lo: int, hi: int)
  {
    forall e :: e in issues ==> e.lineNumber.Some? && lo <= e.lineNumber.value <= hi
  }

  /** Issues carry line numbers and those line numbers strictly increase. */
  predicate LinesAscending(issues: seq<Issue>)
  {
    && (forall e :: e in issues ==> e.lineNumber.Some?)
    && forall a, b :: 0 <= a < b < |issues| ==> issues[a].lineNumber.value < issues[b].lineNumber.value
  }

  /** No issue appears twice. */
  predicate Distinct(issues: seq<Issue>)
  {
    forall a, b :: 0 <= a < b < |issues| ==> issues[a] != issues[b]
  }

  /** An issue at line `n` put before issues on later lines keeps them ascending. */
  lemma PrependAscending(x: Issue, rest: seq<Issue>, n: int, hi: int)
    requires x.lineNumber == Some(n) && n <= hi
    requires LinesAscending(rest) && LinesWithin(rest, n + 1, hi)
    ensures LinesAscending([x] + rest) && LinesWithin([x] + rest, n, hi)
  {
  }
}

=== FILE: name_quality.dfy ===
/**
  The naming checker: every method, variable, alias and procedure name the
  per-language patterns capture goes through one fixed decision procedure
  (`EvaluateName`), which yields at most one Info issue of kind
  "Naming.NonDescriptive".
*/
module NameQualityChecker {
  import opened Text
  import opened Model
  import opened Patterns

  // ------------------------------------------------------------ the decision

  /** The eight generic names, compared ignoring case. */
  const GenericNames: seq<string> := ["abc", "tmp", "temp", "test", "func", "data", "value", "var"]

  predicate IsGeneric(name: string)
  {
    exists g :: g in GenericNames && EqualsIgnoreCase(name, g)
  }

  /** Why a name is flagged. */
  datatype Fault = StartsWithDigit | ShortFunctionName | ShortVariableName | GenericName

  /**
    Reference verdict: a leading digit ends the evaluation; otherwise a
    function shorter than 3, a variable shorter than 2 that is not exempt,
    or a generic name.
  */
  function FaultOf(name: string, isFunction: bool, exempt: bool): Option<Fault>
  {
    if |name| > 0 && IsDigit(name[0]) then Some(StartsWithDigit)
    else if isFunction && |name| < 3 then Some(ShortFunctionName)
    else if !isFunction && |name| < 2 && !exempt then Some(ShortVariableName)
    else if IsGeneric(name) then Some(GenericName)
    else None
  }

  function FaultMessage(f: Fault, name: string): string
  {
    match f
    case StartsWithDigit => "Name '" + name + "' starts with a number."
    case ShortFunctionName => "Function/method name '" + name + "' is too short."
    case ShortVariableName => "Variable name '" + name + "' is too short."
    case GenericName => "Name '" + name + "' is generic and non-descriptive."
  }

  const BaseSuggestion := "Use a meaningful verb/noun, e.g., 'CalculateLoanInterest' or 'ProcessData'."

  /**
    The suggestion: the SQL verb hint when the language is SQL and a verb
    was found, else the loan hint for C#/VB.NET code mentioning loan
    parameters, else the base sentence alone.
  */
  function Suggest(language: string, hasLoanParams: bool, sqlVerb: Option<string>): (r: string)
    ensures |BaseSuggestion| <= |r| && r[..|BaseSuggestion|] == BaseSuggestion
    ensures EqualsIgnoreCase(language, "SQL") && sqlVerb.Some? ==>
      r == BaseSuggestion + " For SQL, consider '" + sqlVerb.value + "'."
    ensures r == BaseSuggestion <==>
      !(EqualsIgnoreCase(language, "SQL") && sqlVerb.Some?)
      && !((EqualsIgnoreCase(language, "CSharp") || EqualsIgnoreCase(language, "VBNet")) && hasLoanParams)
  {
    if EqualsIgnoreCase(language, "SQL") && sqlVerb.Some? then
      BaseSuggestion + " For SQL, consider '" + sqlVerb.value + "'."
    else if (EqualsIgnoreCase(language, "CSharp") || EqualsIgnoreCase(language, "VBNet")) && hasLoanParams then
      BaseSuggestion + " Given parameters like principal/rate/term, consider 'CalculateLoanInterest'."
    else
      BaseSuggestion
  }

  function MakeIssue(line: int, message: string, suggestion: string): (r: Issue)
    ensures r.kind == "Naming.NonDescriptive" && r.severity == Info && r.lineNumber == Some(line)
  {
    Issue("Naming.NonDescriptive", Some(line), message, suggestion, Info)
  }

  /** A generic name has at least three characters. */
  lemma GenericIsLong(name: string)
    ensures IsGeneric(name) ==> |name| >= 3
  {
    if IsGeneric(name) {
      var g :| g in GenericNames && EqualsIgnoreCase(name, g);
      assert |ToLower(name)| == |ToLower(g)|;
    }
  }

  /**
    The checks in the source's order, each adding an issue: the digit test
    returns early, the other three only add.  At most one of them ever
    fires, so the result is the reference verdict as zero or one issue.
  */
  function EvaluateName(name: string, lineNumber: int, isFunction: bool, language: string,
                        hasLoanParams: bool, sqlVerb: Option<string>, exempt: bool): (r: seq<Issue>)
    ensures |r| <= 1
    ensures |r| == 1 <==> FaultOf(name, isFunction, exempt).Some?
    ensures forall e :: e in r ==>
      e == MakeIssue(lineNumber, FaultMessage(FaultOf(name, isFunction, exempt).value, name),
                     Suggest(language, hasLoanParams, sqlVerb))
  {
    var suggestion := Suggest(language, hasLoanParams, sqlVerb);
    if |name| > 0 && IsDigit(name[0]) then
      [MakeIssue(lineNumber, FaultMessage(StartsWithDigit, name), suggestion)]
    else
      GenericIsLong(name);
      (if isFunction && |name| < 3 then [MakeIssue(lineNumber, FaultMessage(ShortFunctionName, name), suggestion)] else [])
      + (if !isFunction && |name| < 2 && !exempt then [MakeIssue(lineNumber, FaultMessage(ShortVariableName, name), suggestion)] else [])
      + (if IsGeneric(name) then [MakeIssue(lineNumber, FaultMessage(GenericName, name), suggestion)] else [])
  }

  /** The generic test ignores case: names equal up to case are both generic or both not. */
  lemma GenericIgnoresCase(a: string, b: string)
    requires EqualsIgnoreCase(a, b)
    ensures IsGeneric(a) <==> IsGeneric(b)
  {
    if IsGeneric(a) {
      var g :| g in GenericNames && EqualsIgnoreCase(a, g);
      assert EqualsIgnoreCase(b, g);
    }
    if IsGeneric(b) {
      var g :| g in GenericNames && EqualsIgnoreCase(b, g);
      assert EqualsIgnoreCase(a, g);
    }
  }

  /** Every spelling of the eight generic names, in any case, is generic and gets flagged. */
  lemma GenericNamesFlagged(name: string, isFunction: bool, exempt: bool)
    requires EqualsIgnoreCase(name, "temp") || EqualsIgnoreCase(name, "data") || EqualsIgnoreCase(name, "value")
    ensures FaultOf(name, isFunction, exempt) == Some(GenericName)
  {
    assert |ToLower(name)| == |name|;
    if EqualsIgnoreCase(name, "temp") {
      assert "temp" in GenericNames;
    } else if EqualsIgnoreCase(name, "data") {
      assert "data" in GenericNames;
    } else {
      assert "value" in GenericNames;
    }
    assert !IsDigit(name[0]) by {
      assert Lower(name[0]) == ToLower(name)[0];
    }
  }

  /** A captured identifier never starts with a digit, so the early digit verdict cannot fire for it. */
  lemma IdentifierNeverDigitFault(name: string, isFunction: bool, exempt: bool)
    requires IsIdentifier(name)
    ensures FaultOf(name, isFunction, exempt) != Some(StartsWithDigit)
  {
  }

  // ------------------------------------------------------------ loop iterators

  const ForHeaderPattern := ForHeader
  const IteratorPattern := Iterator

  /**
    `FindCSharpForLoopIterators` on one line: the first `for(...)` header,
    then the first `TYPE i` or `TYPE j` declaration inside it.
  */
  function CSharpLoopIterator(line: string): (r: Option<string>)
    ensures r.Some? ==> r.value == "i" || r.value == "j"
  {
    match FirstMatch(ForHeaderPattern, line, 0)
    case None => None
    case Some(m) =>
      var header := Args(line, m);
      match FirstMatch(IteratorPattern, header, 0) {
        case None => None
        case Some(mi) => Some(Name(header, mi))
      }
  }

  /** The C# exemption set, as lower-case names (the source's set ignores case). */
  function CSharpIterators(lines: seq<string>): (r: set<string>)
    ensures forall v :: v in r ==> v == "i" || v == "j"
    ensures forall v :: v in r <==> exists k :: 0 <= k < |lines| && CSharpLoopIterator(lines[k]) == Some(v)
  {
    set k | 0 <= k < |lines| && CSharpLoopIterator(lines[k]).Some? :: CSharpLoopIterator(lines[k]).value
  }

  /** `\bFor\s+(NAME)\s*=`, the VB loop header. */
  const VBForPattern := Keyword(None, [["For"]], EqualsSign)

  /** `FindVBForLoopIterators` on one line: the first loop variable, kept only when it is i or j (any case). */
  function VBLoopIterator(line: string): (r: Option<string>)
    ensures r.Some? ==> r.value == "i" || r.value == "j"
  {
    match FirstMatch(VBForPattern, line, 0)
    case None => None
    case Some(m) =>
      var v := Name(line, m);
      if EqualsIgnoreCase(v, "i") then Some("i")
      else if EqualsIgnoreCase(v, "j") then Some("j")
      else None
  }

  function VBIterators(lines: seq<string>): (r: set<string>)
    ensures forall v :: v in r ==> v == "i" || v == "j"
    ensures forall v :: v in r <==> exists k :: 0 <= k < |lines| && VBLoopIterator(lines[k]) == Some(v)
  {
    set k | 0 <= k < |lines| && VBLoopIterator(lines[k]).Some? :: VBLoopIterator(lines[k]).value
  }

  /** The exemption test: the name is i or j (any case) and the iterator set holds it. */
  predicate Exempt(name: string, iterators: set<string>)
  {
    (EqualsIgnoreCase(name, "i") || EqualsIgnoreCase(name, "j")) && ToLower(name) in iterators
  }

  /**
    Only i and j are ever exempt, and only when some line's C# `for(...)`
    header declared that very iterator.
  */
  lemma ExemptFromCSharpLoop(name: string, lines: seq<string>)
    requires Exempt(name, CSharpIterators(lines))
    ensures |name| == 1 && (Lower(name[0]) == 'i' || Lower(name[0]) == 'j')
    ensures exists k :: 0 <= k < |lines| && CSharpLoopIterator(lines[k]) == Some(ToLower(name))
  {
    assert |ToLower(name)| == |name|;
    assert ToLower(name)[0] == Lower(name[0]);
  }

  /** The same for VB.NET: only i or j, and only when a `For x =` header used it. */
  lemma ExemptFromVBLoop(name: string, lines: seq<string>)
    requires Exempt(name, VBIterators(lines))
    ensures |name| == 1 && (Lower(name[0]) == 'i' || Lower(name[0]) == 'j')
    ensures exists k :: 0 <= k < |lines| && VBLoopIterator(lines[k]) == Some(ToLower(name))
  {
    assert |ToLower(name)| == |name|;
    assert ToLower(name)[0] == Lower(name[0]);
  }

  // ------------------------------------------------------------ scanning

  /** One name-capturing pattern, whether it names functions and whether i/j may be exempt. */
  datatype NameRule = NameRule(pattern: Pattern, isFunction: bool, exemptable: bool)

  /** What a whole scan shares: the language name, the loan flag, the SQL verb and the iterators. */
  datatype Context = Context(language: string, hasLoanParams: bool, sqlVerb: Option<string>, iterators: set<string>)

  predicate RulesOk(rules: seq<NameRule>)
  {
    forall i :: 0 <= i < |rules| ==> ValidPattern(rules[i].pattern) && NamesIdentifier(rules[i].pattern)
  }

  /** `EvaluateName` for one captured name under a rule. */
  function EvaluateWith(name: string, n: int, rule: NameRule, ctx: Context): seq<Issue>
  {
    EvaluateName(name, n, rule.isFunction, ctx.language, ctx.hasLoanParams, ctx.sqlVerb,
      rule.exemptable && Exempt(name, ctx.iterators))
  }

  /** The issues for a run of names on line `n`, in name order. */
  function EvaluateNames(names: seq<string>, n: int, rule: NameRule, ctx: Context): (r: seq<Issue>)
    ensures forall e :: e in r ==> e.kind == "Naming.NonDescriptive" && e.severity == Info && e.lineNumber == Some(n)
    ensures forall e :: e in r ==> exists name :: name in names && e in EvaluateWith(name, n, rule, ctx)
    ensures forall name, e :: name in names && e in EvaluateWith(name, n, rule, ctx) ==> e in r
    ensures |r| <= |names|
  {
    if |names| == 0 then []
    else
      var rest := EvaluateNames(names[1..], n, rule, ctx);
      assert forall name :: name in names[1..] ==> name in names;
      assert forall name :: name in names ==> name == names[0] || name in names[1..];
      EvaluateWith(names[0], n, rule, ctx) + rest
  }

  /** The names each rule captures on each line: `table[ln][i]` is what `rules[i]` captures on `lines[ln]`. */
  function NameTable(lines: seq<string>, rules: seq<NameRule>): (table: seq<seq<seq<string>>>)
    requires RulesOk(rules)
    ensures |table| == |lines|
    ensures forall ln :: 0 <= ln < |lines| ==> |table[ln]| == |rules|
    ensures forall ln, i :: 0 <= ln < |lines| && 0 <= i < |rules| ==> table[ln][i] == AllNames(rules[i].pattern, lines[ln])
  {
    seq(|lines|, ln requires 0 <= ln < |lines| =>
      seq(|rules|, i requires 0 <= i < |rules| => AllNames(rules[i].pattern, lines[ln])))
  }

  /** One line's captured names, rule by rule from `row[j..]`, evaluated in order. */
  function LineIssues(row: seq<seq<string>>, n: int, rules: seq<NameRule>, j: nat, ctx: Context): (r: seq<Issue>)
    requires |row| == |rules|
    ensures forall e :: e in r ==> e.kind == "Naming.NonDescriptive" && e.severity == Info && e.lineNumber == Some(n)
    decreases |rules| - j
  {
    if j >= |rules| then []
    else EvaluateNames(row[j], n, rules[j], ctx) + LineIssues(row, n, rules, j + 1, ctx)
  }

  /** Every verdict on a name of `row[i]`, for `i` at or past `j`, is among the line's issues. */
  lemma {:induction false} LineComplete(row: seq<seq<string>>, n: int, rules: seq<NameRule>, j: nat, ctx: Context,
                                        i: nat, name: string, e: Issue)
    requires |row| == |rules| && j <= i < |rules|
    requires name in row[i] && e in EvaluateWith(name, n, rules[i], ctx)
    ensures e in LineIssues(row, n, rules, j, ctx)
    decreases |rules| - j
  {
    var first := EvaluateNames(row[j], n, rules[j], ctx);
    var rest := LineIssues(row, n, rules, j + 1, ctx);
    assert LineIssues(row, n, rules, j, ctx) == first + rest;
    if j < i {
      LineComplete(row, n, rules, j + 1, ctx, i, name, e);
      assert e in rest;
    } else {
      assert e in first;
    }
  }

  /** Every issue of the line is the verdict on a name of some `row[i]`, `i` at or past `j`. */
  lemma {:induction false} LineSound(row: seq<seq<string>>, n: int, rules: seq<NameRule>, j: nat, ctx: Context, e: Issue)
    requires |row| == |rules| && e in LineIssues(row, n, rules, j, ctx)
    ensures exists i, name :: (j <= i < |rules| && name in row[i] && e in EvaluateWith(name, n, rules[i], ctx))
    decreases |rules| - j
  {
    if e !in EvaluateNames(row[j], n, rules[j], ctx) {
      LineSound(row, n, rules, j + 1, ctx, e);
    }
  }

  /** The scan of `table[k..]`: the issues of each line in turn, each at its 1-based line. */
  function ScanLines(table: seq<seq<seq<string>>>, k: nat, rules: seq<NameRule>, ctx: Context): (r: seq<Issue>)
    requires k <= |table| && forall ln :: 0 <= ln < |table| ==> |table[ln]| == |rules|
    decreases |table| - k
  {
    if k == |table| then []
    else LineIssues(table[k], k + 1, rules, 0, ctx) + ScanLines(table, k + 1, rules, ctx)
  }

  /** Line numbers never decrease along `r`. */
  predicate LinesNonDecreasing(r: seq<Issue>)
    requires forall e :: e in r ==> e.lineNumber.Some?
  {
    forall a, b :: 0 <= a < b < |r| ==> r[a].lineNumber.value <= r[b].lineNumber.value
  }

  /** The scan's issues are naming issues within lines `k + 1..|table|`, in line order. */
  lemma {:induction false} ScanShape(table: seq<seq<seq<string>>>, k: nat, rules: seq<NameRule>, ctx: Context)
    requires k <= |table| && forall ln :: 0 <= ln < |table| ==> |table[ln]| == |rules|
    ensures var r := ScanLines(table, k, rules, ctx);
      && (forall e :: e in r ==> e.kind == "Naming.NonDescriptive" && e.severity == Info)
      && LinesWithin(r, k + 1, |table|)
      && LinesNonDecreasing(r)
    decreases |table| - k
  {
    if k < |table| {
      var here := LineIssues(table[k], k + 1, rules, 0, ctx);
      var rest := ScanLines(table, k + 1, rules, ctx);
      ScanShape(table, k + 1, rules, ctx);
      var r := here + rest;
      assert ScanLines(table, k, rules, ctx) == r;
      assert forall a :: 0 <= a < |here| ==> here[a] in here;
      assert forall b :: 0 <= b < |rest| ==> rest[b] in rest;
      assert forall e :: e in r ==> e in here || e in rest;
    }
  }

  /** An issue of line `k`, or of the scan past it, is an issue of the scan from `k`. */
  lemma ScanHas(table: seq<seq<seq<string>>>, k: nat, rules: seq<NameRule>, ctx: Context, e: Issue)
    requires k < |table| && forall ln :: 0 <= ln < |table| ==> |table[ln]| == |rules|
    requires e in LineIssues(table[k], k + 1, rules, 0, ctx) || e in ScanLines(table, k + 1, rules, ctx)
    ensures e in ScanLines(table, k, rules, ctx)
  {
  }

  /** Completeness: every verdict on every name any rule captures on any line is reported. */
  lemma {:induction false} ScanComplete(table: seq<seq<seq<string>>>, k: nat, rules: seq<NameRule>, ctx: Context,
                                        ln: nat, i: nat, name: string, e: Issue)
    requires forall l :: 0 <= l < |table| ==> |table[l]| == |rules|
    requires k <= ln < |table| && i < |rules|
    requires name in table[ln][i] && e in EvaluateWith(name, ln + 1, rules[i], ctx)
    ensures e in ScanLines(table, k, rules, ctx)
    decreases |table| - k
  {
    if k == ln {
      ScanCompleteAt(table, rules, ctx, ln, i, name, e);
    } else {
      ScanComplete(table, k + 1, rules, ctx, ln, i, name, e);
      ScanHas(table, k, rules, ctx, e);
    }
  }

  /** `ScanComplete` for the scan that starts at the name's own line. */
  lemma ScanCompleteAt(table: seq<seq<seq<string>>>, rules: seq<NameRule>, ctx: Context,
                       ln: nat, i: nat, name: string, e: Issue)
    requires forall l :: 0 <= l < |table| ==> |table[l]| == |rules|
    requires ln < |table| && i < |rules|
    requires name in table[ln][i] && e in EvaluateWith(name, ln + 1, rules[i], ctx)
    ensures e in ScanLines(table, ln, rules, ctx)
  {
    LineComplete(table[ln], ln + 1, rules, 0, ctx, i, name, e);
    ScanHas(table, ln, rules, ctx, e);
  }

  /** Soundness: every reported issue is the verdict on a name some rule captured at its line. */
  lemma {:induction false} ScanSound(table: seq<seq<seq<string>>>, k: nat, rules: seq<NameRule>, ctx: Context, e: Issue)
    requires k <= |table| && forall l :: 0 <= l < |table| ==> |table[l]| == |rules|
    requires e in ScanLines(table, k, rules, ctx)
    ensures e.lineNumber.Some? && k + 1 <= e.lineNumber.value <= |table|
    ensures exists i, name :: (0 <= i < |rules| && name in table[e.lineNumber.value - 1][i]
      && e in EvaluateWith(name, e.lineNumber.value, rules[i], ctx))
    decreases |table| - k
  {
    var here := LineIssues(table[k], k + 1, rules, 0, ctx);
    if e in here {
      LineSound(table[k], k + 1, rules, 0, ctx, e);
    } else {
      ScanSound(table, k + 1, rules, ctx, e);
    }
  }

  /** The verdict `rule` gives `name` in context `ctx`. */
  function Verdict(name: string, rule: NameRule, ctx: Context): Option<Fault>
  {
    FaultOf(name, rule.isFunction, rule.exemptable && Exempt(name, ctx.iterators))
  }

  /**
    A scan reports every faulty name: whenever a rule captures a name on a
    line and the verdict on it is a fault, the issue for that fault, at that
    line, with the context's suggestion, is in the scan.
  */
  lemma ScanReportsEveryFault(lines: seq<string>, rules: seq<NameRule>, ctx: Context, ln: nat, i: nat, name: string)
    requires RulesOk(rules) && ln < |lines| && i < |rules|
    requires name in AllNames(rules[i].pattern, lines[ln]) && Verdict(name, rules[i], ctx).Some?
    ensures MakeIssue(ln + 1, FaultMessage(Verdict(name, rules[i], ctx).value, name),
                      Suggest(ctx.language, ctx.hasLoanParams, ctx.sqlVerb))
            in ScanLines(NameTable(lines, rules), 0, rules, ctx)
  {
    var table := NameTable(lines, rules);
    var ev := EvaluateWith(name, ln + 1, rules[i], ctx);
    assert |ev| == 1 && ev[0] in ev;
    ScanComplete(table, 0, rules, ctx, ln, i, name, ev[0]);
  }

  /**
    A scan reports nothing else: every issue is the fault verdict on a
    captured identifier, at its line, and never the leading-digit verdict,
    since a captured name always starts with a letter or '_'.
  */
  lemma ScanReportsOnlyFaults(lines: seq<string>, rules: seq<NameRule>, ctx: Context, e: Issue)
    requires RulesOk(rules) && e in ScanLines(NameTable(lines, rules), 0, rules, ctx)
    ensures e.lineNumber.Some? && 1 <= e.lineNumber.value <= |lines|
    ensures exists i, name :: (0 <= i < |rules| && name in AllNames(rules[i].pattern, lines[e.lineNumber.value - 1])
      && IsIdentifier(name) && Verdict(name, rules[i], ctx).Some? && Verdict(name, rules[i], ctx) != Some(StartsWithDigit)
      && e.message == FaultMessage(Verdict(name, rules[i], ctx).value, name))
  {
    var table := NameTable(lines, rules);
    ScanSound(table, 0, rules, ctx, e);
    var i, name :| 0 <= i < |rules| && name in table[e.lineNumber.value - 1][i]
      && e in EvaluateWith(name, e.lineNumber.value, rules[i], ctx);
    var names := AllNames(rules[i].pattern, lines[e.lineNumber.value - 1]);
    assert name in names;
    assert IsIdentifier(name);
    IdentifierNeverDigitFault(name, rules[i].isFunction, rules[i].exemptable && Exempt(name, ctx.iterators));
    var v := Verdict(name, rules[i], ctx);
    assert v.Some? && e.message == FaultMessage(v.value, name);
  }

  // ------------------------------------------------------------ per language

  const VBDim := Keyword(None, [["Dim"]], NoTail)
  const SqlAs := Keyword(None, [["AS"]], NoTail)

  const CSharpRules := [NameRule(CSharpMethod, true, false), NameRule(Declaration, false, true)]
  const VBRules := [NameRule(VBMethod, true, false), NameRule(VBDim, false, true)]
  const SqlRules := [NameRule(SourceAlias, false, false), NameRule(SqlAs, false, false), NameRule(SqlCreate, true, false)]

  /** Some loan parameter ("principal", "rate" or "term") occurs anywhere, ignoring case. */
  predicate HasLoanParams(code: string)
  {
    ContainsIgnoreCase(code, "principal") || ContainsIgnoreCase(code, "rate") || ContainsIgnoreCase(code, "term")
  }

  /** The SQL verb for suggestions: INSERT wins over UPDATE; neither gives none. */
  function SqlVerb(code: string): (r: Option<string>)
    ensures ContainsIgnoreCase(code, "INSERT") ==> r == Some("InsertRecord")
    ensures !ContainsIgnoreCase(code, "INSERT") && ContainsIgnoreCase(code, "UPDATE") ==> r == Some("UpdateRecord")
    ensures r.None? <==> !ContainsIgnoreCase(code, "INSERT") && !ContainsIgnoreCase(code, "UPDATE")
  {
    if ContainsIgnoreCase(code, "INSERT") then Some("InsertRecord")
    else if ContainsIgnoreCase(code, "UPDATE") then Some("UpdateRecord")
    else None
  }

  function AnalyzeCSharp(code: string): (r: seq<Issue>)
    ensures forall e :: e in r ==> e.kind == "Naming.NonDescriptive" && e.severity == Info
    ensures LinesWithin(r, 1, |SplitLines(code)|) && LinesNonDecreasing(r)
  {
    var lines := SplitLines(code);
    var table := NameTable(lines, CSharpRules);
    ScanShape(table, 0, CSharpRules, Context("CSharp", HasLoanParams(code), None, CSharpIterators(lines)));
    ScanLines(table, 0, CSharpRules, Context("CSharp", HasLoanParams(code), None, CSharpIterators(lines)))
  }

  function AnalyzeVB(code: string): (r: seq<Issue>)
    ensures forall e :: e in r ==> e.kind == "Naming.NonDescriptive" && e.severity == Info
    ensures LinesWithin(r, 1, |SplitLines(code)|) && LinesNonDecreasing(r)
  {
    var lines := SplitLines(code);
    var table := NameTable(lines, VBRules);
    ScanShape(table, 0, VBRules, Context("VBNet", HasLoanParams(code), None, VBIterators(lines)));
    ScanLines(table, 0, VBRules, Context("VBNet", HasLoanParams(code), None, VBIterators(lines)))
  }

  function AnalyzeSql(code: string): (r: seq<Issue>)
    ensures forall e :: e in r ==> e.kind == "Naming.NonDescriptive" && e.severity == Info
    ensures LinesWithin(r, 1, |SplitLines(code)|) && LinesNonDecreasing(r)
  {
    var lines := SplitLines(code);
    var table := NameTable(lines, SqlRules);
    ScanShape(table, 0, SqlRules, Context("SQL", false, SqlVerb(code), {}));
    ScanLines(table, 0, SqlRules, Context("SQL", false, SqlVerb(code), {}))
  }

  /**
    The naming issues of `code` in the named language: none for blank code
    or a language other than CSharp, VBNet or SQL (after trimming, ignoring
    case); otherwise Info issues of kind "Naming.NonDescriptive" at lines of
    the code, in line order.
  */
  function Analyze(code: string, language: string): (r: seq<Issue>)
    ensures IsBlank(code) ==> r == []
    ensures var l := Trim(language);
      !EqualsIgnoreCase(l, "CSharp") && !EqualsIgnoreCase(l, "VBNet") && !EqualsIgnoreCase(l, "SQL") ==> r == []
    ensures forall e :: e in r ==> e.kind == "Naming.NonDescriptive" && e.severity == Info
    ensures LinesWithin(r, 1, |SplitLines(code)|) && LinesNonDecreasing(r)
  {
    if IsBlank(code) then []
    else
      var l := Trim(language);
      if EqualsIgnoreCase(l, "CSharp") then AnalyzeCSharp(code)
      else if EqualsIgnoreCase(l, "VBNet") then AnalyzeVB(code)
      else if EqualsIgnoreCase(l, "SQL") then AnalyzeSql(code)
      else []
  }

  /** The rule tables are well formed: valid patterns that all capture identifiers. */
  lemma RuleTablesOk()
    ensures RulesOk(CSharpRules) && RulesOk(VBRules) && RulesOk(SqlRules)
  {
  }

  /** The message of a naming issue found by `Analyze` never reports a leading digit. */
  lemma AnalyzeNeverReportsDigit(code: string, language: string, e: Issue)
    requires e in Analyze(code, language)
    ensures exists name, f :: IsIdentifier(name) && f != StartsWithDigit && e.message == FaultMessage(f, name)
  {
    RuleTablesOk();
    var lines := SplitLines(code);
    var l := Trim(language);
    var rules, ctx;
    if EqualsIgnoreCase(l, "CSharp") {
      rules, ctx := CSharpRules, Context("CSharp", HasLoanParams(code), None, CSharpIterators(lines));
    } else if EqualsIgnoreCase(l, "VBNet") {
      rules, ctx := VBRules, Context("VBNet", HasLoanParams(code), None, VBIterators(lines));
    } else {
      rules, ctx := SqlRules, Context("SQL", false, SqlVerb(code), {});
    }
    assert e in ScanLines(NameTable(lines, rules), 0, rules, ctx);
    ScanReportsOnlyFaults(lines, rules, ctx, e);
    var i, name :| 0 <= i < |rules| && IsIdentifier(name)
      && Verdict(name, rules[i], ctx).Some? && Verdict(name, rules[i], ctx) != Some(StartsWithDigit)
      && e.message == FaultMessage(Verdict(name, rules[i], ctx).value, name);
    assert e.message == FaultMessage(Verdict(name, rules[i], ctx).value, name);
  }
}

=== FILE: patterns.dfy ===
/**
  The regular expressions the analyzers use, each written out as a
  deterministic forward matcher.  Ordered alternatives are tried in the
  regex's own order, and the few places where the regex engine would
  backtrack are resolved explicitly: the optional fraction of a number,
  the optional modifier of a signature that falls back to being the type,
  the optional `AS` of an SQL alias that falls back to being the alias,
  and the greedy `.*` before the last `Then` on a line.  Matching ignores
  case, as every regex here is built with RegexOptions.IgnoreCase (except
  `Iterator`, see below).

  `MatchAt(p, s, q)` is the match of `p` starting exactly at `q`;
  `FirstMatch` is `Regex.Match` (leftmost start) and `AllMatches` is
  `Regex.Matches` (leftmost, non-overlapping, left to right).
*/
module Patterns {
  import opened Text
  import opened Model

  predicate IsIdentStart(c: char) { IsLetter(c) || c == '_' }

  /** `[A-Za-z_][A-Za-z0-9_]*` as a whole string. */
  predicate IsIdentifier(s: string)
  {
    |s| > 0 && IsIdentStart(s[0]) && forall i :: 1 <= i < |s| ==> IsWordChar(s[i])
  }

  /** The character classes that appear in the patterns. */
  datatype CharClass =
    | White          // \s
    | Word           // [A-Za-z0-9_]
    | TypeName       // [A-Za-z0-9_<>\[\]?]
    | NonWhite       // [^\s]
    | Digit          // \d
    | TableName      // [A-Za-z0-9_\.]
    | NotCloseParen  // [^)]

  predicate InClass(k: CharClass, c: char)
  {
    match k
    case White => IsWhiteSpace(c)
    case Word => IsWordChar(c)
    case TypeName => IsWordChar(c) || c == '<' || c == '>' || c == '[' || c == ']' || c == '?'
    case NonWhite => !IsWhiteSpace(c)
    case Digit => IsDigit(c)
    case TableName => IsWordChar(c) || c == '.'
    case NotCloseParen => c != ')'
  }

  /** End of the longest run of class `k` starting at `q` (a greedy `k*`). */
  function Span(k: CharClass, s: string, q: nat): (r: nat)
    requires q <= |s|
    ensures q <= r <= |s|
    ensures forall i :: q <= i < r ==> InClass(k, s[i])
    ensures r < |s| ==> !InClass(k, s[r])
    decreases |s| - q
  {
    if q < |s| && InClass(k, s[q]) then Span(k, s, q + 1) else q
  }

  /** `\b` at position `q`: a word character on exactly one side. */
  predicate Boundary(s: string, q: nat)
    requires q <= |s|
  {
    (q > 0 && IsWordChar(s[q - 1])) != (q < |s| && IsWordChar(s[q]))
  }

  /** The greedy identifier `[A-Za-z_][A-Za-z0-9_]*` starting at `n`, or None. */
  function IdentifierAt(s: string, n: nat): (r: Option<nat>)
    requires n <= |s|
    ensures r.Some? ==> n < r.value <= |s| && IsIdentifier(s[n..r.value])
    ensures r.Some? ==> r.value == |s| || !IsWordChar(s[r.value])
  {
    if n < |s| && IsIdentStart(s[n]) then
      var e := Span(Word, s, n + 1);
      assert forall i :: 1 <= i < e - n ==> s[n..e][i] == s[n + i];
      Some(e)
    else None
  }

  /** A successful match: where it starts and ends, its name group and its parameter group. */
  datatype Capture = Capture(start: nat, nameStart: nat, nameEnd: nat, argStart: nat, argEnd: nat, end: nat)

  predicate WellFormed(s: string, q: nat, m: Capture)
  {
    && m.start == q < m.end <= |s|
    && q <= m.nameStart <= m.nameEnd <= m.end
    && q <= m.argStart <= m.argEnd <= m.end
  }

  function Name(s: string, m: Capture): string
    requires m.nameStart <= m.nameEnd <= |s|
  {
    s[m.nameStart..m.nameEnd]
  }

  function Args(s: string, m: Capture): string
    requires m.argStart <= m.argEnd <= |s|
  {
    s[m.argStart..m.argEnd]
  }

  /** What follows the captured name in a keyword pattern. */
  datatype Tail =
    | NoTail      // nothing
    | ParamList   // \s*\(([^)]*)\)
    | EqualsSign  // \s*=

  /** Where a fixed phrase pattern may start. */
  datatype Anchor =
    | AtBoundary      // \b...
    | AtStart         // ^...
    | AtStartSpaces   // ^\s*...

  datatype Pattern =
    /** `\b(?:mod1|mod2|...)?\s*TYPE\s+(NAME)\s*\(` and, with parameters, `...\(([^)]*)\)`. */
    | Signature(modifiers: seq<string>, withParams: bool)
    /** `\b(?:var|TYPE)\s+(NAME)\s*(?:=|;|,)`. */
    | Declaration
    /**
      `\b(?:mod1|...)?\s*(?:PHRASE1|PHRASE2|...)\s+(NAME)TAIL`, without the
      modifier part when `prefix` is None; a phrase is words joined by `\s+`.
    */
    | Keyword(prefix: Option<seq<string>>, phrases: seq<seq<string>>, tail: Tail)
    /** `\b(?:FROM|JOIN)\s+[^\s]+\s+(?:AS\s+)?(NAME)`. */
    | SourceAlias
    /** `for\s*\(([^)]*)\)`: the parameter group is the loop header. */
    | ForHeader
    /** `\b(?:var|TYPE)\s+([ij])\b`, the one case-sensitive pattern. */
    | Iterator
    /** `KEYWORD\s+([A-Za-z0-9_\.]+)`: the name group is the table. */
    | TableAfter(keyword: string)
    /** `"(.*?)"`: the name group is the quoted content. */
    | StringLiteral
    /** `\b\d+(?:\.\d+)?\b`: the name group is the whole number. */
    | NumberLiteral
    /**
      An anchored phrase alternation followed by `\b`, such as `\bEnd\s+(Sub|Function)\b`.
      The first alternative that matches is the one tried against `\b`, so an
      alternative must come before any other that is a prefix of it.
    */
    | Phrase(anchor: Anchor, alternatives: seq<seq<string>>)
    /** `\bIf\b.*\bThen\b`. */
    | IfThen
    /** `w1|w2|...` with no anchors at all: the name group is the matched word. */
    | Alternatives(words: seq<string>)

  /** Patterns whose name group is always an identifier. */
  predicate NamesIdentifier(p: Pattern)
  {
    p.Signature? || p.Declaration? || p.Keyword? || p.SourceAlias? || p.Iterator?
  }

  /** Patterns whose parameter group is a `[^)]*` run. */
  predicate HasParams(p: Pattern)
  {
    (p.Signature? && p.withParams) || (p.Keyword? && p.tail == ParamList) || p.ForHeader?
  }

  // ---------------------------------------------------------------- helpers

  /** The end of `words`, separated by `\s+`, matched case-insensitively at `p`. */
  function PhraseEnd(s: string, p: nat, words: seq<string>): (r: Option<nat>)
    requires p <= |s|
    ensures r.Some? ==> p <= r.value <= |s|
    ensures r.Some? && |words| > 0 && |words[0]| > 0 ==> p < r.value
    decreases |words|
  {
    if |words| == 0 then Some(p)
    else if !MatchesAt(s, p, words[0]) then None
    else if |words| == 1 then Some(p + |words[0]|)
    else
      var w := Span(White, s, p + |words[0]|);
      if w == p + |words[0]| then None else PhraseEnd(s, w, words[1..])
  }

  /** The first phrase of `phrases[k..]` that matches at `p`, as its end. */
  function FirstPhraseEnd(s: string, p: nat, phrases: seq<seq<string>>, k: nat): (r: Option<nat>)
    requires p <= |s|
    requires forall i :: 0 <= i < |phrases| ==> |phrases[i]| > 0 && |phrases[i][0]| > 0
    ensures r.Some? ==> p < r.value <= |s|
    decreases |phrases| - k
  {
    if k >= |phrases| then None
    else
      var e := PhraseEnd(s, p, phrases[k]);
      if e.Some? then e else FirstPhraseEnd(s, p, phrases, k + 1)
  }

  /** `NAME` then the tail, for the keyword patterns; `n` is where the name should start. */
  function NameAndTail(s: string, q: nat, n: nat, tail: Tail): (r: Option<Capture>)
    requires q < n <= |s|
    ensures r.Some? ==> WellFormed(s, q, r.value) && IsIdentifier(Name(s, r.value))
    ensures r.Some? && tail == ParamList ==> ')' !in Args(s, r.value)
  {
    match IdentifierAt(s, n)
    case None => None
    case Some(ne) =>
      match tail
      case NoTail => Some(Capture(q, n, ne, ne, ne, ne))
      case EqualsSign =>
        var e := Span(White, s, ne);
        if e < |s| && s[e] == '=' then Some(Capture(q, n, ne, ne, ne, e + 1)) else None
      case ParamList => ParamsAfter(s, q, n, ne)
  }

  /** `([^)]*)\)` from `a`: the end of the parameter text, which must be followed by ')'. */
  function ArgsEnd(s: string, a: nat): (r: Option<nat>)
    requires a <= |s|
    ensures r.Some? ==> a <= r.value < |s| && s[r.value] == ')' && ')' !in s[a..r.value]
  {
    var c := Span(NotCloseParen, s, a);
    if c < |s| then
      assert forall i :: 0 <= i < c - a ==> s[a..c][i] != ')';
      Some(c)
    else None
  }

  /** `\s*\(([^)]*)\)` after a name ending at `ne`. */
  function ParamsAfter(s: string, q: nat, n: nat, ne: nat): (r: Option<Capture>)
    requires q < n < ne <= |s| && IsIdentifier(s[n..ne])
    ensures r.Some? ==> WellFormed(s, q, r.value) && IsIdentifier(Name(s, r.value))
    ensures r.Some? ==> ')' !in Args(s, r.value) && r.value.nameStart == n && r.value.nameEnd == ne
  {
    var o := Span(White, s, ne);
    if o < |s| && s[o] == '(' then
      match ArgsEnd(s, o + 1) {
        case None => None
        case Some(c) => Some(Capture(q, n, ne, o + 1, c, c + 1))
      }
    else None
  }

  /** `TYPE\s+(NAME)` where the type starts at `t`; returns the name's start. */
  function TypeThenName(s: string, t: nat): (r: Option<nat>)
    requires t <= |s|
    ensures r.Some? ==> t < r.value < |s| && IsIdentStart(s[r.value])
  {
    if t < |s| && IsIdentStart(s[t]) then
      var te := Span(TypeName, s, t + 1);
      var n := Span(White, s, te);
      if te < n < |s| && IsIdentStart(s[n]) then Some(n) else None
    else None
  }

  /** The rest of a signature match once the optional modifier ended at `p`. */
  function SignatureRest(s: string, q: nat, p: nat, withParams: bool): (r: Option<Capture>)
    requires q <= p <= |s|
    ensures r.Some? ==> WellFormed(s, q, r.value) && IsIdentifier(Name(s, r.value))
    ensures r.Some? && withParams ==> ')' !in Args(s, r.value)
  {
    match TypeThenName(s, Span(White, s, p))
    case None => None
    case Some(n) =>
      var ne := IdentifierAt(s, n).value;
      if withParams then ParamsAfter(s, q, n, ne)
      else
        var o := Span(White, s, ne);
        if o < |s| && s[o] == '(' then Some(Capture(q, n, ne, o + 1, o + 1, o + 1)) else None
  }

  /** Try the modifiers `mods[k..]` in order, then no modifier, for a signature match at `q`. */
  function SignatureFrom(s: string, q: nat, mods: seq<string>, k: nat, withParams: bool): (r: Option<Capture>)
    requires q <= |s|
    ensures r.Some? ==> WellFormed(s, q, r.value) && IsIdentifier(Name(s, r.value))
    ensures r.Some? && withParams ==> ')' !in Args(s, r.value)
    decreases |mods| - k
  {
    if k >= |mods| then SignatureRest(s, q, q, withParams)
    else if MatchesAt(s, q, mods[k]) then
      var r := SignatureRest(s, q, q + |mods[k]|, withParams);
      if r.Some? then r else SignatureFrom(s, q, mods, k + 1, withParams)
    else SignatureFrom(s, q, mods, k + 1, withParams)
  }

  /** The rest of a keyword match once the optional modifier (and `\s*`) ended at `p`. */
  function KeywordRest(s: string, q: nat, p: nat, phrases: seq<seq<string>>, tail: Tail): (r: Option<Capture>)
    requires q <= p <= |s|
    requires forall i :: 0 <= i < |phrases| ==> |phrases[i]| > 0 && |phrases[i][0]| > 0
    ensures r.Some? ==> WellFormed(s, q, r.value) && IsIdentifier(Name(s, r.value))
    ensures r.Some? && tail == ParamList ==> ')' !in Args(s, r.value)
  {
    match FirstPhraseEnd(s, p, phrases, 0)
    case None => None
    case Some(e) =>
      var n := Span(White, s, e);
      if n == e then None else NameAndTail(s, q, n, tail)
  }

  function KeywordFrom(s: string, q: nat, mods: seq<string>, k: nat, phrases: seq<seq<string>>, tail: Tail): (r: Option<Capture>)
    requires q <= |s|
    requires forall i :: 0 <= i < |phrases| ==> |phrases[i]| > 0 && |phrases[i][0]| > 0
    ensures r.Some? ==> WellFormed(s, q, r.value) && IsIdentifier(Name(s, r.value))
    ensures r.Some? && tail == ParamList ==> ')' !in Args(s, r.value)
    decreases |mods| - k
  {
    if k >= |mods| then KeywordRest(s, q, Span(White, s, q), phrases, tail)
    else if MatchesAt(s, q, mods[k]) then
      var r := KeywordRest(s, q, Span(White, s, q + |mods[k]|), phrases, tail);
      if r.Some? then r else KeywordFrom(s, q, mods, k + 1, phrases, tail)
    else KeywordFrom(s, q, mods, k + 1, phrases, tail)
  }

  /** Every phrase has a first word and that word is not empty. */
  predicate PhrasesOk(phrases: seq<seq<string>>)
  {
    forall i :: 0 <= i < |phrases| ==> |phrases[i]| > 0 && |phrases[i][0]| > 0
  }

  /** Every alternative is a non-empty word. */
  predicate WordsOk(words: seq<string>)
  {
    forall i :: 0 <= i < |words| ==> |words[i]| > 0
  }

  /** The patterns this model actually builds are well formed. */
  predicate ValidPattern(p: Pattern)
  {
    match p
    case Keyword(_, phrases, _) => PhrasesOk(phrases)
    case Phrase(_, phrases) => PhrasesOk(phrases)
    case TableAfter(kw) => |kw| > 0
    case Alternatives(words) => WordsOk(words)
    case _ => true
  }

  /** `IsWordChar` on both sides of a phrase match requires a word boundary after it. */
  predicate BoundaryAfter(s: string, e: nat)
    requires e <= |s|
  {
    e == |s| || !IsWordChar(s[e])
  }

  function NumberEnd(s: string, q: nat): (r: Option<nat>)
    requires q <= |s|
    ensures r.Some? ==> q < r.value <= |s|
  {
    if !(q < |s| && IsDigit(s[q]) && Boundary(s, q)) then None
    else
      var e := Span(Digit, s, q);
      var f := if e + 1 < |s| && s[e] == '.' && IsDigit(s[e + 1]) then Span(Digit, s, e + 1) else e;
      if f > e && BoundaryAfter(s, f) then Some(f)
      else if BoundaryAfter(s, e) then Some(e)
      else None
  }

  function IfThenEnd(s: string, q: nat): (r: Option<nat>)
    requires q <= |s|
    ensures r.Some? ==> q < r.value <= |s|
  {
    if !(Boundary(s, q) && MatchesAt(s, q, "If") && BoundaryAfter(s, q + 2)) then None
    else
      var e := ThenEnd(s, q + 2, q + 2);
      e
  }

  /** The end of the last `\bThen\b` at or after `from` on the same line (greedy `.*`). */
  function ThenEnd(s: string, from: nat, k: nat): (r: Option<nat>)
    requires from <= k <= |s|
    ensures r.Some? ==> from < r.value <= |s|
    decreases |s| - k
  {
    if k >= |s| || s[k] == '\n' then None
    else
      var later := ThenEnd(s, from, k + 1);
      if later.Some? then later
      else if Boundary(s, k) && MatchesAt(s, k, "Then") && BoundaryAfter(s, k + 4) then Some(k + 4)
      else None
  }

  function FirstWordAt(s: string, q: nat, words: seq<string>, k: nat): (r: Option<nat>)
    requires q <= |s|
    requires WordsOk(words)
    ensures r.Some? ==> q < r.value <= |s|
    decreases |words| - k
  {
    if k >= |words| then None
    else if MatchesAt(s, q, words[k]) then Some(q + |words[k]|)
    else FirstWordAt(s, q, words, k + 1)
  }

  // ---------------------------------------------------------------- matching

  function DeclarationAt(s: string, q: nat): (r: Option<Capture>)
    requires q <= |s|
    ensures r.Some? ==> WellFormed(s, q, r.value) && IsIdentifier(Name(s, r.value))
  {
    if !Boundary(s, q) then None
    else
      // The `var` alternative is subsumed: `var` followed by white space is also a TYPE.
      match TypeThenName(s, q) {
        case None => None
        case Some(n) =>
          var ne := IdentifierAt(s, n).value;
          var e := Span(White, s, ne);
          if e < |s| && (s[e] == '=' || s[e] == ';' || s[e] == ',') then Some(Capture(q, n, ne, ne, ne, e + 1))
          else None
      }
  }

  function SourceAliasAt(s: string, q: nat): (r: Option<Capture>)
    requires q <= |s|
    ensures r.Some? ==> WellFormed(s, q, r.value) && IsIdentifier(Name(s, r.value))
  {
    if !Boundary(s, q) then None
    else match FirstPhraseEnd(s, q, [["FROM"], ["JOIN"]], 0) {
      case None => None
      case Some(k) =>
        var t := Span(White, s, k);
        var te := Span(NonWhite, s, t);
        var n := Span(White, s, te);
        if !(k < t < te < n) then None
        else
          var viaAs := if MatchesAt(s, n, "AS") then
            var a := Span(White, s, n + 2);
            if a > n + 2 then NameAndTail(s, q, a, NoTail) else None
          else None;
          if viaAs.Some? then viaAs else NameAndTail(s, q, n, NoTail)
    }
  }

  function ForHeaderAt(s: string, q: nat): (r: Option<Capture>)
    requires q <= |s|
    ensures r.Some? ==> WellFormed(s, q, r.value) && ')' !in Args(s, r.value)
  {
    if !MatchesAt(s, q, "for") then None
    else
      var o := Span(White, s, q + 3);
      if o < |s| && s[o] == '(' then
        match ArgsEnd(s, o + 1) {
          case None => None
          case Some(c) => Some(Capture(q, o + 1, o + 1, o + 1, c, c + 1))
        }
      else None
  }

  function IteratorAt(s: string, q: nat): (r: Option<Capture>)
    requires q <= |s|
    ensures r.Some? ==> WellFormed(s, q, r.value) && IsIdentifier(Name(s, r.value))
    ensures r.Some? ==> Name(s, r.value) == "i" || Name(s, r.value) == "j"
  {
    if !Boundary(s, q) then None
    else match TypeThenName(s, q) {
      case None => None
      case Some(n) =>
        if (s[n] == 'i' || s[n] == 'j') && BoundaryAfter(s, n + 1) then
          assert s[n..n + 1] == [s[n]];
          Some(Capture(q, n, n + 1, n + 1, n + 1, n + 1))
        else None
    }
  }

  function TableAfterAt(s: string, kw: string, q: nat): (r: Option<Capture>)
    requires q <= |s| && |kw| > 0
    ensures r.Some? ==> WellFormed(s, q, r.value) && r.value.nameStart < r.value.nameEnd
  {
    if !MatchesAt(s, q, kw) then None
    else
      var t := Span(White, s, q + |kw|);
      var e := Span(TableName, s, t);
      if q + |kw| < t < e then Some(Capture(q, t, e, e, e, e)) else None
  }

  function StringLiteralAt(s: string, q: nat): (r: Option<Capture>)
    requires q <= |s|
    ensures r.Some? ==> WellFormed(s, q, r.value) && '"' !in Name(s, r.value)
  {
    if !(q < |s| && s[q] == '"') then None
    else
      var c := IndexOfChar(s[q + 1..], '"');
      if c < 0 || '\n' in s[q + 1..q + 1 + c] then None
      else
        assert s[q + 1..][..c] == s[q + 1..q + 1 + c];
        Some(Capture(q, q + 1, q + 1 + c, q + 1 + c, q + 1 + c, q + 2 + c))
  }

  function PhraseAt(s: string, anchor: Anchor, phrases: seq<seq<string>>, q: nat): (r: Option<Capture>)
    requires q <= |s| && PhrasesOk(phrases)
    ensures r.Some? ==> WellFormed(s, q, r.value)
  {
    var ok := if anchor == AtBoundary then Boundary(s, q) else q == 0;
    if !ok then None
    else
      var p0 := if anchor == AtStartSpaces then Span(White, s, 0) else q;
      match FirstPhraseEnd(s, p0, phrases, 0) {
        case None => None
        case Some(e) =>
          if BoundaryAfter(s, e) then Some(Capture(q, p0, e, e, e, e)) else None
      }
  }

  /** The match of `p` that starts exactly at `q`, if any. */
  function MatchAt(p: Pattern, s: string, q: nat): (r: Option<Capture>)
    requires q <= |s|
    requires ValidPattern(p)
    ensures r.Some? ==> WellFormed(s, q, r.value)
    ensures r.Some? && NamesIdentifier(p) ==> IsIdentifier(Name(s, r.value))
    ensures r.Some? && HasParams(p) ==> ')' !in Args(s, r.value)
  {
    match p
    case Signature(mods, withParams) =>
      if Boundary(s, q) then SignatureFrom(s, q, mods, 0, withParams) else None
    case Declaration => DeclarationAt(s, q)
    case Keyword(mods, phrases, tail) =>
      if !Boundary(s, q) then None
      else if mods.Some? then KeywordFrom(s, q, mods.value, 0, phrases, tail)
      else KeywordRest(s, q, q, phrases, tail)
    case SourceAlias => SourceAliasAt(s, q)
    case ForHeader => ForHeaderAt(s, q)
    case Iterator => IteratorAt(s, q)
    case TableAfter(kw) => TableAfterAt(s, kw, q)
    case StringLiteral => StringLiteralAt(s, q)
    case NumberLiteral =>
      match NumberEnd(s, q) {
        case None => None
        case Some(e) => Some(Capture(q, q, e, e, e, e))
      }
    case Phrase(anchor, phrases) => PhraseAt(s, anchor, phrases, q)
    case IfThen =>
      match IfThenEnd(s, q) {
        case None => None
        case Some(e) => Some(Capture(q, q, e, e, e, e))
      }
    case Alternatives(words) =>
      match FirstWordAt(s, q, words, 0) {
        case None => None
        case Some(e) => Some(Capture(q, q, e, e, e, e))
      }
  }

  /** `Regex.Match`: the match with the leftmost start at or after `q`. */
  function FirstMatch(p: Pattern, s: string, q: nat): (r: Option<Capture>)
    requires q <= |s|
    requires ValidPattern(p)
    ensures r.Some? ==> q <= r.value.start && WellFormed(s, r.value.start, r.value)
    ensures r.Some? ==> MatchAt(p, s, r.value.start) == r
    ensures r.Some? && NamesIdentifier(p) ==> IsIdentifier(Name(s, r.value))
    ensures r.Some? && HasParams(p) ==> ')' !in Args(s, r.value)
    ensures r.Some? ==> forall k :: q <= k < r.value.start ==> MatchAt(p, s, k).None?
    ensures r.None? ==> forall k :: q <= k <= |s| ==> MatchAt(p, s, k).None?
    decreases |s| - q
  {
    var m := MatchAt(p, s, q);
    if m.Some? then m
    else if q == |s| then None
    else FirstMatch(p, s, q + 1)
  }

  /** `Regex.IsMatch`. */
  predicate IsMatch(p: Pattern, s: string)
    requires ValidPattern(p)
  {
    FirstMatch(p, s, 0).Some?
  }

  /** `Regex.Matches`: successive leftmost matches, each search resuming where the last match ended. */
  function AllMatches(p: Pattern, s: string, q: nat): (r: seq<Capture>)
    requires q <= |s|
    requires ValidPattern(p)
    ensures forall m :: m in r ==>
      && q <= m.start && WellFormed(s, m.start, m)
      && (NamesIdentifier(p) ==> IsIdentifier(Name(s, m)))
      && (HasParams(p) ==> ')' !in Args(s, m))
    ensures forall a, b :: 0 <= a < b < |r| ==> r[a].end <= r[b].start
    ensures |r| > 0 <==> FirstMatch(p, s, q).Some?
    ensures |r| > 0 ==> r[0] == FirstMatch(p, s, q).value
    decreases |s| - q
  {
    match FirstMatch(p, s, q)
    case None => []
    case Some(m) => [m] + AllMatches(p, s, m.end)
  }

  /** The search behind `Regex.Matches`: the match after match `i` is the first match from where match `i` ended. */
  lemma {:induction false} AllMatchesNext(p: Pattern, s: string, q: nat, i: nat)
    requires q <= |s| && ValidPattern(p)
    ensures var r := AllMatches(p, s, q);
      i + 1 < |r| ==> r[i].end <= |s| && FirstMatch(p, s, r[i].end) == Some(r[i + 1])
    decreases i
  {
    if FirstMatch(p, s, q).Some? {
      var m := FirstMatch(p, s, q).value;
      var rest := AllMatches(p, s, m.end);
      assert AllMatches(p, s, q) == [m] + rest;
      if i > 0 {
        AllMatchesNext(p, s, m.end, i - 1);
      }
    }
  }

  /** Nothing is found after the last match of `Regex.Matches`. */
  lemma {:induction false} AllMatchesLast(p: Pattern, s: string, q: nat)
    requires q <= |s| && ValidPattern(p) && |AllMatches(p, s, q)| > 0
    ensures var r := AllMatches(p, s, q);
      r[|r| - 1].end <= |s| && FirstMatch(p, s, r[|r| - 1].end).None?
    decreases |s| - q
  {
    var m := FirstMatch(p, s, q).value;
    var rest := AllMatches(p, s, m.end);
    assert AllMatches(p, s, q) == [m] + rest;
    if |rest| > 0 {
      AllMatchesLast(p, s, m.end);
    }
  }

  /** The name the first match of `p` captures, if `p` matches at all. */
  function FirstName(p: Pattern, s: string): (r: Option<string>)
    requires ValidPattern(p)
    ensures r.Some? <==> IsMatch(p, s)
    ensures r.Some? && NamesIdentifier(p) ==> IsIdentifier(r.value)
  {
    match FirstMatch(p, s, 0)
    case None => None
    case Some(m) => Some(Name(s, m))
  }

  /** The captured names of all matches, in order. */
  function AllNames(p: Pattern, s: string): (names: seq<string>)
    requires ValidPattern(p)
    ensures NamesIdentifier(p) ==> forall n :: n in names ==> IsIdentifier(n)
  {
    var ms := AllMatches(p, s, 0);
    seq(|ms|, i requires 0 <= i < |ms| => Name(s, ms[i]))
  }

  // ---------------------------------------------------------------- facts about phrase patterns

  /** A match found at any position makes `IsMatch` true. */
  lemma MatchFound(p: Pattern, s: string, q: nat)
    requires q <= |s| && ValidPattern(p) && MatchAt(p, s, q).Some?
    ensures IsMatch(p, s)
  {
  }

  /** With no match at any position from `q` on, the search from `q` fails. */
  lemma {:induction false} NoMatchFrom(p: Pattern, s: string, q: nat)
    requires q <= |s| && ValidPattern(p)
    requires forall k :: q <= k <= |s| ==> MatchAt(p, s, k).None?
    ensures FirstMatch(p, s, q).None?
    decreases |s| - q
  {
    if q < |s| {
      NoMatchFrom(p, s, q + 1);
    }
  }

  /** A `^` phrase pattern matches exactly when it matches at offset 0. */
  lemma StartPhraseMatch(s: string, phrases: seq<seq<string>>)
    requires PhrasesOk(phrases)
    ensures IsMatch(Phrase(AtStart, phrases), s) <==> PhraseAt(s, AtStart, phrases, 0).Some?
  {
    var p := Phrase(AtStart, phrases);
    if PhraseAt(s, AtStart, phrases, 0).None? {
      NoMatchFrom(p, s, 0);
    }
  }

  /** `^w\b` for a single word `w`. */
  lemma StartWordMatch(s: string, w: string)
    requires |w| > 0
    ensures IsMatch(Phrase(AtStart, [[w]]), s) <==> MatchesAt(s, 0, w) && BoundaryAfter(s, |w|)
  {
    StartPhraseMatch(s, [[w]]);
    assert FirstPhraseEnd(s, 0, [[w]], 1).None?;
    assert PhraseEnd(s, 0, [w]) == if MatchesAt(s, 0, w) then Some(|w|) else None;
  }

  /**
    Among one-word phrases, the first whose word occurs at `p` ends the
    phrase search there.
  */
  lemma {:induction false} FirstPhraseEndWord(s: string, p: nat, phrases: seq<seq<string>>, k: nat, j: nat)
    requires p <= |s| && PhrasesOk(phrases) && k <= j < |phrases| && |phrases[j]| == 1
    requires MatchesAt(s, p, phrases[j][0])
    requires forall i :: k <= i < j ==> |phrases[i]| == 1 && !MatchesAt(s, p, phrases[i][0])
    ensures FirstPhraseEnd(s, p, phrases, k) == Some(p + |phrases[j][0]|)
    decreases j - k
  {
    if k < j {
      FirstPhraseEndWord(s, p, phrases, k + 1, j);
    }
  }

  /** No phrase starts at `p` when every phrase's first word is too long to fit. */
  lemma {:induction false} NoPhraseFits(s: string, p: nat, phrases: seq<seq<string>>, k: nat)
    requires p <= |s| && PhrasesOk(phrases)
    requires forall i :: k <= i < |phrases| ==> p + |phrases[i][0]| > |s|
    ensures FirstPhraseEnd(s, p, phrases, k).None?
    decreases |phrases| - k
  {
    if k < |phrases| {
      NoPhraseFits(s, p, phrases, k + 1);
    }
  }

  /** A phrase pattern whose first words are all longer than `s` never matches it. */
  lemma PhraseTooLong(s: string, anchor: Anchor, phrases: seq<seq<string>>)
    requires PhrasesOk(phrases) && anchor != AtStartSpaces
    requires forall i :: 0 <= i < |phrases| ==> |phrases[i][0]| > |s|
    ensures !IsMatch(Phrase(anchor, phrases), s)
  {
    forall k | 0 <= k <= |s|
      ensures MatchAt(Phrase(anchor, phrases), s, k).None?
    {
      NoPhraseFits(s, k, phrases, 0);
    }
    NoMatchFrom(Phrase(anchor, phrases), s, 0);
  }

  // ---------------------------------------------------------------- shared patterns

  /** The C# method start, signature up to the opening parenthesis. */
  const CSharpMethod := Signature(["public", "private", "protected", "internal", "static", "async",
    "virtual", "override", "sealed", "partial", "extern"], false)

  /** The VB method start `\b(?:Public|...)?\s*(Sub|Function)\s+(NAME)`. */
  const VBMethod := Keyword(Some(["Public", "Private", "Protected", "Friend", "Shared", "Static"]),
    [["Sub"], ["Function"]], NoTail)

  /** `\bclass\s+(NAME)`, case-insensitive. */
  const ClassStart := Keyword(None, [["class"]], NoTail)

  /**
    `\bCREATE\s+(?:PROC|PROCEDURE|FUNCTION)\s+(NAME)`.  PROCEDURE is tried
    before PROC: since `\s+` must follow, at most one of the two can lead to
    a match, so the order does not change the result.
  */
  const SqlCreate := Keyword(None, [["CREATE", "PROCEDURE"], ["CREATE", "PROC"], ["CREATE", "FUNCTION"]], NoTail)
}

=== FILE: summary.dfy ===
/**
  The one-sentence summary: a sentence picked by keyword heuristics (loan
  terms, method or class names and their verbs for C# and VB.NET; the
  leading SQL statement and its table for SQL), then normalised into a
  capitalised sentence of at most 120 characters ending in a period.
*/
module SummaryGenerator {
  import opened Text
  import opened Model
  import opened Patterns

  const DefaultSummary := "Analyzes generic code snippet."
  const LoanSummary := "Calculates loan interest."
  const FallbackSummary := "Processes application logic."
  const SavesSummary := "Saves data to the database."
  const DeletesSummary := "Deletes records."

  // ------------------------------------------------------------ the final sentence

  /** Longest summary the generator returns. */
  const MaxLength := 120

  /** A finished summary: starts with a non-blank upper-case-or-other character, ends with '.', at most 120 long. */
  predicate IsFinal(s: string)
  {
    && 0 < |s| <= MaxLength
    && s[|s| - 1] == '.'
    && !IsWhiteSpace(s[0])
    && s[0] == Upper(s[0])
  }

  /**
    `Finalize`: blank becomes the default sentence; the rest is trimmed,
    given a final period if it lacks one, capitalised when longer than one
    character, and cut to 119 characters plus a period when longer than 120.
  */
  function Finalize(summary: string): (r: string)
    ensures IsFinal(r) && PolishedFrom(r, Sentence(summary))
  {
    var t := Sentence(summary);
    Polish(t)
  }

  /** Capitalising and cutting a sentence: the length is capped at 120, and only the first character may change. */
  function Polish(t: string): (r: string)
    requires 0 < |t| && t[|t| - 1] == '.' && !IsWhiteSpace(t[0])
    ensures IsFinal(r) && PolishedFrom(r, t)
  {
    Cut(Capitalize(t))
  }

  /**
    `r` is the sentence `t` capitalised and cut: as long as `t` up to 120
    characters, its first character upper-cased when `t` is longer than one
    character, and every character between the first and the last kept.
  */
  predicate PolishedFrom(r: string, t: string)
  {
    && 0 < |t|
    && |r| == (if |t| > MaxLength then MaxLength else |t|)
    && r[0] == (if |t| > 1 then Upper(t[0]) else t[0])
    && (|r| > 1 ==> r[1..|r| - 1] == t[1..|r| - 1])
  }

  /** A sentence longer than 120 characters keeps its first 119 and a period. */
  function Cut(s: string): (r: string)
    requires 0 < |s| && s[|s| - 1] == '.'
    ensures |r| == (if |s| > MaxLength then MaxLength else |s|) && r[|r| - 1] == '.'
    ensures r[..|r| - 1] == s[..|r| - 1]
  {
    if |s| > MaxLength then s[..MaxLength - 1] + "." else s
  }

  /**
    The sentence before capitalising and cutting: the trimmed summary (the
    default sentence when blank) with a final period added if it lacks one.
  */
  function Sentence(summary: string): (t: string)
    ensures 0 < |t| && t[|t| - 1] == '.' && !IsWhiteSpace(t[0])
  {
    var s0 := if IsBlank(summary) then DefaultSummary else summary;
    assert !IsBlank(s0) by {
      if IsBlank(summary) {
        assert !IsWhiteSpace(DefaultSummary[0]);
      }
    }
    var s1 := Trim(s0);
    var s2 := WithPeriod(s1);
    assert s2[0] == s1[0];
    s2
  }

  /**
    The sentence extends the trimmed summary (the default sentence when the
    summary is blank) by at most its final period.
  */
  lemma SentenceOfSummary(summary: string)
    ensures var b := Trim(if IsBlank(summary) then DefaultSummary else summary);
      var t := Sentence(summary);
      0 < |b| && b <= t && |t| <= |b| + 1 && (b[|b| - 1] == '.' <==> t == b)
  {
    if IsBlank(summary) {
      assert !IsWhiteSpace(DefaultSummary[0]);
    }
  }

  /** Adds the final period unless the text already ends with one. */
  function WithPeriod(s: string): (r: string)
    ensures 0 < |r| && r[|r| - 1] == '.' && s <= r && |r| <= |s| + 1
  {
    if |s| > 0 && s[|s| - 1] == '.' then s else s + "."
  }

  /** Upper-cases the first character of a text longer than one character. */
  function Capitalize(s: string): (r: string)
    requires 0 < |s| && s[|s| - 1] == '.'
    requires !IsWhiteSpace(s[0])
    ensures |r| == |s| && r[|r| - 1] == '.'
    ensures r[0] == (if |s| > 1 then Upper(s[0]) else s[0]) && r[1..] == s[1..]
    ensures !IsWhiteSpace(r[0]) && r[0] == Upper(r[0])
  {
    if |s| > 1 then [Upper(s[0])] + s[1..] else s
  }

  /** The finished summaries are exactly the fixed points of `Finalize`. */
  lemma FinalizeFixed(s: string)
    ensures Finalize(s) == s <==> IsFinal(s)
  {
    if IsFinal(s) {
      assert !IsBlank(s) by {
        assert !IsWhiteSpace(s[0]);
      }
      TrimKeeps(s);
      if |s| > 1 {
        assert [Upper(s[0])] + s[1..] == s;
      }
    }
  }

  /** `Finalize` is idempotent. */
  lemma FinalizeIdempotent(s: string)
    ensures Finalize(Finalize(s)) == Finalize(s)
  {
    FinalizeFixed(Finalize(s));
  }

  // ------------------------------------------------------------ SQL

  /** `KEYWORD\s+([A-Za-z0-9_\.]+)`: the table after the keyword, or "table" when there is none. */
  function ExtractSqlTable(code: string, keyword: string): (r: string)
    requires |keyword| > 0
    ensures r == "table" || exists q :: 0 <= q <= |code| && r <= code[q..]
  {
    match FirstMatch(TableAfter(keyword), code, 0)
    case None => "table"
    case Some(m) =>
      assert code[m.nameStart..][..m.nameEnd - m.nameStart] == Name(code, m);
      Name(code, m)
  }

  /** The table is never empty: a match captures at least one character, and no match gives "table". */
  lemma ExtractSqlTableNonEmpty(code: string, keyword: string)
    requires |keyword| > 0
    ensures ExtractSqlTable(code, keyword) != ""
  {
    match FirstMatch(TableAfter(keyword), code, 0)
    case None =>
    case Some(m) =>
      assert MatchAt(TableAfter(keyword), code, m.start) == Some(m);
  }

  /** The keyword in any casing at `q`, then white space, then a character of `[A-Za-z0-9_.]`. */
  predicate TableKeywordAt(code: string, keyword: string, q: nat)
    requires q <= |code|
  {
    && MatchesAt(code, q, keyword)
    && q + |keyword| < |code| && IsWhiteSpace(code[q + |keyword|])
    && var t := Span(White, code, q + |keyword|);
       t < |code| && InClass(TableName, code[t])
  }

  /** The table pattern matches at `q` exactly where the keyword is followed by white space and a table character. */
  lemma TableMatchAt(code: string, keyword: string, q: nat)
    requires |keyword| > 0 && q <= |code|
    ensures MatchAt(TableAfter(keyword), code, q).Some? <==> TableKeywordAt(code, keyword, q)
    ensures TableKeywordAt(code, keyword, q) ==>
      var m := MatchAt(TableAfter(keyword), code, q).value;
      var t := Span(White, code, q + |keyword|);
      m.nameStart == t && m.nameEnd == Span(TableName, code, t)
  {
  }

  /**
    With an occurrence of the keyword, white space and a table character,
    the table is the longest run of `[A-Za-z0-9_.]` after the white space
    that follows the first such occurrence.
  */
  lemma ExtractSqlTableFirst(code: string, keyword: string, q: nat)
    requires |keyword| > 0 && q <= |code| && TableKeywordAt(code, keyword, q)
    requires forall k :: 0 <= k < q ==> !TableKeywordAt(code, keyword, k)
    ensures var t := Span(White, code, q + |keyword|);
      var r := ExtractSqlTable(code, keyword);
      && r == code[t..Span(TableName, code, t)]
      && |r| > 0 && forall i :: 0 <= i < |r| ==> InClass(TableName, r[i])
  {
    var p := TableAfter(keyword);
    TableMatchAt(code, keyword, q);
    var m := FirstMatch(p, code, 0).value;
    if m.start < q {
      TableMatchAt(code, keyword, m.start);
      assert false;
    }
    assert m == MatchAt(p, code, q).value;
  }

  /** Without such an occurrence the table is "table". */
  lemma ExtractSqlTableFallback(code: string, keyword: string)
    requires |keyword| > 0
    requires forall q :: 0 <= q <= |code| ==> !TableKeywordAt(code, keyword, q)
    ensures ExtractSqlTable(code, keyword) == "table"
  {
    var p := TableAfter(keyword);
    if FirstMatch(p, code, 0).Some? {
      var m := FirstMatch(p, code, 0).value;
      TableMatchAt(code, keyword, m.start);
    }
  }

  /** An INSERT statement's table: after INTO, else after INSERT INTO, as the source writes it. */
  function InsertTable(code: string): string
  {
    var t := ExtractSqlTable(code, "INTO");
    if t == "" then ExtractSqlTable(code, "INSERT INTO") else t
  }

  /** The INSERT INTO fallback never applies, since the table after INTO is never empty. */
  lemma InsertFallbackUnused(code: string)
    ensures InsertTable(code) == ExtractSqlTable(code, "INTO")
  {
    ExtractSqlTableNonEmpty(code, "INTO");
  }

  /**
    `\bCREATE\s+(PROC|PROCEDURE|FUNCTION)\b` on the upper-cased text.
    PROCEDURE is listed before its prefix PROC (see `Phrase`).
  */
  const CreateRoutine := Phrase(AtBoundary, [["CREATE", "PROCEDURE"], ["CREATE", "PROC"], ["CREATE", "FUNCTION"]])

  /** The SQL statements the summary distinguishes, in the order it looks for them. */
  datatype SqlKind = Select | Insert | Update | Delete | Define | Other

  /**
    Reference for the SQL priority: the first of SELECT, INSERT, UPDATE,
    DELETE the (upper-cased) text contains, else a CREATE PROC/FUNCTION,
    else other.
  */
  function SqlKindOf(code: string): SqlKind
  {
    if ContainsIgnoreCase(code, "SELECT") then Select
    else if ContainsIgnoreCase(code, "INSERT") then Insert
    else if ContainsIgnoreCase(code, "UPDATE") then Update
    else if ContainsIgnoreCase(code, "DELETE") then Delete
    else if IsMatch(CreateRoutine, ToUpper(code)) then Define
    else Other
  }

  const SelectLead := "Retrieves data from "
  const InsertLead := "Inserts new records into "
  const UpdateLead := "Updates records in "
  const DeleteLead := "Deletes records from "
  const DefineSummary := "Defines stored procedure/function."
  const OtherSqlSummary := "Executes SQL command."

  /**
    `GenerateSql`.  A case-sensitive search of the upper-cased text is, for
    ASCII, the same as a case-insensitive search of the text.
  */
  function GenerateSql(code: string): (r: string)
  {
    if ContainsIgnoreCase(code, "SELECT") then SelectLead + ExtractSqlTable(code, "FROM") + "."
    else if ContainsIgnoreCase(code, "INSERT") then InsertLead + InsertTable(code) + "."
    else if ContainsIgnoreCase(code, "UPDATE") then UpdateLead + ExtractSqlTable(code, "UPDATE") + "."
    else if ContainsIgnoreCase(code, "DELETE") then DeleteLead + ExtractSqlTable(code, "FROM") + "."
    else if IsMatch(CreateRoutine, ToUpper(code)) then DefineSummary
    else OtherSqlSummary
  }

  /** Reads back which statement a SQL summary describes from its wording. */
  function SqlKindOfSummary(summary: string): SqlKind
  {
    if SelectLead <= summary then Select
    else if InsertLead <= summary then Insert
    else if UpdateLead <= summary then Update
    else if DeleteLead <= summary then Delete
    else if summary == DefineSummary then Define
    else Other
  }

  /** The first characters that tell the SQL summaries apart. */
  lemma SqlWordings()
    ensures SelectLead[0] == 'R' && InsertLead[0] == 'I' && UpdateLead[0] == 'U'
    ensures DeleteLead[0] == 'D' && DeleteLead[2] == 'l' && DefineSummary[0] == 'D' && DefineSummary[2] == 'f'
    ensures OtherSqlSummary[0] == 'E'
  {
  }

  /** Reading back a summary made of one of the four statement leads, a table and a period. */
  lemma LeadReadsBack(table: string)
    ensures SqlKindOfSummary(SelectLead + table + ".") == Select
    ensures SqlKindOfSummary(InsertLead + table + ".") == Insert
    ensures SqlKindOfSummary(UpdateLead + table + ".") == Update
    ensures SqlKindOfSummary(DeleteLead + table + ".") == Delete
  {
    SqlWordings();
    assert SelectLead <= SelectLead + table + ".";
    assert InsertLead <= InsertLead + table + "." && (InsertLead + table + ".")[0] == 'I';
    assert UpdateLead <= UpdateLead + table + "." && (UpdateLead + table + ".")[0] == 'U';
    assert DeleteLead <= DeleteLead + table + "." && (DeleteLead + table + ".")[0] == 'D';
  }

  /** Reading back the two fixed SQL sentences. */
  lemma FixedReadsBack()
    ensures SqlKindOfSummary(DefineSummary) == Define
    ensures SqlKindOfSummary(OtherSqlSummary) == Other
  {
    SqlWordings();
  }

  /** The SQL summary names the statement the priority order picks: reading it back gives that statement. */
  lemma GenerateSqlKind(code: string)
    ensures SqlKindOfSummary(GenerateSql(code)) == SqlKindOf(code)
  {
    FixedReadsBack();
    if ContainsIgnoreCase(code, "SELECT") {
      LeadReadsBack(ExtractSqlTable(code, "FROM"));
    } else if ContainsIgnoreCase(code, "INSERT") {
      LeadReadsBack(InsertTable(code));
    } else if ContainsIgnoreCase(code, "UPDATE") {
      LeadReadsBack(ExtractSqlTable(code, "UPDATE"));
    } else if ContainsIgnoreCase(code, "DELETE") {
      LeadReadsBack(ExtractSqlTable(code, "FROM"));
    }
  }

  // ------------------------------------------------------------ C# and VB.NET

  /** The loan terms that decide the loan summary, compared ignoring case. */
  predicate MentionsLoan(code: string)
  {
    ContainsIgnoreCase(code, "principal") || ContainsIgnoreCase(code, "rate") || ContainsIgnoreCase(code, "term")
  }

  /** The summary's method-start pattern, which also accepts `shared` as a modifier. */
  const SummaryMethod := Signature(["public", "private", "protected", "internal", "shared", "static", "async",
    "virtual", "override", "sealed", "partial", "extern"], false)

  const Verbs := ["Get", "Save", "Update", "Calculate", "Process", "Validate"]

  /** `\b(Get|Save|Update|Calculate|Process|Validate)\b`. */
  const VerbBoundary := Phrase(AtBoundary, [["Get"], ["Save"], ["Update"], ["Calculate"], ["Process"], ["Validate"]])

  /** `Get|Save|Update|Calculate|Process|Validate`, unanchored. */
  const VerbWord := Alternatives(Verbs)

  const GetSummary := "Retrieves application data."
  const SaveSummary := "Saves application data."
  const UpdateSummary := "Updates application data."
  const CalculateSummary := "Performs a calculation."
  const ValidateSummary := "Validates input or state."

  /** The verb switch, which compares the matched text case-sensitively. */
  function VerbSummary(verb: string): string
  {
    if verb == "Get" then GetSummary
    else if verb == "Save" then SaveSummary
    else if verb == "Update" then UpdateSummary
    else if verb == "Calculate" then CalculateSummary
    else if verb == "Process" then FallbackSummary
    else if verb == "Validate" then ValidateSummary
    else FallbackSummary
  }

  /** Every sentence the C#/VB.NET heuristics can produce. */
  const DotNetSummaries: set<string> := {LoanSummary, FallbackSummary, SavesSummary, DeletesSummary,
    GetSummary, SaveSummary, UpdateSummary, CalculateSummary, ValidateSummary}

  /** The fixed C#/VB.NET sentences are already final, so `Finalize` keeps them. */
  lemma DotNetSummariesFinal()
    ensures forall s :: s in DotNetSummaries ==> IsFinal(s)
  {
  }

  /** The first method name in the code, else the first class name. */
  function FirstDeclaredName(code: string): (r: Option<string>)
    ensures r.Some? ==> IsIdentifier(r.value)
    ensures r.None? <==> !IsMatch(SummaryMethod, code) && !IsMatch(ClassStart, code)
  {
    var m := FirstName(SummaryMethod, code);
    if m.Some? then m else FirstName(ClassStart, code)
  }

  /** The summary inferred from a declared name. */
  function NamedSummary(name: string): string
  {
    if ContainsIgnoreCase(name, "save") || ContainsIgnoreCase(name, "insert") then SavesSummary
    else if ContainsIgnoreCase(name, "delete") || ContainsIgnoreCase(name, "remove") then DeletesSummary
    else if IsMatch(VerbBoundary, name) then
      // A failed `Regex.Match` has the empty string as its value.
      VerbSummary(match FirstName(VerbWord, name) { case None => "" case Some(v) => v })
    else FallbackSummary
  }

  /** `phrases` lists each of `words` as a one-word phrase. */
  ghost predicate Singles(phrases: seq<seq<string>>, words: seq<string>)
  {
    |phrases| == |words| && forall i :: 0 <= i < |words| ==> phrases[i] == [words[i]]
  }

  /** No two of `words` start with the same letter, ignoring case. */
  ghost predicate DistinctInitials(words: seq<string>)
    requires WordsOk(words)
  {
    forall i, j :: 0 <= i < |words| && 0 <= j < |words| && Lower(words[i][0]) == Lower(words[j][0]) ==> i == j
  }

  /** The first word of `words[k..]` matching at `q` decides `FirstWordAt`. */
  lemma {:induction false} FirstWordAtSome(s: string, q: nat, words: seq<string>, k: nat, j: nat)
    requires q <= |s| && WordsOk(words) && k <= j < |words| && MatchesAt(s, q, words[j])
    ensures exists i :: k <= i <= j && MatchesAt(s, q, words[i]) && FirstWordAt(s, q, words, k) == Some(q + |words[i]|)
    decreases |words| - k
  {
    if !MatchesAt(s, q, words[k]) {
      FirstWordAtSome(s, q, words, k + 1, j);
    }
  }

  /** The same for a list of one-word phrases. */
  lemma {:induction false} FirstPhraseEndSome(s: string, p: nat, phrases: seq<seq<string>>, words: seq<string>, k: nat, j: nat)
    requires p <= |s| && PhrasesOk(phrases) && Singles(phrases, words) && k <= j < |words|
    requires MatchesAt(s, p, words[j])
    ensures exists i :: k <= i <= j && MatchesAt(s, p, words[i]) && FirstPhraseEnd(s, p, phrases, k) == Some(p + |words[i]|)
    decreases |phrases| - k
  {
    assert phrases[k] == [words[k]];
    if !MatchesAt(s, p, words[k]) {
      FirstPhraseEndSome(s, p, phrases, words, k + 1, j);
    }
  }

  /** What a successful `FirstPhraseEnd` over one-word phrases found. */
  lemma {:induction false} FirstPhraseEndFound(s: string, p: nat, phrases: seq<seq<string>>, words: seq<string>, k: nat)
    requires p <= |s| && PhrasesOk(phrases) && Singles(phrases, words)
    requires FirstPhraseEnd(s, p, phrases, k).Some?
    ensures exists i :: k <= i < |words| && MatchesAt(s, p, words[i]) && FirstPhraseEnd(s, p, phrases, k) == Some(p + |words[i]|)
    decreases |phrases| - k
  {
    assert phrases[k] == [words[k]];
    if PhraseEnd(s, p, phrases[k]).None? {
      FirstPhraseEndFound(s, p, phrases, words, k + 1);
    }
  }

  /** Inside an identifier every position lies between two word characters, so `\b` only holds at its ends. */
  lemma IdentifierBoundaries(name: string, q: nat)
    requires IsIdentifier(name) && q <= |name| && Boundary(name, q)
    ensures q == 0 || q == |name|
  {
    assert forall i :: 0 <= i < |name| ==> IsWordChar(name[i]);
  }

  /** A match of `\b(w1|w2|...)\b` in an identifier is the whole identifier. */
  lemma BoundaryWordIsWhole(name: string, phrases: seq<seq<string>>, words: seq<string>)
    requires IsIdentifier(name) && PhrasesOk(phrases) && Singles(phrases, words)
    requires IsMatch(Phrase(AtBoundary, phrases), name)
    ensures exists i :: 0 <= i < |words| && EqualsIgnoreCase(name, words[i])
  {
    var m := FirstMatch(Phrase(AtBoundary, phrases), name, 0).value;
    var q := m.start;
    assert PhraseAt(name, AtBoundary, phrases, q) == Some(m);
    IdentifierBoundaries(name, q);
    var e := FirstPhraseEnd(name, q, phrases, 0).value;
    FirstPhraseEndFound(name, q, phrases, words, 0);
    var i :| 0 <= i < |words| && MatchesAt(name, q, words[i]) && e == q + |words[i]|;
    assert q == 0;
    assert e == |name|;
    assert name[0..|name|] == name;
  }

  /** A word that starts a name equal to some word ignoring case is that word, when the initials differ. */
  lemma WordSpansName(name: string, words: seq<string>, i: nat, j: nat)
    requires WordsOk(words) && DistinctInitials(words) && i < |words| && j < |words|
    requires MatchesAt(name, 0, words[i]) && EqualsIgnoreCase(name, words[j])
    ensures i == j && |words[i]| == |name|
  {
    var a, b := words[i], words[j];
    assert Lower(name[0]) == Lower(a[0]) by {
      assert ToLower(name[0..|a|])[0] == ToLower(a)[0];
    }
    assert Lower(name[0]) == Lower(b[0]) by {
      assert ToLower(name)[0] == ToLower(b)[0];
    }
  }

  /** Conversely, a name equal to one of the words, ignoring case, is matched. */
  lemma WholeWordMatches(name: string, phrases: seq<seq<string>>, words: seq<string>, j: nat)
    requires IsIdentifier(name) && PhrasesOk(phrases) && Singles(phrases, words)
    requires WordsOk(words) && DistinctInitials(words) && j < |words| && EqualsIgnoreCase(name, words[j])
    ensures IsMatch(Phrase(AtBoundary, phrases), name)
  {
    assert name[0..|words[j]|] == name;
    FirstPhraseEndSome(name, 0, phrases, words, 0, j);
    var i :| 0 <= i <= j && MatchesAt(name, 0, words[i]) && FirstPhraseEnd(name, 0, phrases, 0) == Some(|words[i]|);
    WordSpansName(name, words, i, j);
    assert Boundary(name, 0);
    assert MatchAt(Phrase(AtBoundary, phrases), name, 0).Some?;
  }

  /** The unanchored alternatives find a whole-name word at the start, as written in the name. */
  lemma WholeWordFound(name: string, words: seq<string>, j: nat)
    requires WordsOk(words) && DistinctInitials(words) && j < |words| && EqualsIgnoreCase(name, words[j])
    ensures FirstName(Alternatives(words), name) == Some(name)
  {
    assert name[0..|words[j]|] == name;
    FirstWordAtSome(name, 0, words, 0, j);
    var i :| 0 <= i <= j && MatchesAt(name, 0, words[i]) && FirstWordAt(name, 0, words, 0) == Some(|words[i]|);
    WordSpansName(name, words, i, j);
    assert MatchAt(Alternatives(words), name, 0) == Some(Capture(0, 0, |name|, |name|, |name|, |name|));
    assert name[0..|name|] == name;
  }

  /** The verb list has the shape the two lemmas above need. */
  lemma VerbsShape()
    ensures WordsOk(Verbs) && DistinctInitials(Verbs)
    ensures VerbBoundary.Phrase? && VerbBoundary.anchor == AtBoundary && PhrasesOk(VerbBoundary.alternatives)
    ensures Singles(VerbBoundary.alternatives, Verbs)
  {
  }

  /**
    `\b(Get|...)\b` matches an identifier exactly when the whole identifier
    is one of the verbs, ignoring case.
  */
  lemma VerbNeedsWholeName(name: string)
    requires IsIdentifier(name)
    ensures IsMatch(VerbBoundary, name) <==> exists v :: v in Verbs && EqualsIgnoreCase(name, v)
  {
    VerbsShape();
    if IsMatch(VerbBoundary, name) {
      BoundaryWordIsWhole(name, VerbBoundary.alternatives, Verbs);
    }
    if exists v :: v in Verbs && EqualsIgnoreCase(name, v) {
      var v :| v in Verbs && EqualsIgnoreCase(name, v);
      var j :| 0 <= j < |Verbs| && Verbs[j] == v;
      WholeWordMatches(name, VerbBoundary.alternatives, Verbs, j);
    }
  }

  /** When the verb pattern matches an identifier, the verb switch sees the whole identifier as written. */
  lemma VerbIsWholeName(name: string)
    requires IsIdentifier(name) && IsMatch(VerbBoundary, name)
    ensures FirstName(VerbWord, name) == Some(name)
  {
    VerbNeedsWholeName(name);
    VerbsShape();
    var v :| v in Verbs && EqualsIgnoreCase(name, v);
    var j :| 0 <= j < |Verbs| && Verbs[j] == v;
    WholeWordFound(name, Verbs, j);
  }

  /**
    A declared name that mentions none of save, insert, delete and remove
    gets a verb's summary only when the whole name is that verb, and the
    switch then compares it case-sensitively: `GetCustomer` and `get` both
    get the fallback sentence, `Get` gets "Retrieves application data.".
  */
  lemma NamedSummaryOfVerb(name: string)
    requires IsIdentifier(name)
    requires !ContainsIgnoreCase(name, "save") && !ContainsIgnoreCase(name, "insert")
    requires !ContainsIgnoreCase(name, "delete") && !ContainsIgnoreCase(name, "remove")
    ensures NamedSummary(name) ==
      if exists v :: v in Verbs && EqualsIgnoreCase(name, v) then VerbSummary(name) else FallbackSummary
  {
    VerbNeedsWholeName(name);
    if IsMatch(VerbBoundary, name) {
      VerbIsWholeName(name);
    }
  }

  /** `GenerateDotNet`, shared by C# and VB.NET. */
  function GenerateDotNet(code: string): (r: string)
    ensures MentionsLoan(code) ==> r == LoanSummary
    ensures !MentionsLoan(code) && FirstDeclaredName(code).None? ==> r == FallbackSummary
    ensures r in DotNetSummaries
  {
    if MentionsLoan(code) then LoanSummary
    else match FirstDeclaredName(code) {
      case None => FallbackSummary
      case Some(name) => NamedSummary(name)
    }
  }

  // ------------------------------------------------------------ entry point

  /**
    `Generate`: blank code gets the default sentence; otherwise the SQL
    heuristics for a trimmed language name equal to SQL ignoring case, the
    C#/VB.NET heuristics for any other, and the result is finished.
  */
  function Generate(code: string, language: string): (r: string)
    ensures IsFinal(r)
    ensures IsBlank(code) ==> r == DefaultSummary
  {
    if IsBlank(code) then
      assert IsFinal(DefaultSummary);
      DefaultSummary
    else
      var lang := Trim(language);
      Finalize(if EqualsIgnoreCase(lang, "SQL") then GenerateSql(code) else GenerateDotNet(code))
  }

  /** A trimmed text ending in '.' is its own sentence. */
  lemma SentenceKeeps(s: string)
    requires 0 < |s| && !IsWhiteSpace(s[0]) && s[|s| - 1] == '.'
    ensures Sentence(s) == s
  {
    assert !IsBlank(s);
    TrimKeeps(s);
    SentenceOfSummary(s);
  }

  /** Capitalising and cutting keep a capitalised lead shorter than 120 characters. */
  lemma PolishKeepsLead(lead: string, t: string)
    requires 0 < |lead| < MaxLength && lead[0] == Upper(lead[0]) && lead < t
    requires t[|t| - 1] == '.' && !IsWhiteSpace(t[0])
    ensures lead <= Polish(t)
  {
    var r := Polish(t);
    assert PolishedFrom(r, t);
    assert r[0] == lead[0];
    forall i | 1 <= i < |lead|
      ensures r[i] == lead[i]
    {
      assert r[1..|r| - 1][i - 1] == t[1..|r| - 1][i - 1];
    }
    assert r[..|lead|] == lead;
  }

  /**
    A sentence that starts with a capitalised lead shorter than 120
    characters and ends in '.' keeps that lead through `Finalize`: it is
    already trimmed and punctuated, and the cut keeps its first 119
    characters.
  */
  lemma FinalizeKeepsLead(lead: string, rest: string)
    requires 0 < |lead| < MaxLength && !IsWhiteSpace(lead[0]) && lead[0] == Upper(lead[0])
    requires 0 < |rest| && rest[|rest| - 1] == '.'
    ensures lead <= Finalize(lead + rest)
  {
    var s := lead + rest;
    assert s[0] == lead[0] && s[|s| - 1] == '.' && lead < s;
    SentenceKeeps(s);
    PolishKeepsLead(lead, s);
  }

  /** The SQL statement leads. */
  const SqlLeads: set<string> := {SelectLead, InsertLead, UpdateLead, DeleteLead}

  /** Two texts that start with the same statement lead read back as the same statement. */
  lemma SameLeadSameKind(lead: string, a: string, b: string)
    requires lead in SqlLeads && lead <= a && lead <= b
    ensures SqlKindOfSummary(a) == SqlKindOfSummary(b)
  {
    SqlWordings();
    assert a[0] == lead[0] && b[0] == lead[0];
    if lead == DeleteLead {
      assert a[2] == lead[2] && b[2] == lead[2];
    }
  }

  /** Finishing a sentence made of a statement lead, a table and a period keeps the statement it names. */
  lemma FinalizeLeadKind(lead: string, table: string)
    requires lead in SqlLeads
    ensures SqlKindOfSummary(Finalize(lead + table + ".")) == SqlKindOfSummary(lead + table + ".")
  {
    SqlWordings();
    var s := lead + table + ".";
    assert s == lead + (table + ".");
    FinalizeKeepsLead(lead, table + ".");
    SameLeadSameKind(lead, Finalize(s), s);
  }

  /** Finishing a SQL sentence keeps the wording that names its statement. */
  lemma FinalizeSqlKind(code: string)
    ensures SqlKindOfSummary(Finalize(GenerateSql(code))) == SqlKindOfSummary(GenerateSql(code))
  {
    if ContainsIgnoreCase(code, "SELECT") {
      FinalizeLeadKind(SelectLead, ExtractSqlTable(code, "FROM"));
    } else if ContainsIgnoreCase(code, "INSERT") {
      FinalizeLeadKind(InsertLead, InsertTable(code));
    } else if ContainsIgnoreCase(code, "UPDATE") {
      FinalizeLeadKind(UpdateLead, ExtractSqlTable(code, "UPDATE"));
    } else if ContainsIgnoreCase(code, "DELETE") {
      FinalizeLeadKind(DeleteLead, ExtractSqlTable(code, "FROM"));
    } else {
      assert IsFinal(DefineSummary) && IsFinal(OtherSqlSummary);
      FinalizeFixed(GenerateSql(code));
    }
  }

  /**
    Non-blank code with a language other than SQL (after trimming, ignoring
    case), Unknown included, gets the C#/VB.NET sentence unchanged: always
    one of the fixed sentences, the loan sentence when a loan word occurs,
    and the fallback sentence when no name is declared either.
  */
  lemma GenerateDotNetRoute(code: string, language: string)
    requires !IsBlank(code) && !EqualsIgnoreCase(Trim(language), "SQL")
    ensures Generate(code, language) == GenerateDotNet(code)
    ensures Generate(code, language) in DotNetSummaries
    ensures MentionsLoan(code) ==> Generate(code, language) == LoanSummary
    ensures !MentionsLoan(code) && FirstDeclaredName(code).None? ==> Generate(code, language) == FallbackSummary
  {
    DotNetSummariesFinal();
    FinalizeFixed(GenerateDotNet(code));
  }

  /**
    Non-blank code with the language SQL (after trimming, ignoring case) gets
    a SQL sentence, and its wording names the statement the SQL priority
    order picks.
  */
  lemma GenerateSqlRoute(code: string, language: string)
    requires !IsBlank(code) && EqualsIgnoreCase(Trim(language), "SQL")
    ensures SqlKindOfSummary(Generate(code, language)) == SqlKindOf(code)
  {
    GenerateSqlKind(code);
    FinalizeSqlKind(code);
  }
}

=== FILE: text.dfy ===
/**
  Character classes, ordinal-ignore-case comparison and the small string
  utilities shared by every analyzer: trimming, blank tests, line splitting
  and joining.  .NET's Unicode-aware classes are approximated by their ASCII
  subsets.
*/
module Text {

  predicate IsUpper(c: char) { 'A' <= c <= 'Z' }
  predicate IsLower(c: char) { 'a' <= c <= 'z' }
  predicate IsLetter(c: char) { IsUpper(c) || IsLower(c) }
  predicate IsDigit(c: char) { '0' <= c <= '9' }
  predicate IsLetterOrDigit(c: char) { IsLetter(c) || IsDigit(c) }

  /** The regex class `\w` (ASCII part): letters, digits and '_'. */
  predicate IsWordChar(c: char) { IsLetterOrDigit(c) || c == '_' }

  /** `char.IsWhiteSpace` restricted to ASCII: space, tab, LF, VT, FF, CR. */
  predicate IsWhiteSpace(c: char) { c == ' ' || 9 <= c as int <= 13 }

  function Lower(c: char): char { if IsUpper(c) then (c as int + 32) as char else c }
  function Upper(c: char): char { if IsLower(c) then (c as int - 32) as char else c }

  /** Ordinal case folding of a whole string. */
  function ToLower(s: string): (r: string)
    ensures |r| == |s|
  {
    seq(|s|, i requires 0 <= i < |s| => Lower(s[i]))
  }

  function ToUpper(s: string): (r: string)
    ensures |r| == |s|
  {
    seq(|s|, i requires 0 <= i < |s| => Upper(s[i]))
  }

  /** `string.Equals(a, b, StringComparison.OrdinalIgnoreCase)`. */
  predicate EqualsIgnoreCase(a: string, b: string) { ToLower(a) == ToLower(b) }

  /** True when `t` occurs in `s` at offset `q`, ignoring case. */
  predicate MatchesAt(s: string, q: int, t: string)
  {
    0 <= q && q + |t| <= |s| && EqualsIgnoreCase(s[q..q + |t|], t)
  }

  /** `s.IndexOf(t, OrdinalIgnoreCase) >= 0`. */
  predicate ContainsIgnoreCase(s: string, t: string)
  {
    exists q :: 0 <= q <= |s| - |t| && MatchesAt(s, q, t)
  }

  /** `s.IndexOf(t, from, OrdinalIgnoreCase)`: first match at or after `from`, or -1. */
  function IndexOfIgnoreCase(s: string, t: string, from: nat): (r: int)
    ensures r == -1 || (from <= r && MatchesAt(s, r, t))
    ensures forall q :: from <= q && (r == -1 || q < r) ==> !MatchesAt(s, q, t)
    decreases |s| - from
  {
    if from + |t| > |s| then -1
    else if MatchesAt(s, from, t) then from
    else IndexOfIgnoreCase(s, t, from + 1)
  }

  /** First index of `c` in `s`, or -1 (`s.IndexOf(c)`). */
  function IndexOfChar(s: string, c: char): (r: int)
    ensures -1 <= r < |s|
    ensures r >= 0 ==> s[r] == c && c !in s[..r]
    ensures r == -1 <==> c !in s
  {
    if |s| == 0 then -1
    else if s[0] == c then 0
    else
      var k := IndexOfChar(s[1..], c);
      assert s[1..][..k + 1] == s[1..k + 2] by { if k >= 0 {} }
      if k < 0 then -1 else k + 1
  }

  /** Number of occurrences of `c` in `s`. */
  function CountChar(s: string, c: char): (n: nat)
    ensures n <= |s|
    ensures n == 0 <==> c !in s
  {
    if |s| == 0 then 0
    else (if s[0] == c then 1 else 0) + CountChar(s[1..], c)
  }

  lemma CountCharAppend(a: string, b: string, c: char)
    ensures CountChar(a + b, c) == CountChar(a, c) + CountChar(b, c)
  {
    if |a| > 0 {
      assert (a + b)[1..] == a[1..] + b;
      CountCharAppend(a[1..], b, c);
    } else {
      assert a + b == b;
    }
  }

  /** `string.IsNullOrWhiteSpace` for a non-null string. */
  predicate IsBlank(s: string) { forall i :: 0 <= i < |s| ==> IsWhiteSpace(s[i]) }

  function TrimStart(s: string): (r: string)
    ensures |r| <= |s| && r == s[|s| - |r|..]
    ensures |r| > 0 ==> !IsWhiteSpace(r[0])
    ensures forall i :: 0 <= i < |s| - |r| ==> IsWhiteSpace(s[i])
  {
    if |s| > 0 && IsWhiteSpace(s[0]) then TrimStart(s[1..]) else s
  }

  function TrimEnd(s: string): (r: string)
    ensures |r| <= |s| && r == s[..|r|]
    ensures |r| > 0 ==> !IsWhiteSpace(r[|r| - 1])
    ensures forall i :: |r| <= i < |s| ==> IsWhiteSpace(s[i])
  {
    if |s| > 0 && IsWhiteSpace(s[|s| - 1]) then TrimEnd(s[..|s| - 1]) else s
  }

  /** `string.Trim()`: the longest slice without leading or trailing white space. */
  function Trim(s: string): (r: string)
    ensures |r| <= |s|
    ensures |r| > 0 ==> !IsWhiteSpace(r[0]) && !IsWhiteSpace(r[|r| - 1])
    ensures |r| == 0 <==> IsBlank(s)
    ensures forall c :: c in r ==> c in s
  {
    var t := TrimStart(s);
    var r := TrimEnd(t);
    var a := |s| - |t|;
    assert |r| > 0 ==> r[0] == t[0] == s[a];
    forall c | c in r
      ensures c in s
    {
      var k :| 0 <= k < |r| && r[k] == c;
      assert s[a + k] == c;
    }
    r
  }

  /** A string with non-blank ends is its own trim. */
  lemma TrimKeeps(s: string)
    requires |s| > 0 && !IsWhiteSpace(s[0]) && !IsWhiteSpace(s[|s| - 1])
    ensures Trim(s) == s
  {
    assert TrimStart(s) == s;
    assert TrimEnd(s) == s;
  }

  /** A string made of `n` spaces (`new string(' ', n)`). */
  function Spaces(n: nat): (r: string)
    ensures |r| == n && forall i :: 0 <= i < n ==> r[i] == ' '
  {
    seq(n, i => ' ')
  }

  /**
    `text.Replace("\r\n", "\n").Replace('\r', '\n')` fused into one pass:
    a CR LF pair becomes one LF, a lone CR becomes LF.
  */
  function NormalizeNewlines(s: string): (r: string)
    ensures '\r' !in r
    ensures CountChar(r, '\n') == LineBreaks(s)
    decreases |s|
  {
    if |s| == 0 then ""
    else if |s| >= 2 && s[0] == '\r' && s[1] == '\n' then "\n" + NormalizeNewlines(s[2..])
    else if s[0] == '\r' then "\n" + NormalizeNewlines(s[1..])
    else [s[0]] + NormalizeNewlines(s[1..])
  }

  /** Number of line breaks in `s`, counting CR LF, a lone CR and a lone LF once each. */
  function LineBreaks(s: string): nat
    decreases |s|
  {
    if |s| == 0 then 0
    else if |s| >= 2 && s[0] == '\r' && s[1] == '\n' then 1 + LineBreaks(s[2..])
    else if s[0] == '\r' || s[0] == '\n' then 1 + LineBreaks(s[1..])
    else LineBreaks(s[1..])
  }

  /** `s.Split(sep)`: the maximal `sep`-free pieces, empty ones included. */
  function Split(s: string, sep: char): (r: seq<string>)
    ensures |r| == CountChar(s, sep) + 1
  {
    if |s| == 0 then [""]
    else if s[0] == sep then [""] + Split(s[1..], sep)
    else
      var rest := Split(s[1..], sep);
      [[s[0]] + rest[0]] + rest[1..]
  }

  /** No piece of a split holds the separator. */
  lemma {:induction false} SplitPiecesFree(s: string, sep: char)
    ensures forall i :: 0 <= i < |Split(s, sep)| ==> sep !in Split(s, sep)[i]
  {
    if |s| > 0 {
      SplitPiecesFree(s[1..], sep);
      var rest := Split(s[1..], sep);
      if s[0] != sep {
        assert sep !in [s[0]] + rest[0];
      }
    }
  }

  /** `string.Join(sep, parts)`. */
  function Join(parts: seq<string>, sep: char): string
  {
    if |parts| == 0 then ""
    else if |parts| == 1 then parts[0]
    else parts[0] + [sep] + Join(parts[1..], sep)
  }

  /** The analyzers' common `SplitLines`: normalise line breaks, then split on LF. */
  function SplitLines(text: string): (lines: seq<string>)
    ensures |lines| == LineBreaks(text) + 1
    ensures forall i :: 0 <= i < |lines| ==> '\n' !in lines[i] && '\r' !in lines[i]
  {
    var n := NormalizeNewlines(text);
    var lines := Split(n, '\n');
    SplitPiecesFree(n, '\n');
    assert forall i :: 0 <= i < |lines| ==> '\r' !in lines[i] by {
      SplitPiecesFrom(n, '\n');
    }
    lines
  }

  /** Every character of every piece of `Split(s, sep)` comes from `s`. */
  lemma SplitPiecesFrom(s: string, sep: char)
    ensures forall i, c :: 0 <= i < |Split(s, sep)| && c in Split(s, sep)[i] ==> c in s
  {
    if |s| > 0 {
      SplitPiecesFrom(s[1..], sep);
      var rest := Split(s[1..], sep);
      assert forall c :: c in s[1..] ==> c in s;
      if s[0] != sep {
        assert forall c :: c in [s[0]] + rest[0] ==> c == s[0] || c in rest[0];
      }
    }
  }

  /** Joining the pieces of a split gives back the original text. */
  lemma {:induction false} JoinSplit(s: string, sep: char)
    ensures Join(Split(s, sep), sep) == s
  {
    if |s| > 0 {
      JoinSplit(s[1..], sep);
      if s[0] == sep {
        JoinSplitAtSep(s, sep);
      } else {
        JoinSplitAtChar(s, sep);
      }
    }
  }

  /** `JoinSplit` one step: a leading separator opens an empty first piece. */
  lemma JoinSplitAtSep(s: string, sep: char)
    requires |s| > 0 && s[0] == sep && Join(Split(s[1..], sep), sep) == s[1..]
    ensures Join(Split(s, sep), sep) == s
  {
    var rest := Split(s[1..], sep);
    var parts := [""] + rest;
    assert Split(s, sep) == parts && parts[1..] == rest;
    assert Join(parts, sep) == "" + [sep] + Join(rest, sep);
    assert s == [sep] + s[1..];
  }

  /** `JoinSplit` one step: a leading non-separator joins the first piece. */
  lemma JoinSplitAtChar(s: string, sep: char)
    requires |s| > 0 && s[0] != sep && Join(Split(s[1..], sep), sep) == s[1..]
    ensures Join(Split(s, sep), sep) == s
  {
    var rest := Split(s[1..], sep);
    var parts := [[s[0]] + rest[0]] + rest[1..];
    assert Split(s, sep) == parts;
    if |rest| == 1 {
      assert Join(parts, sep) == [s[0]] + rest[0];
    } else {
      assert parts[1..] == rest[1..];
      assert Join(rest, sep) == rest[0] + [sep] + Join(rest[1..], sep);
    }
    assert s == [s[0]] + s[1..];
  }

  /** Splitting a join of separator-free pieces gives back the pieces. */
  lemma {:induction false} SplitJoin(parts: seq<string>, sep: char)
    requires |parts| > 0
    requires forall i :: 0 <= i < |parts| ==> sep !in parts[i]
    ensures Split(Join(parts, sep), sep) == parts
  {
    if |parts| == 1 {
      SplitNoSep(parts[0], sep);
    } else {
      SplitJoin(parts[1..], sep);
      SplitPiece(parts[0], Join(parts[1..], sep), sep);
    }
  }

  lemma {:induction false} SplitNoSep(a: string, sep: char)
    requires sep !in a
    ensures Split(a, sep) == [a]
  {
    if |a| > 0 {
      SplitNoSep(a[1..], sep);
      assert a == [a[0]] + a[1..];
    }
  }

  lemma {:induction false} SplitPiece(a: string, rest: string, sep: char)
    requires sep !in a
    ensures Split(a + [sep] + rest, sep) == [a] + Split(rest, sep)
  {
    if |a| == 0 {
      assert a + [sep] + rest == [sep] + rest;
      assert ([sep] + rest)[1..] == rest;
    } else {
      SplitPiece(a[1..], rest, sep);
      SplitPieceStep(a, rest, sep);
    }
  }

  /** `SplitPiece` one step, given it for the tail of `a`. */
  lemma SplitPieceStep(a: string, rest: string, sep: char)
    requires |a| > 0 && sep !in a
    requires Split(a[1..] + [sep] + rest, sep) == [a[1..]] + Split(rest, sep)
    ensures Split(a + [sep] + rest, sep) == [a] + Split(rest, sep)
  {
    var s := a + [sep] + rest;
    assert s[0] == a[0] != sep;
    assert s[1..] == a[1..] + [sep] + rest;
    SplitNonSep(s, sep, Split(s[1..], sep));
    assert [a[0]] + a[1..] == a;
  }

  /** A text starting with a non-separator adds its first character to the first piece of the rest. */
  lemma SplitNonSep(s: string, sep: char, after: seq<string>)
    requires |s| > 0 && s[0] != sep && after == Split(s[1..], sep)
    ensures Split(s, sep) == [[s[0]] + after[0]] + after[1..]
  {
  }

  /** Case folding commutes with slicing. */
  lemma LowerSlice(s: string, a: int, b: int)
    requires 0 <= a <= b <= |s|
    ensures ToLower(s[a..b]) == ToLower(s)[a..b]
  {
  }

  /** Folding never turns white space into non-white space or back. */
  lemma LowerKeepsWhiteSpace(c: char)
    ensures IsWhiteSpace(Lower(c)) <==> IsWhiteSpace(c)
  {
  }

  /** Case-insensitive containment only looks at the folded text. */
  lemma ContainsIgnoreCaseFolded(s: string, s': string, t: string)
    requires ToLower(s) == ToLower(s')
    ensures ContainsIgnoreCase(s, t) <==> ContainsIgnoreCase(s', t)
  {
    assert |s| == |s'|;
    forall q | 0 <= q <= |s| - |t|
      ensures MatchesAt(s, q, t) <==> MatchesAt(s', q, t)
    {
      LowerSlice(s, q, q + |t|);
      LowerSlice(s', q, q + |t|);
    }
  }

  /** Blankness only looks at the folded text. */
  lemma BlankFolded(s: string, s': string)
    requires ToLower(s) == ToLower(s')
    ensures IsBlank(s) <==> IsBlank(s')
  {
    assert |s| == |s'|;
    forall i | 0 <= i < |s| ensures IsWhiteSpace(s[i]) <==> IsWhiteSpace(s'[i]) {
      assert Lower(s[i]) == ToLower(s)[i] == ToLower(s')[i] == Lower(s'[i]);
      LowerKeepsWhiteSpace(s[i]);
      LowerKeepsWhiteSpace(s'[i]);
    }
  }

  /** A text containing a pattern with a non-white-space character is not blank. */
  lemma ContainsNotBlank(s: string, t: string, j: int)
    requires 0 <= j < |t| && !IsWhiteSpace(t[j])
    requires ContainsIgnoreCase(s, t)
    ensures !IsBlank(s)
  {
    var q :| 0 <= q <= |s| - |t| && MatchesAt(s, q, t);
    assert Lower(s[q + j]) == ToLower(s[q..q + |t|])[j] == ToLower(t)[j] == Lower(t[j]);
    LowerKeepsWhiteSpace(s[q + j]);
    LowerKeepsWhiteSpace(t[j]);
  }

  /** A case-insensitive match of `t` contains a case-insensitive match of any slice of `t`. */
  lemma ContainsSlice(s: string, t: string, a: int, b: int)
    requires 0 <= a <= b <= |t|
    requires ContainsIgnoreCase(s, t)
    ensures ContainsIgnoreCase(s, t[a..b])
  {
    var q :| 0 <= q <= |s| - |t| && MatchesAt(s, q, t);
    LowerSlice(s[q..q + |t|], a, b);
    LowerSlice(t, a, b);
    var u := s[q..q + |t|];
    assert |u| == |t|;
    assert u[a..b] == s[q + a..q + b] by {
      forall i | 0 <= i < b - a ensures u[a..b][i] == s[q + a..q + b][i] {
        assert u[a..b][i] == u[a + i] == s[q + a + i];
      }
    }
    assert |t[a..b]| == b - a;
    assert ToLower(s[q + a..q + b]) == ToLower(s[q..q + |t|])[a..b] == ToLower(t)[a..b] == ToLower(t[a..b]);
    assert MatchesAt(s, q + a, t[a..b]);
  }

  /** Concatenation is associative (a step the solver finds costly inside large proofs). */
  lemma ConcatAssoc<T>(a: seq<T>, b: seq<T>, c: seq<T>)
    ensures (a + b) + c == a + (b + c)
  {
  }

  /** Text without line breaks is left alone by `NormalizeNewlines`. */
  lemma {:induction false} NormalizeWithoutBreaks(s: string)
    requires '\r' !in s
    ensures NormalizeNewlines(s) == s
  {
    if |s| > 0 {
      NormalizeWithoutBreaks(s[1..]);
      assert s == [s[0]] + s[1..];
    }
  }

  /** Text without CR or LF is a single line. */
  lemma SingleLine(s: string)
    requires '\r' !in s && '\n' !in s
    ensures SplitLines(s) == [s]
  {
    NormalizeWithoutBreaks(s);
    SplitNoSep(s, '\n');
  }
}
